=== FILE: README.md ===
# Crystal type model (`lib/crystal/types.rb`) in Dafny

This project models the type model of the early, Ruby-hosted Crystal
compiler and proves properties of it. The model covers:

- the per-type definition tables (`add_def`, `add_sorted_def`,
  `lookup_first_def`, macros);
- the argument matcher (`match_arg`, `match_generic_type`,
  `match_def_args`);
- method resolution: `lookup_matches_without_parents` with its
  union-coverage table (`mark_cover`), `lookup_matches` with the parent
  fallback and the `new`-on-a-metaclass exception, and
  `HierarchyType#lookup_matches`;
- the type graph: `include`, `implements?`, `lookup_type`, `superclass`,
  `is_subclass_of?`, `ObjectType.new`, the preorder walk of a virtual type,
  and instance variables;
- the union algebra: `==`, `nilable?`, `filter_by`;
- `ObjectType#clone` of generic types, memoised through a types context.

Types that own methods are records in an arena (`TypeGraph.Arena`), keyed
by a fresh identifier; `next` plays the part of Ruby object identity for
newly created types. Unions and virtual (hierarchy) types are values that
refer to arena entries. The compiler's restriction relations
(`Def#is_restriction_of?`, `Type#is_restriction_of?`, `Type#restrict`) are
defined outside this file; they enter as the fields of `Matcher.Oracle`,
and every property proved holds for every choice of them.

Modules: `Wrappers`, `TypeGraph`, `ModuleTypes`, `ObjectTypes`, `DefTable`,
`Matcher`, `Cover`, `Resolver`, `InstanceVars`, `Unions`, `Clone`.

Where the code and its documentation disagree, the model follows the code:

- On a perfect match, `lookup_matches_without_parents` returns every match
  collected so far, ending with the perfect one, not the perfect match
  alone.
- `ObjectType#add_def` consults `superclass.has_instance_var?` without a
  nil guard, so a root object type fails as soon as a definition assigns an
  instance variable (`InstanceVars.ObjectAddDef` returns `None`).

## Model

| member | source | states |
|---|---|---|
| DefTable.InsertionPoint | lib/crystal/types.rb:139-147 | the insertion point is the first candidate the new def restricts (or the end), and the def restricts none before it |
| DefTable.AddSortedDef | lib/crystal/types.rb:139-148 | the list grows by exactly the new def; the candidates before and after the insertion point keep their order |
| DefTable.AddSortedDefFirstFit | lib/crystal/types.rb:139-148 | any position preceded only by candidates the def does not restrict, and followed by one it restricts or by the end, is where the def is inserted |
| DefTable.AddSortedDefContents | lib/crystal/types.rb:139-148 | after insertion the list holds exactly the old candidates and the new def |
| DefTable.AddSortedDefKeepsSorted | lib/crystal/types.rb:139-148 | when specificity totally orders distinct defs (transitive, and of two distinct defs exactly one restricts the other; a def may restrict itself), inserting a new def into a list where every def precedes those it restricts keeps that property |
| DefTable.InsertionOrderIrrelevant | lib/crystal/types.rb:139-148 | when specificity totally orders a set of distinct defs, reflexive or not, adding them one by one in any order gives the same candidate list, sorted by specificity |
| DefTable.AddDefCandidates | lib/crystal/types.rb:121-137 | after `add_def`, the candidate list of (name, k, yields) gains the def exactly when k is reachable by dropping trailing default-valued arguments; all other lists are unchanged |
| DefTable.AddDefListedExactly | lib/crystal/types.rb:121-137 | a def not listed before is listed for arity k afterwards iff k is an optional arity |
| DefTable.AddDefSignatures | lib/crystal/types.rb:121-132 | every signature obtained by dropping trailing default-valued arguments, the full one included, maps to the def |
| DefTable.AddDefaultsKeepsSignature | lib/crystal/types.rb:127-132 | the default-argument loop started at `index` leaves every signature untouched except the def's own truncations to arity `index` or less |
| DefTable.LookupFirstDef | lib/crystal/types.rb:288-294 | a def is returned exactly when one signature is registered under the name, and it is that signature's def |
| DefTable.AddMacro | lib/crystal/types.rb:301-305 | the macro is stored under (name, arity), the last registration wins, and every other (name, arity) entry is unchanged |
| DefTable.LookupMacro | lib/crystal/types.rb:307-320 | the type's own macro wins; a type missing from the arena or already on the walk gives nothing; any macro found is the own macro of some type off the walk; a non-struct type without its own macro answers with the parent search, with itself added to the walk, and a struct type answers nothing |
| DefTable.LookupMacroFallsBackInOrder | lib/crystal/types.rb:312-319 | a non-struct type without its own macro answers with the macro of the first parent, in order, whose lookup finds one, and nothing when no parent does |
| DefTable.MacroInParentsFirstFound | lib/crystal/types.rb:313-318 | the parents are tried in order: the answer is that of the first parent whose lookup finds a macro, and nothing when none does |
| DefTable.LookupMacroHasChain | lib/crystal/types.rb:307-320 | a macro found is the own macro of the last type of a chain of parent links from the queried type, off the walk, none of whose earlier types defines it |
| DefTable.LookupMacroAfterAdd | lib/crystal/types.rb:301-312 | a macro just added to a type is what that type's lookup returns for its name and arity |
| Matcher.MatchIdent | lib/crystal/types.rb:170-176 | a name bound earlier in the attempt is restricted to; an unbound name the owner resolves is restricted to the resolved type; an unbound name the owner cannot resolve binds to the argument type; bindings only grow, by at most that name |
| Matcher.MatchAnyIdent | lib/crystal/types.rb:177-180 | an identifier union fails iff every identifier fails; otherwise the bindings are those of the first identifier that matches |
| Matcher.MatchArg | lib/crystal/types.rb:162-184 | per restriction kind: nil accepts the argument; a resolved type is returned iff the argument restricts to it; Self gives the restricted owner; an identifier is matched as `MatchIdent` states; an identifier union yields the argument type iff some identifier matches; a generic restriction yields the argument type iff the argument is generic and `match_generic_type` succeeds, keeping its bindings; bindings only grow |
| Matcher.MatchGenericType | lib/crystal/types.rb:186-196 | success needs the same last name, the same number of type variables, and every type variable bound; bindings only grow |
| Matcher.MatchGenericTypeSound | lib/crystal/types.rb:186-196 | a success is a positional run of `match_arg` of each type variable's bound type against the restriction's type argument at the same position, threading the bindings |
| Matcher.MatchGenericTypeComplete | lib/crystal/types.rb:186-196 | with the same last name and count, every such positional run is accepted, with the run's final bindings |
| Matcher.ArrayOfIntRestriction | lib/crystal/types.rb:166-167 | with `String` not a restriction of `Int`, `Array(Int)` rejects an `Array` of `String` and a `List` of `Int`, and accepts an `Array` of `Int` |
| Matcher.MatchArgsFromTrace | lib/crystal/types.rb:150-160 | a successful `match_def_args` is a positional run of `match_arg`, threading one free-variable map from the empty map |
| Matcher.TraceMatchArgsFrom | lib/crystal/types.rb:150-160 | every positional run of successful `match_arg` steps is exactly what `match_def_args` returns |
| Matcher.MatchArgsFromFails | lib/crystal/types.rb:150-160 | if a position fails after the earlier ones succeed, the whole attempt fails |
| Matcher.FreeVariableConsistency | lib/crystal/types.rb:150-176 | with `X` unresolvable, restrictions `(X, X)` accept `(T, T)` binding `X` to `T`, and reject `(T, U)` when `U` does not restrict to `T` |
| Resolver.TryMatch | lib/crystal/types.rb:202-208 | a candidate yields a match iff `match_def_args` succeeds; the match records the def, the owner and the matcher's result |
| Resolver.ScanFindsPerfect | lib/crystal/types.rb:201-211 | the candidate walk reports a perfect match iff some candidate matches with argument types equal to the call's |
| Resolver.ScanWithoutPerfect | lib/crystal/types.rb:201-211 | without a perfect candidate the walk collects the matches of all candidates, in candidate order |
| Resolver.ScanStopsAtFirstPerfect | lib/crystal/types.rb:201-211 | the walk stops at the first perfect candidate, holding the matches of every candidate up to it |
| Resolver.LookupMatchesWithoutParents | lib/crystal/types.rb:198-241 | every returned match is genuine and owned by the given owner; a missing (name, arity, yields) key gives nothing |
| Resolver.WithoutParentsPerfect | lib/crystal/types.rb:198-211 | with a perfect candidate the answer is the matches up to the first perfect one, whatever the coverage |
| Resolver.WithoutParentsImperfect | lib/crystal/types.rb:212-241 | without one, the answer is all matches, given iff there are some and, when coverage is checked, every union combination is marked |
| Resolver.FirstPerfectWins | lib/crystal/types.rb:198-211 | a perfect first candidate is the whole answer |
| Resolver.LookupMatches | lib/crystal/types.rb:243-261 | the type's own matches win; structs and `new` looked up on a metaclass never fall back to parents; every match found is genuine and owned by the caller or by a type the caller restricts; otherwise an own miss answers with the parent search, with the type added to the walk, and a type already on the walk answers nothing |
| Resolver.LookupMatchesFallsBackInOrder | lib/crystal/types.rb:247-257 | a type that finds nothing of its own and may fall back answers with the first parent, in order, whose search finds a non-empty list, and nothing when no parent does |
| Resolver.LookupInParentsFirstFound | lib/crystal/types.rb:247-257 | the parents are tried in order: the answer is that of the first parent whose search finds something, and nothing when none does |
| Resolver.SelectRestricting | lib/crystal/types.rb:250-251 | the kept matches are exactly those whose owner the caller restricts |
| Resolver.HierarchyLookupMatches | lib/crystal/types.rb:946-957 | a virtual call answers nothing when the base type finds nothing, else the base's matches followed by each strict subtype's own matches in preorder |
| Resolver.SubtypeMatchesStrict | lib/crystal/types.rb:951-954 | every match added after the base's belongs to the virtual type of a strict object subtype of the base |
| Cover.CellOf | lib/crystal/types.rb:218-228 | a union argument gives a table position as wide as its member list; any other argument gives a single cell |
| Cover.IndexOf | lib/crystal/types.rb:272 | the first index holding the element, or none iff it is absent |
| Cover.MarksInTable | lib/crystal/types.rb:263-286 | every position a match marks lies inside the table, whose size is the product of the union widths |
| Cover.MarksOneUnion | lib/crystal/types.rb:263-286 | with one union argument, a position is marked iff the match's argument type yields that member (first occurrence) |
| Resolver.UnionCoverExample | lib/crystal/types.rb:212-241 | for one union argument of `A` and `B`, overloads for `A` and `B` together answer with both matches, while an overload for `A` alone leaves a combination unmarked and answers nothing |
| ModuleTypes.Include | lib/crystal/types.rb:345-347 | afterwards the mixin is a parent; an already included mixin changes nothing; otherwise it is put first and nothing else changes |
| ModuleTypes.IncludeIdempotent | lib/crystal/types.rb:345-347 | including the same mixin twice equals including it once |
| ModuleTypes.IncludeKeepsDistinct | lib/crystal/types.rb:345-347 | a parent list without repeats keeps none after `include` |
| ModuleTypes.IncludePreservesWellFormed | lib/crystal/types.rb:345-347 | including a module (not a class) leaves every superclass and the arena invariant intact |
| ModuleTypes.ImplementsHasChain | lib/crystal/types.rb:349-351 | a type implements another only if a chain of parent links leads from one to the other |
| ModuleTypes.ChainImplements | lib/crystal/types.rb:349-351 | every chain of parent links without repeats makes its first type implement its last |
| ModuleTypes.LookupType | lib/crystal/types.rb:353-375 | a type already looked up answers nothing; any answer is the local resolution of a type the walk newly visits; the visited set only grows |
| ModuleTypes.LookupTypeFindsOwnNestedType | lib/crystal/types.rb:361-367 | a path the type's own nested-type tables resolve is found there first |
| TypeGraph.FirstClassParent | lib/crystal/types.rb:389-391 | the superclass is the first parent that is a class, and none iff no parent is |
| TypeGraph.SubclassDepth | lib/crystal/types.rb:393-397 | an ancestor is never deeper than its subclass, and equal depth means the same type |
| TypeGraph.SubclassTransitive | lib/crystal/types.rb:393-397 | `is_subclass_of?` is transitive |
| TypeGraph.SubclassAntisymmetric | lib/crystal/types.rb:393-397 | two types that are each other's subclass are the same type |
| ObjectTypes.NewObjectType | lib/crystal/types.rb:430-441 | a new type gets a fresh id and depth 0 or the parent's plus one, and is appended to the parent's subclass list; every other type is unchanged |
| ObjectTypes.NewObjectTypePreservesWellFormed | lib/crystal/types.rb:430-441 | creating an object type keeps the arena invariant: superclasses are shallower, and subclass lists agree with superclasses |
| ObjectTypes.EachTypeSound | lib/crystal/types.rb:987-1000 | the preorder walk of a virtual type yields only object types that are subclasses of the base |
| ObjectTypes.EachTypeComplete | lib/crystal/types.rb:987-1000 | every object subclass of the base is yielded by the walk |
| ObjectTypes.StrictSubtypesExactly | lib/crystal/types.rb:996-1000 | `each_subtype` of the base yields exactly the object subclasses other than the base |
| InstanceVars.HasInstanceVarIffAncestorDeclares | lib/crystal/types.rb:469-471 | a variable is visible iff some type on the superclass chain declares it |
| InstanceVars.LookupVar | lib/crystal/types.rb:473-483 | the non-creating lookup finds a variable iff it is visible, and it has the asked name |
| InstanceVars.LookupVarOutermost | lib/crystal/types.rb:473-476 | the variable found is the declaration of an ancestor above which no class on the superclass chain declares the name: the outermost declaration |
| InstanceVars.LookupOrCreate | lib/crystal/types.rb:473-483 | a visible variable is returned with the arena unchanged; otherwise an untyped one is appended to the type's own table and nothing else changes |
| InstanceVars.LookupOrCreateIdempotent | lib/crystal/types.rb:473-483 | after the creating lookup the variable is visible, and a second lookup returns the same variable and changes nothing |
| InstanceVars.Merge | lib/crystal/types.rb:496 | the base's entries keep their places, each replaced by `over`'s entry of the same name if any; `over`'s entries with new names follow in order; the names are exactly those of both |
| InstanceVars.MergeLookup | lib/crystal/types.rb:496 | looking a name up in the merged table gives `over`'s entry when it has one, else the base's |
| InstanceVars.AllInstanceVars | lib/crystal/types.rb:493-499 | the names of `all_instance_vars` are exactly the visible variables |
| InstanceVars.AllInstanceVarsReports | lib/crystal/types.rb:493-499 | for each name, `all_instance_vars` reports the declaration of the nearest type on the superclass chain that declares it, the type's own first |
| InstanceVars.SuperclassVarsFirst | lib/crystal/types.rb:493-499 | the superclass's variables come first, in the superclass's order |
| InstanceVars.EachInstanceVar | lib/crystal/types.rb:485-491 | the names `each_instance_var` yields are exactly the visible variables |
| InstanceVars.EachInstanceVarOrder | lib/crystal/types.rb:485-491 | every ancestor's yielded sequence is a prefix of the type's, and the type's own table comes last |
| InstanceVars.DeclareUnlessInherited | lib/crystal/types.rb:458-464 | each name is declared in the type's own table unless the superclass provides it; a name neither declared nor inherited gets a new untyped variable; only that table changes, and entries for other names or already-declared ones keep their value |
| InstanceVars.DeclaredVisible | lib/crystal/types.rb:458-464 | every name the definition assigns is visible afterwards |
| InstanceVars.ObjectAddDef | lib/crystal/types.rb:455-467 | registers the def and makes its instance variables visible, changing only that type; a variable neither declared nor inherited is added untyped, declared ones keep their value, and names the def does not assign are untouched; fails iff the type has no superclass and the def assigns variables |
| Unions.UnionEqIsSetEq | lib/crystal/types.rb:706-710 | two unions are `==` iff they have the same members, regardless of order and repetition |
| Unions.UnionEqEquivalence | lib/crystal/types.rb:706-710 | between unions, `==` is reflexive, symmetric and transitive |
| Unions.UnionEqPermutation | lib/crystal/types.rb:706-710 | reordering a union's members gives an equal union |
| Unions.SingletonUnionEq | lib/crystal/types.rb:706-710 | a union of one repeated plain type equals that type; with the plain type as receiver, an identity-compared type does not equal the union |
| Unions.NilableType | lib/crystal/types.rb:648-656 | a nilable type is reported iff the union is Nil plus one object or pointer type, in either order, and it is that other member |
| Unions.NilableOrderInsensitive | lib/crystal/types.rb:648-656 | swapping the two members does not change nilability |
| Unions.FilterBy | lib/crystal/types.rb:54-56 | a plain type survives, unchanged, iff it implements the other type; a virtual type is narrowed by `restrict`; a union gives nothing, its single survivor, or a union of its survivors |
| Unions.FilterByUnionOfNodes | lib/crystal/types.rb:636-646 | a union of plain types filters to nothing iff no member implements the type, to the implementing member when only one does, and otherwise to a union of exactly the implementing members |
| Unions.FilterMembersSpec | lib/crystal/types.rb:637 | the survivors are exactly the members' filtered results that exist |
| Unions.FilterUnionNone | lib/crystal/types.rb:636-646 | a union filters to nothing iff every member does |
| Unions.FilterMembersOfNodes | lib/crystal/types.rb:636-646 | for a union of plain types, the survivors are exactly the members that implement the type |
| Unions.FilterIdempotentOnNodes | lib/crystal/types.rb:636-646 | filtering a union of plain types twice by the same type changes nothing the second time |
| Clone.CloneTy | lib/crystal/types.rb:542-560 | non-generic types are their own clone; a generic object type already in the context gives its recorded clone; otherwise a fresh type is made, recorded, and given the original's superclass; arena and context only grow |
| Clone.CloneObject | lib/crystal/types.rb:546-559 | the clone is the next fresh type, recorded in the context, with the original's name and container, the values its parents, nested types and definition tables hold at clone time, and unbound type variables of the same names |
| Clone.CloneImage | lib/crystal/types.rb:542-560 | the cloned type is the image of the original under the final context |
| Clone.CloneIdempotent | lib/crystal/types.rb:542-545 | cloning again with the resulting context gives the same result and creates nothing |
| Clone.CloneObjectIVars | lib/crystal/types.rb:548-553 | the clone's instance variables have the original's names, and their types are the images of the original types |
| Clone.CloneSelfReference | lib/crystal/types.rb:546-553 | an instance variable typed by the type itself is typed by the clone in the clone |

## Left out

- LLVM code generation, `to_s` and `full_name`, `llvm_name` id counters, `Type.merge` beyond its `nil` guard, and `LibType#fun`: they produce text or machine types, not type-model structure.
- `Def#is_restriction_of?`, `Type#is_restriction_of?` and `Type#restrict`: their bodies are not part of this model. They are parameters (`Matcher.Oracle`), and the definition table takes the specificity order as an argument.
- Var binding (`bind_to`) and type inference on instance variables: a variable is its name and an optional type.
- The def-instance cache (`add_def_instance`, `lookup_def_instance`), `lookup_defs` and `metaclass` construction: they are not part of the resolution paths modelled.
- A metaclass's parents are stored on its arena entry rather than derived from its instance type's parents.
- `superclass` memoisation (`@superclass ||=`) is not modelled; it is recomputed from the parents each time, which gives the same answer while parents only gain modules.
- `implements?`, `lookup_macro` and the parent fallback of `lookup_matches` carry the set of types on the current walk, so that they terminate on cyclic parent lists, which Ruby would not survive. On acyclic graphs the answers are the same.
- Generic structural `ObjectType#==` (`structurally_equal?`), `PointerType#==`, `TypeDefType#==`, `LibType#==` (name and library name) and `StructType#==` (name and fields) are left out; arena types compare by identity.
- Unions.TyEq: only the union cases of `==` are modelled, and every other type compares by identity. As in Ruby the receiver decides, so for identity-compared types `==` is not symmetric between a union and a plain type. Generic object types and pointer types defer to the union in Ruby; their `==` is left out (above).
- Clone.CloneObject: Ruby assigns the template's `defs`, `sorted_defs`, `types` and `parents` objects to the clone, so both share them and a later `add_def`, `add_sorted_def` or `include` on either shows in both. The model copies the values at clone time; later updates to one type do not reach the other.
- Clone.CloneTy: `PointerType#clone` and the default `clone` of other kinds are not modelled; such types are returned as themselves. Union clones are values and are not recorded in the context. The ghost `bound` argument only serves termination.
- Cover.EachTy: a virtual type whose base is not in the arena yields nothing.
- Matcher.MatchArg: an unbound generic type variable (a `nil` argument type) fails to match instead of raising.

=== FILE: clone.dfy ===
/**
  `ObjectType#clone` of a generic type: a fresh object type that shares
  the original's definitions, nested types and parents, has unbound type
  variables of the same names, and instance variables whose types are
  cloned in turn.  A types context maps every type cloned so far to its
  clone, so within one context each generic type is cloned once and a
  type that refers to itself gets a clone that refers to the clone.
 */
module Clone {
  import opened Wrappers
  import opened TypeGraph
  import ModuleTypes
  import ObjectTypes
  import InstanceVars

  /** The types context: original type to its clone */
  type Context = map<TypeId, TypeId>

  /** The arena and context after a clone, with what the clone produced */
  datatype Cloned<T> = Cloned(arena: Arena, ctx: Context, value: T)

  /** `ObjectType#generic`: an object type with type variables */
  predicate IsGenericObject(a: Arena, id: TypeId) {
    id in a.nodes && a.nodes[id].kind.ObjectKind? && a.nodes[id].typeVars.Some?
  }

  /** `Var.new(k)` for every type variable: same names, nothing bound */
  function Unbound(tvs: seq<TypeVar>): (r: seq<TypeVar>)
    ensures |r| == |tvs|
    ensures forall i | 0 <= i < |r| :: r[i].name == tvs[i].name && r[i].bound.None?
  {
    seq(|tvs|, i requires 0 <= i < |tvs| => TypeVar(tvs[i].name, None))
  }

  // ---------------------------------------------------------------------
  // How the arena and the context may change while cloning
  // ---------------------------------------------------------------------

  /**
    `b` only adds nodes above `a.next` and appends to subclass lists of
    existing nodes; nothing else about an existing node changes.
   */
  ghost predicate Grows(a: Arena, b: Arena) {
    && a.nodes.Keys <= b.nodes.Keys && a.next <= b.next
    && (forall x | x in b.nodes && x !in a.nodes :: a.next <= x)
    && (forall x | x in a.nodes ::
          b.nodes[x] == a.nodes[x].(subclasses := b.nodes[x].subclasses)
          && a.nodes[x].subclasses <= b.nodes[x].subclasses)
  }

  lemma GrowsTransitive(a: Arena, b: Arena, c: Arena)
    requires Grows(a, b) && Grows(b, c)
    ensures Grows(a, c)
  {
    forall x | x in a.nodes
      ensures c.nodes[x] == a.nodes[x].(subclasses := c.nodes[x].subclasses)
      ensures a.nodes[x].subclasses <= c.nodes[x].subclasses
    {
      assert b.nodes[x] == a.nodes[x].(subclasses := b.nodes[x].subclasses);
    }
  }

  /** Growing the arena keeps every superclass */
  lemma GrowsKeepsSuperclass(a: Arena, b: Arena, x: TypeId)
    requires Grows(a, b) && x in a.nodes && RefsIn(a, a.nodes[x].parents)
    ensures Superclass(b, x) == Superclass(a, x)
  {
    var ps := a.nodes[x].parents;
    assert b.nodes[x].parents == ps;
    forall p | p in ps
      ensures IsClassParent(a, p) == IsClassParent(b, p)
    {
      assert b.nodes[p].kind == a.nodes[p].kind;
    }
    ModuleTypes.FirstClassParentSameKinds(a, b, ps);
  }

  /** `c2` keeps every entry of `c1` */
  predicate Extends(c1: Context, c2: Context) {
    forall k | k in c1 :: k in c2 && c2[k] == c1[k]
  }

  /** Every clone recorded in the context is an object type of the arena */
  predicate CtxSound(a: Arena, ctx: Context) {
    forall k | k in ctx :: ctx[k] in a.nodes && a.nodes[ctx[k]].kind.ObjectKind?
  }

  /** Every id a type mentions lies below `bound` */
  predicate TyBelow(t: Ty, bound: nat) {
    match t
    case Node(id) => id < bound
    case Hierarchy(b) => b < bound
    case Union(ms) => forall i | 0 <= i < |ms| :: TyBelow(ms[i], bound)
  }

  predicate IVarsBelow(vs: seq<IVar>, bound: nat) {
    forall i | 0 <= i < |vs| :: vs[i].ty.Some? ==> TyBelow(vs[i].ty.value, bound)
  }

  /**
    The types existing when cloning starts are those below `bound`, and
    their instance variables only mention such types; clones are made at
    or above `bound`.
   */
  ghost predicate Inv(a: Arena, ctx: Context, bound: nat) {
    && WellFormed(a) && ObjectTypes.IdsBelowNext(a) && bound <= a.next
    && (forall x | x in a.nodes && x < bound :: IVarsBelow(a.nodes[x].instanceVars, bound))
    && CtxSound(a, ctx)
  }

  /** What every cloning step guarantees about its result */
  ghost predicate Post(a: Arena, ctx: Context, b: Arena, c: Context, bound: nat) {
    Inv(b, c, bound) && Grows(a, b) && Extends(ctx, c)
  }

  lemma PostChain(a: Arena, ctx: Context, b: Arena, c: Context, b2: Arena, c2: Context, bound: nat)
    requires Post(a, ctx, b, c, bound) && Post(b, c, b2, c2, bound)
    ensures Post(a, ctx, b2, c2, bound)
  {
    GrowsTransitive(a, b, b2);
  }

  // ---------------------------------------------------------------------
  // Termination measures
  // ---------------------------------------------------------------------

  /** The ids below `bound` */
  function Below(bound: nat): (r: set<nat>)
    ensures forall x: nat :: x in r <==> x < bound
  {
    if bound == 0 then {} else Below(bound - 1) + {bound - 1}
  }

  /** The types below `bound` that have no clone yet */
  function Unmemo(ctx: Context, bound: nat): nat {
    |Below(bound) - ctx.Keys|
  }

  lemma UnmemoMonotone(c1: Context, c2: Context, bound: nat)
    requires Extends(c1, c2)
    ensures Unmemo(c2, bound) <= Unmemo(c1, bound)
  {
    var below := Below(bound);
    SubsetCard(below - c2.Keys, below - c1.Keys);
  }

  lemma UnmemoShrinks(ctx: Context, id: TypeId, n: TypeId, bound: nat)
    requires id < bound && id !in ctx
    ensures Unmemo(ctx[id := n], bound) < Unmemo(ctx, bound)
  {
    var below := Below(bound);
    assert below - ctx[id := n].Keys == (below - ctx.Keys) - {id};
    assert id in below - ctx.Keys;
  }

  function Sum(s: seq<nat>): nat {
    if |s| == 0 then 0 else s[0] + Sum(s[1..])
  }

  /** The number of type constructors in a type */
  function TySize(t: Ty): (n: nat)
    ensures n >= 1
  {
    match t
    case Union(ms) => 1 + Sum(seq(|ms|, i requires 0 <= i < |ms| => TySize(ms[i])))
    case _ => 1
  }

  function MembersSize(ms: seq<Ty>): nat {
    Sum(seq(|ms|, i requires 0 <= i < |ms| => TySize(ms[i])))
  }

  lemma MembersSizeOfUnion(ms: seq<Ty>)
    ensures TySize(Union(ms)) == 1 + MembersSize(ms)
  {
    assert seq(|ms|, i requires 0 <= i < |ms| => TySize(ms[i])) == seq(|ms|, i requires 0 <= i < |ms| => TySize(ms[i]));
  }

  lemma MembersSizeCons(ms: seq<Ty>)
    requires |ms| > 0
    ensures MembersSize(ms) == TySize(ms[0]) + MembersSize(ms[1..])
  {
    var s := seq(|ms|, i requires 0 <= i < |ms| => TySize(ms[i]));
    assert s[1..] == seq(|ms| - 1, i requires 0 <= i < |ms| - 1 => TySize(ms[1..][i]));
  }

  function IVarSize(v: IVar): nat {
    if v.ty.Some? then TySize(v.ty.value) else 1
  }

  function IVarsSize(vs: seq<IVar>): nat {
    Sum(seq(|vs|, i requires 0 <= i < |vs| => IVarSize(vs[i])))
  }

  lemma IVarsSizeCons(vs: seq<IVar>)
    requires |vs| > 0
    ensures IVarsSize(vs) == IVarSize(vs[0]) + IVarsSize(vs[1..])
  {
    var s := seq(|vs|, i requires 0 <= i < |vs| => IVarSize(vs[i]));
    assert s[1..] == seq(|vs| - 1, i requires 0 <= i < |vs| - 1 => IVarSize(vs[1..][i]));
  }

  // ---------------------------------------------------------------------
  // The fresh object type
  // ---------------------------------------------------------------------

  /**
    `n` is an object type named like `src` that shares its container,
    parents, nested types and definitions, has no macros, and has unbound
    type variables of the same names.
   */
  predicate SharesTables(src: TypeNode, n: TypeNode)
    requires src.typeVars.Some?
  {
    && n.kind.ObjectKind? && n.name == src.name && n.container == src.container
    && n.parents == src.parents && n.types == src.types
    && n.defs == src.defs && n.sortedDefs == src.sortedDefs
    && n.typeVars == Some(Unbound(src.typeVars.value)) && n.macros == map[]
  }

  /**
    `ObjectType.new name, superclass, @container`, then the original's
    definitions, ordered definitions, nested types and parents shared, and
    fresh unbound type variables; instance variables come later.
   */
  function FreshClone(a: Arena, id: TypeId): (r: (Arena, TypeId))
    requires WellFormed(a) && ObjectTypes.IdsBelowNext(a) && IsGenericObject(a, id)
    ensures r.1 == a.next && r.0.next == a.next + 1
    ensures r.0.nodes.Keys == a.nodes.Keys + {r.1}
    ensures Grows(a, r.0) && WellFormed(r.0) && ObjectTypes.IdsBelowNext(r.0)
    ensures SharesTables(a.nodes[id], r.0.nodes[r.1])
    ensures r.0.nodes[r.1].instanceVars == [] && r.0.nodes[r.1].subclasses == []
    ensures Superclass(r.0, r.1) == Superclass(a, id)
  {
    var src := a.nodes[id];
    assert NodeClosed(a, id) && NodeRanked(a, id);
    var (b, n) := ObjectTypes.NewObjectType(a, src.name, Superclass(a, id), src.container);
    var node := b.nodes[n].(parents := src.parents, types := src.types, defs := src.defs,
                            sortedDefs := src.sortedDefs, typeVars := Some(Unbound(src.typeVars.value)));
    var c := Arena(b.nodes[n := node], b.next);
    FreshCloneFields(a, id, b, n, c);
    FreshCloneWellFormed(a, id, b, n, c);
    (c, n)
  }

  /**
    `c` is `b` with node `n` replaced by `node`, which keeps the kind,
    depth and subclasses of `n` and whose parents lead to the same
    superclass.
   */
  ghost predicate Replaces(b: Arena, n: TypeId, node: TypeNode, c: Arena) {
    && n in b.nodes && c == Arena(b.nodes[n := node], b.next)
    && node.kind == b.nodes[n].kind && node.depth == b.nodes[n].depth
    && node.subclasses == b.nodes[n].subclasses
    && FirstClassParent(b, node.parents) == Superclass(b, n)
  }

  lemma ReplaceKeepsSuperclass(b: Arena, n: TypeId, node: TypeNode, c: Arena, y: TypeId)
    requires Replaces(b, n, node, c) && y in b.nodes
    ensures Superclass(c, y) == Superclass(b, y)
  {
    if y == n {
      ModuleTypes.FirstClassParentSameKinds(b, c, node.parents);
    } else {
      ModuleTypes.FirstClassParentSameKinds(b, c, b.nodes[y].parents);
    }
  }

  lemma ReplaceKeepsRanked(b: Arena, n: TypeId, node: TypeNode, c: Arena, x: TypeId)
    requires Replaces(b, n, node, c) && x in b.nodes && NodeRanked(b, x)
    ensures NodeRanked(c, x)
  {
    ReplaceKeepsSuperclass(b, n, node, c, x);
    var s := Superclass(b, x);
    if s.Some? {
      assert c.nodes[s.value].depth == b.nodes[s.value].depth;
      assert c.nodes[s.value].kind == b.nodes[s.value].kind;
      assert c.nodes[s.value].subclasses == b.nodes[s.value].subclasses;
    }
    var subs := b.nodes[x].subclasses;
    assert c.nodes[x].subclasses == subs;
    forall i | 0 <= i < |subs|
      ensures subs[i] in c.nodes && c.nodes[subs[i]].kind.ObjectKind? && Superclass(c, subs[i]) == Some(x)
    {
      ReplaceKeepsSuperclass(b, n, node, c, subs[i]);
    }
  }

  /** Replacing a node by one whose references stay inside the arena keeps it well formed */
  lemma ReplacePreservesWellFormed(b: Arena, n: TypeId, node: TypeNode, c: Arena)
    requires WellFormed(b) && Replaces(b, n, node, c)
    requires RefsIn(b, node.parents) && RefsIn(b, node.subclasses)
    requires node.container.Some? ==> node.container.value in b.nodes
    requires forall k | k in node.types :: node.types[k] in b.nodes
    ensures WellFormed(c)
  {
    forall x | x in c.nodes
      ensures NodeClosed(c, x) && NodeRanked(c, x)
    {
      assert NodeClosed(b, x) && NodeRanked(b, x);
      ReplaceKeepsRanked(b, n, node, c, x);
    }
  }

  lemma FreshCloneWellFormed(a: Arena, id: TypeId, b: Arena, n: TypeId, c: Arena)
    requires WellFormed(a) && ObjectTypes.IdsBelowNext(a) && IsGenericObject(a, id)
    requires NodeRanked(a, id) && NodeClosed(a, id)
    requires (b, n) == ObjectTypes.NewObjectType(a, a.nodes[id].name, Superclass(a, id), a.nodes[id].container)
    requires c == Arena(b.nodes[n := b.nodes[n].(parents := a.nodes[id].parents, types := a.nodes[id].types,
                 defs := a.nodes[id].defs, sortedDefs := a.nodes[id].sortedDefs,
                 typeVars := Some(Unbound(a.nodes[id].typeVars.value)))], b.next)
    ensures WellFormed(c) && ObjectTypes.IdsBelowNext(c) && Grows(a, c)
    ensures Superclass(c, n) == Superclass(a, id)
  {
    var src := a.nodes[id];
    var node := c.nodes[n];
    ObjectTypes.NewObjectTypePreservesWellFormed(a, src.name, Superclass(a, id), src.container);
    FreshCloneReplaces(a, id, b, n, c);
    ReplaceKeepsSuperclass(b, n, node, c, n);
    assert RefsIn(b, node.parents) by {
      assert RefsIn(a, src.parents);
    }
    ReplacePreservesWellFormed(b, n, node, c);
    FreshCloneGrows(a, id, b, n, c);
  }

  lemma FreshCloneFields(a: Arena, id: TypeId, b: Arena, n: TypeId, c: Arena)
    requires ObjectTypes.IdsBelowNext(a) && IsGenericObject(a, id)
    requires Superclass(a, id).Some? ==> Superclass(a, id).value in a.nodes && a.nodes[Superclass(a, id).value].kind.ObjectKind?
    requires (b, n) == ObjectTypes.NewObjectType(a, a.nodes[id].name, Superclass(a, id), a.nodes[id].container)
    requires c == Arena(b.nodes[n := b.nodes[n].(parents := a.nodes[id].parents, types := a.nodes[id].types,
                 defs := a.nodes[id].defs, sortedDefs := a.nodes[id].sortedDefs,
                 typeVars := Some(Unbound(a.nodes[id].typeVars.value)))], b.next)
    ensures n == a.next && c.next == a.next + 1 && c.nodes.Keys == a.nodes.Keys + {n}
    ensures SharesTables(a.nodes[id], c.nodes[n])
    ensures c.nodes[n].instanceVars == [] && c.nodes[n].subclasses == []
  {
  }

  lemma FreshCloneReplaces(a: Arena, id: TypeId, b: Arena, n: TypeId, c: Arena)
    requires WellFormed(a) && ObjectTypes.IdsBelowNext(a) && IsGenericObject(a, id)
    requires NodeRanked(a, id) && NodeClosed(a, id)
    requires (b, n) == ObjectTypes.NewObjectType(a, a.nodes[id].name, Superclass(a, id), a.nodes[id].container)
    requires c == Arena(b.nodes[n := b.nodes[n].(parents := a.nodes[id].parents, types := a.nodes[id].types,
                 defs := a.nodes[id].defs, sortedDefs := a.nodes[id].sortedDefs,
                 typeVars := Some(Unbound(a.nodes[id].typeVars.value)))], b.next)
    ensures Replaces(b, n, c.nodes[n], c) && Superclass(b, n) == Superclass(a, id)
  {
    var src := a.nodes[id];
    ModuleTypes.FirstClassParentSameKinds(a, b, src.parents);
    if Superclass(a, id).Some? {
      assert IsClassParent(b, Superclass(a, id).value);
      assert b.nodes[n].parents == [Superclass(a, id).value];
    }
  }

  lemma FreshCloneGrows(a: Arena, id: TypeId, b: Arena, n: TypeId, c: Arena)
    requires ObjectTypes.IdsBelowNext(a) && IsGenericObject(a, id)
    requires Superclass(a, id).Some? ==> Superclass(a, id).value in a.nodes && a.nodes[Superclass(a, id).value].kind.ObjectKind?
    requires (b, n) == ObjectTypes.NewObjectType(a, a.nodes[id].name, Superclass(a, id), a.nodes[id].container)
    requires n in b.nodes && n in c.nodes && c.next == b.next && c.nodes == b.nodes[n := c.nodes[n]]
    ensures Grows(a, c)
  {
    forall x | x in a.nodes
      ensures c.nodes[x] == a.nodes[x].(subclasses := c.nodes[x].subclasses)
      ensures a.nodes[x].subclasses <= c.nodes[x].subclasses
    {
      assert x != n && c.nodes[x] == b.nodes[x];
      if Some(x) == Superclass(a, id) {
        assert b.nodes[x] == a.nodes[x].(subclasses := a.nodes[x].subclasses + [n]);
      } else {
        assert b.nodes[x] == a.nodes[x];
      }
    }
  }

  // ---------------------------------------------------------------------
  // Cloning
  // ---------------------------------------------------------------------

  /**
    `Type#clone(types_context)`: a generic object type is cloned once per
    context; a union is rebuilt from its members' clones; every other type
    (`PrimitiveType#clone`, a non-generic `ObjectType`) is itself.
   */
  function CloneTy(a: Arena, ctx: Context, t: Ty, ghost bound: nat): (r: Cloned<Ty>)
    requires Inv(a, ctx, bound) && TyBelow(t, bound)
    ensures Post(a, ctx, r.arena, r.ctx, bound)
    ensures !t.Union? && !(t.Node? && IsGenericObject(a, t.id)) ==> r == Cloned(a, ctx, t)
    ensures t.Node? && IsGenericObject(a, t.id) && t.id in ctx ==> r == Cloned(a, ctx, Node(ctx[t.id]))
    ensures t.Node? && IsGenericObject(a, t.id) && t.id !in ctx ==>
      && r.value == Node(a.next) && t.id in r.ctx && r.ctx[t.id] == a.next && a.next in r.arena.nodes
      && IsCloneNode(a.nodes[t.id], r.arena.nodes[a.next])
      && Superclass(r.arena, a.next) == Superclass(a, t.id)
    ensures t.Union? ==> r.value.Union? && |r.value.members| == |t.members|
    decreases Unmemo(ctx, bound), TySize(t), 0
  {
    match t
    case Node(id) =>
      if !IsGenericObject(a, id) then Cloned(a, ctx, t)
      else if id in ctx then Cloned(a, ctx, Node(ctx[id]))
      else CloneObject(a, ctx, id, bound)
    case Hierarchy(_) => Cloned(a, ctx, t)
    case Union(ms) =>
      MembersSizeOfUnion(ms);
      var r := CloneMembers(a, ctx, ms, bound);
      Cloned(r.arena, r.ctx, Union(r.value))
  }

  /** `types.map { |type| type.clone(types_context) }`, threading the context */
  function CloneMembers(a: Arena, ctx: Context, ms: seq<Ty>, ghost bound: nat): (r: Cloned<seq<Ty>>)
    requires Inv(a, ctx, bound) && forall i | 0 <= i < |ms| :: TyBelow(ms[i], bound)
    ensures Post(a, ctx, r.arena, r.ctx, bound)
    ensures |r.value| == |ms|
    decreases Unmemo(ctx, bound), MembersSize(ms), 1
  {
    if |ms| == 0 then Cloned(a, ctx, [])
    else
      MembersSizeCons(ms);
      var h := CloneTy(a, ctx, ms[0], bound);
      UnmemoMonotone(ctx, h.ctx, bound);
      var rest := CloneMembers(h.arena, h.ctx, ms[1..], bound);
      PostChain(a, ctx, h.arena, h.ctx, rest.arena, rest.ctx, bound);
      Cloned(rest.arena, rest.ctx, [h.value] + rest.value)
  }

  /**
    `ObjectType#clone` past its two early returns: the fresh type is
    recorded in the context before the instance variables are cloned.
   */
  function CloneObject(a: Arena, ctx: Context, id: TypeId, ghost bound: nat): (r: Cloned<Ty>)
    requires Inv(a, ctx, bound) && id < bound && IsGenericObject(a, id) && id !in ctx
    ensures Post(a, ctx, r.arena, r.ctx, bound)
    ensures r.value == Node(a.next) && id in r.ctx && r.ctx[id] == a.next && a.next in r.arena.nodes
    ensures IsCloneNode(a.nodes[id], r.arena.nodes[a.next])
    ensures Superclass(r.arena, a.next) == Superclass(a, id)
    decreases Unmemo(ctx, bound), 0, 0
  {
    var (b, n) := FreshClone(a, id);
    UnmemoShrinks(ctx, id, n, bound);
    FreshCloneInv(a, ctx, id, b, n, bound);
    var r := CloneIVars(b, ctx[id := n], a.nodes[id].instanceVars, bound);
    assert n in r.arena.nodes;
    var c := InstanceVars.WithIVars(r.arena, n, r.value);
    CloneObjectDone(a, ctx, id, b, n, r.arena, r.ctx, r.value, c, bound);
    Cloned(c, r.ctx, Node(n))
  }

  /** The fresh type, recorded in the context, satisfies the invariant */
  lemma FreshCloneInv(a: Arena, ctx: Context, id: TypeId, b: Arena, n: TypeId, bound: nat)
    requires Inv(a, ctx, bound) && IsGenericObject(a, id)
    requires (b, n) == FreshClone(a, id)
    ensures Inv(b, ctx[id := n], bound) && Grows(a, b)
  {
    IVarsBelowGrows(a, b, bound);
    CtxSoundGrows(a, b, ctx, id, n);
  }

  lemma IVarsBelowGrows(a: Arena, b: Arena, bound: nat)
    requires Grows(a, b) && bound <= a.next
    requires forall x | x in a.nodes && x < bound :: IVarsBelow(a.nodes[x].instanceVars, bound)
    ensures forall x | x in b.nodes && x < bound :: IVarsBelow(b.nodes[x].instanceVars, bound)
  {
    forall x | x in b.nodes && x < bound
      ensures IVarsBelow(b.nodes[x].instanceVars, bound)
    {
      assert x in a.nodes && b.nodes[x].instanceVars == a.nodes[x].instanceVars;
    }
  }

  lemma CtxSoundGrows(a: Arena, b: Arena, ctx: Context, id: TypeId, n: TypeId)
    requires Grows(a, b) && CtxSound(a, ctx) && n in b.nodes && b.nodes[n].kind.ObjectKind?
    ensures CtxSound(b, ctx[id := n])
  {
    forall k | k in ctx
      ensures ctx[k] in b.nodes && b.nodes[ctx[k]].kind.ObjectKind?
    {
      assert b.nodes[ctx[k]].kind == a.nodes[ctx[k]].kind;
    }
  }

  /** The clone's instance variables: the original's names, each with a type exactly when the original's has one */
  predicate SameIVarNames(src: seq<IVar>, vs: seq<IVar>) {
    |vs| == |src| && forall i | 0 <= i < |vs| :: vs[i].name == src[i].name && (vs[i].ty.Some? <==> src[i].ty.Some?)
  }

  /** A finished clone of `src` */
  predicate IsCloneNode(src: TypeNode, n: TypeNode)
    requires src.typeVars.Some?
  {
    SharesTables(src, n) && SameIVarNames(src.instanceVars, n.instanceVars)
  }

  /** Filling in the clone's instance variables finishes the clone and keeps the invariants */
  lemma CloneObjectDone(a: Arena, ctx: Context, id: TypeId, b: Arena, n: TypeId, b2: Arena, c2: Context, vs: seq<IVar>, c: Arena, bound: nat)
    requires Inv(a, ctx, bound) && id < bound && IsGenericObject(a, id) && id !in ctx
    requires (b, n) == FreshClone(a, id)
    requires Post(b, ctx[id := n], b2, c2, bound) && SameIVarNames(a.nodes[id].instanceVars, vs)
    requires n in b2.nodes && c == InstanceVars.WithIVars(b2, n, vs)
    ensures Post(a, ctx, c, c2, bound)
    ensures id in c2 && c2[id] == a.next && a.next in c.nodes
    ensures IsCloneNode(a.nodes[id], c.nodes[a.next])
    ensures Superclass(c, a.next) == Superclass(a, id)
  {
    assert n == a.next;
    DoneContext(ctx, id, n, c2);
    DoneArena(a, ctx, b, n, b2, c2, vs, c, bound);
    DoneNode(a.nodes[id], b, n, b2, vs, c);
  }

  lemma DoneContext(ctx: Context, id: TypeId, n: TypeId, c2: Context)
    requires id !in ctx && Extends(ctx[id := n], c2)
    ensures Extends(ctx, c2) && id in c2 && c2[id] == n
  {
    assert id in ctx[id := n];
    forall k | k in ctx
      ensures k in c2 && c2[k] == ctx[k]
    {
      assert k in ctx[id := n] && ctx[id := n][k] == ctx[k];
    }
  }

  lemma DoneArena(a: Arena, ctx: Context, b: Arena, n: TypeId, b2: Arena, c2: Context, vs: seq<IVar>, c: Arena, bound: nat)
    requires Inv(a, ctx, bound) && n == a.next && Grows(a, b) && Grows(b, b2) && Inv(b2, c2, bound)
    requires n in b2.nodes && c == InstanceVars.WithIVars(b2, n, vs)
    ensures Inv(c, c2, bound) && Grows(a, c)
  {
    assert InstanceVars.SameShape(b2, c) by {
      forall x | x in b2.nodes
        ensures InstanceVars.Shape(b2.nodes[x]) == InstanceVars.Shape(c.nodes[x])
      {
      }
    }
    InstanceVars.SameShapeWellFormed(b2, c);
    GrowsTransitive(a, b, b2);
    forall x | x in c.nodes && x < bound
      ensures IVarsBelow(c.nodes[x].instanceVars, bound)
    {
      assert x != n && c.nodes[x] == b2.nodes[x];
    }
    forall x | x in a.nodes
      ensures c.nodes[x] == a.nodes[x].(subclasses := c.nodes[x].subclasses)
      ensures a.nodes[x].subclasses <= c.nodes[x].subclasses
    {
      assert x != n && c.nodes[x] == b2.nodes[x];
    }
  }

  lemma DoneNode(src: TypeNode, b: Arena, n: TypeId, b2: Arena, vs: seq<IVar>, c: Arena)
    requires src.typeVars.Some? && n in b.nodes && WellFormed(b) && SharesTables(src, b.nodes[n])
    requires Grows(b, b2) && SameIVarNames(src.instanceVars, vs)
    requires c == InstanceVars.WithIVars(b2, n, vs)
    ensures IsCloneNode(src, c.nodes[n]) && Superclass(c, n) == Superclass(b, n)
  {
    assert NodeClosed(b, n);
    GrowsKeepsSuperclass(b, b2, n);
    assert b2.nodes[n] == b.nodes[n].(subclasses := b2.nodes[n].subclasses);
    assert c.nodes[n] == b2.nodes[n].(instanceVars := vs);
    assert InstanceVars.SameShape(b2, c) by {
      forall x | x in b2.nodes
        ensures InstanceVars.Shape(b2.nodes[x]) == InstanceVars.Shape(c.nodes[x])
      {
      }
    }
    InstanceVars.SameShapeSuperclass(b2, c, n);
  }

  /** `var.type.clone(types_context) if var.type` */
  function CloneOpt(a: Arena, ctx: Context, t: Option<Ty>, ghost bound: nat): (r: Cloned<Option<Ty>>)
    requires Inv(a, ctx, bound) && (t.Some? ==> TyBelow(t.value, bound))
    ensures Post(a, ctx, r.arena, r.ctx, bound)
    ensures r.value.Some? <==> t.Some?
    decreases Unmemo(ctx, bound), if t.Some? then TySize(t.value) else 1, 1
  {
    match t
    case None => Cloned(a, ctx, None)
    case Some(ty) =>
      var c := CloneTy(a, ctx, ty, bound);
      Cloned(c.arena, c.ctx, Some(c.value))
  }

  /** The instance variables, each keeping its name, with cloned types */
  function CloneIVars(a: Arena, ctx: Context, vs: seq<IVar>, ghost bound: nat): (r: Cloned<seq<IVar>>)
    requires Inv(a, ctx, bound) && IVarsBelow(vs, bound)
    ensures Post(a, ctx, r.arena, r.ctx, bound)
    ensures SameIVarNames(vs, r.value)
    decreases Unmemo(ctx, bound), IVarsSize(vs), 2
  {
    if |vs| == 0 then Cloned(a, ctx, [])
    else
      IVarsSizeCons(vs);
      var h := CloneOpt(a, ctx, vs[0].ty, bound);
      UnmemoMonotone(ctx, h.ctx, bound);
      assert IVarsBelow(vs[1..], bound) by {
        assert forall i | 0 <= i < |vs[1..]| :: vs[1..][i] == vs[i + 1];
      }
      var rest := CloneIVars(h.arena, h.ctx, vs[1..], bound);
      PostChain(a, ctx, h.arena, h.ctx, rest.arena, rest.ctx, bound);
      ConsNames(vs, IVar(vs[0].name, h.value), rest.value);
      Cloned(rest.arena, rest.ctx, [IVar(vs[0].name, h.value)] + rest.value)
  }

  lemma ConsNames(vs: seq<IVar>, v0: IVar, ws: seq<IVar>)
    requires |vs| > 0 && v0.name == vs[0].name && (v0.ty.Some? <==> vs[0].ty.Some?)
    requires SameIVarNames(vs[1..], ws)
    ensures SameIVarNames(vs, [v0] + ws)
  {
    forall i | 1 <= i < |vs|
      ensures ([v0] + ws)[i].name == vs[i].name && (([v0] + ws)[i].ty.Some? <==> vs[i].ty.Some?)
    {
      assert vs[i] == vs[1..][i - 1] && ([v0] + ws)[i] == ws[i - 1];
    }
  }

  // ---------------------------------------------------------------------
  // What a clone is: the image of the type under the final context
  // ---------------------------------------------------------------------

  /** A type with every generic object type the context has cloned replaced by its clone */
  function Image(a: Arena, c: Context, t: Ty): Ty {
    match t
    case Node(id) => if IsGenericObject(a, id) && id in c then Node(c[id]) else t
    case Hierarchy(_) => t
    case Union(ms) => Union(seq(|ms|, i requires 0 <= i < |ms| => Image(a, c, ms[i])))
  }

  /** Every generic object type the type mentions has a clone in the context */
  predicate Settled(a: Arena, c: Context, t: Ty) {
    match t
    case Node(id) => IsGenericObject(a, id) ==> id in c
    case Hierarchy(_) => true
    case Union(ms) => forall i | 0 <= i < |ms| :: Settled(a, c, ms[i])
  }

  /** The two arenas agree on which types below `bound` are generic object types */
  ghost predicate SameGenerics(a1: Arena, a2: Arena, bound: nat) {
    forall id: nat | id < bound :: IsGenericObject(a2, id) == IsGenericObject(a1, id)
  }

  lemma GrowsSameGenerics(a1: Arena, a2: Arena, bound: nat)
    requires Grows(a1, a2) && bound <= a1.next
    ensures SameGenerics(a1, a2, bound)
  {
    forall id: nat | id < bound
      ensures IsGenericObject(a2, id) == IsGenericObject(a1, id)
    {
      if id in a1.nodes {
        assert a2.nodes[id] == a1.nodes[id].(subclasses := a2.nodes[id].subclasses);
      }
    }
  }

  /** A settled type keeps its image when the arena grows and the context extends */
  lemma {:induction false} ImageStable(a1: Arena, c1: Context, a2: Arena, c2: Context, t: Ty, bound: nat)
    requires SameGenerics(a1, a2, bound) && Extends(c1, c2) && TyBelow(t, bound) && Settled(a1, c1, t)
    ensures Settled(a2, c2, t) && Image(a2, c2, t) == Image(a1, c1, t)
    decreases t
  {
    match t
    case Node(id) =>
    case Hierarchy(_) =>
    case Union(ms) =>
      forall i | 0 <= i < |ms|
        ensures Settled(a2, c2, ms[i]) && Image(a2, c2, ms[i]) == Image(a1, c1, ms[i])
      {
        ImageStable(a1, c1, a2, c2, ms[i], bound);
      }
  }

  /** The clone of a type is its image under the context the clone leaves behind */
  lemma {:induction false} CloneImage(a: Arena, ctx: Context, t: Ty, bound: nat)
    requires Inv(a, ctx, bound) && TyBelow(t, bound)
    ensures var r := CloneTy(a, ctx, t, bound);
      Settled(r.arena, r.ctx, t) && r.value == Image(r.arena, r.ctx, t)
    decreases Unmemo(ctx, bound), TySize(t), 0
  {
    var r := CloneTy(a, ctx, t, bound);
    match t
    case Node(id) =>
      if IsGenericObject(a, id) && id !in ctx {
        assert r.arena.nodes[id] == a.nodes[id].(subclasses := r.arena.nodes[id].subclasses);
      }
    case Hierarchy(_) =>
    case Union(ms) =>
      MembersSizeOfUnion(ms);
      CloneMembersImage(a, ctx, ms, bound);
      var rm := CloneMembers(a, ctx, ms, bound);
      assert r.value == Union(rm.value);
  }

  lemma {:induction false} CloneMembersImage(a: Arena, ctx: Context, ms: seq<Ty>, bound: nat)
    requires Inv(a, ctx, bound) && forall i | 0 <= i < |ms| :: TyBelow(ms[i], bound)
    ensures var r := CloneMembers(a, ctx, ms, bound);
      forall i | 0 <= i < |ms| :: Settled(r.arena, r.ctx, ms[i]) && r.value[i] == Image(r.arena, r.ctx, ms[i])
    decreases Unmemo(ctx, bound), MembersSize(ms), 1
  {
    if |ms| > 0 {
      MembersSizeCons(ms);
      var h := CloneTy(a, ctx, ms[0], bound);
      CloneImage(a, ctx, ms[0], bound);
      UnmemoMonotone(ctx, h.ctx, bound);
      var rest := CloneMembers(h.arena, h.ctx, ms[1..], bound);
      CloneMembersImage(h.arena, h.ctx, ms[1..], bound);
      GrowsSameGenerics(h.arena, rest.arena, bound);
      ImageStable(h.arena, h.ctx, rest.arena, rest.ctx, ms[0], bound);
      var r := CloneMembers(a, ctx, ms, bound);
      assert r == Cloned(rest.arena, rest.ctx, [h.value] + rest.value);
      ConsImage(rest.arena, rest.ctx, ms, h.value, rest.value);
    }
  }

  lemma ConsImage(a: Arena, c: Context, ms: seq<Ty>, v0: Ty, vs: seq<Ty>)
    requires |ms| > 0 && |vs| == |ms| - 1
    requires Settled(a, c, ms[0]) && v0 == Image(a, c, ms[0])
    requires forall j | 0 <= j < |vs| :: Settled(a, c, ms[1..][j]) && vs[j] == Image(a, c, ms[1..][j])
    ensures forall i | 0 <= i < |ms| :: Settled(a, c, ms[i]) && ([v0] + vs)[i] == Image(a, c, ms[i])
  {
    forall i | 1 <= i < |ms|
      ensures Settled(a, c, ms[i]) && ([v0] + vs)[i] == Image(a, c, ms[i])
    {
      assert ms[i] == ms[1..][i - 1] && ([v0] + vs)[i] == vs[i - 1];
    }
  }

  /** A type whose generic object types all have clones clones to its image, changing nothing */
  lemma {:induction false} CloneSettledFixed(a: Arena, ctx: Context, t: Ty, bound: nat)
    requires Inv(a, ctx, bound) && TyBelow(t, bound) && Settled(a, ctx, t)
    ensures CloneTy(a, ctx, t, bound) == Cloned(a, ctx, Image(a, ctx, t))
    decreases Unmemo(ctx, bound), TySize(t), 0
  {
    match t
    case Node(_) =>
    case Hierarchy(_) =>
    case Union(ms) =>
      MembersSizeOfUnion(ms);
      CloneMembersSettledFixed(a, ctx, ms, bound);
      var rm := CloneMembers(a, ctx, ms, bound);
      assert rm.value == seq(|ms|, i requires 0 <= i < |ms| => Image(a, ctx, ms[i]));
  }

  lemma {:induction false} CloneMembersSettledFixed(a: Arena, ctx: Context, ms: seq<Ty>, bound: nat)
    requires Inv(a, ctx, bound) && forall i | 0 <= i < |ms| :: TyBelow(ms[i], bound) && Settled(a, ctx, ms[i])
    ensures var r := CloneMembers(a, ctx, ms, bound);
      r.arena == a && r.ctx == ctx && |r.value| == |ms|
      && forall i | 0 <= i < |ms| :: r.value[i] == Image(a, ctx, ms[i])
    decreases Unmemo(ctx, bound), MembersSize(ms), 1
  {
    if |ms| > 0 {
      MembersSizeCons(ms);
      CloneSettledFixed(a, ctx, ms[0], bound);
      CloneMembersSettledFixed(a, ctx, ms[1..], bound);
      var r := CloneMembers(a, ctx, ms, bound);
      forall i | 1 <= i < |ms|
        ensures r.value[i] == Image(a, ctx, ms[i])
      {
        assert ms[i] == ms[1..][i - 1];
      }
    }
  }

  /**
    Cloning again with the context a clone left behind returns the same
    clone and creates nothing: each type is cloned once per context.
   */
  lemma CloneIdempotent(a: Arena, ctx: Context, t: Ty, bound: nat)
    requires Inv(a, ctx, bound) && TyBelow(t, bound)
    ensures var r := CloneTy(a, ctx, t, bound); CloneTy(r.arena, r.ctx, t, bound) == r
  {
    var r := CloneTy(a, ctx, t, bound);
    CloneImage(a, ctx, t, bound);
    CloneSettledFixed(r.arena, r.ctx, t, bound);
  }

  /** The cloned instance-variable types are the images of the original ones */
  lemma {:induction false} CloneIVarsImage(a: Arena, ctx: Context, vs: seq<IVar>, bound: nat)
    requires Inv(a, ctx, bound) && IVarsBelow(vs, bound)
    ensures var r := CloneIVars(a, ctx, vs, bound);
      forall i | 0 <= i < |vs| && vs[i].ty.Some? ::
        Settled(r.arena, r.ctx, vs[i].ty.value) && r.value[i].ty == Some(Image(r.arena, r.ctx, vs[i].ty.value))
    decreases |vs|
  {
    if |vs| > 0 {
      var h := CloneOpt(a, ctx, vs[0].ty, bound);
      if vs[0].ty.Some? {
        CloneImage(a, ctx, vs[0].ty.value, bound);
      }
      assert IVarsBelow(vs[1..], bound) by {
        assert forall i | 0 <= i < |vs[1..]| :: vs[1..][i] == vs[i + 1];
      }
      var rest := CloneIVars(h.arena, h.ctx, vs[1..], bound);
      CloneIVarsImage(h.arena, h.ctx, vs[1..], bound);
      GrowsSameGenerics(h.arena, rest.arena, bound);
      if vs[0].ty.Some? {
        ImageStable(h.arena, h.ctx, rest.arena, rest.ctx, vs[0].ty.value, bound);
      }
      var r := CloneIVars(a, ctx, vs, bound);
      assert r == Cloned(rest.arena, rest.ctx, [IVar(vs[0].name, h.value)] + rest.value);
      ConsIVarImage(rest.arena, rest.ctx, vs, IVar(vs[0].name, h.value), rest.value);
    }
  }

  lemma ConsIVarImage(a: Arena, c: Context, vs: seq<IVar>, v0: IVar, ws: seq<IVar>)
    requires |vs| > 0 && |ws| == |vs| - 1
    requires vs[0].ty.Some? ==> Settled(a, c, vs[0].ty.value) && v0.ty == Some(Image(a, c, vs[0].ty.value))
    requires forall j | 0 <= j < |ws| && vs[1..][j].ty.Some? ::
      Settled(a, c, vs[1..][j].ty.value) && ws[j].ty == Some(Image(a, c, vs[1..][j].ty.value))
    ensures forall i | 0 <= i < |vs| && vs[i].ty.Some? ::
      Settled(a, c, vs[i].ty.value) && ([v0] + ws)[i].ty == Some(Image(a, c, vs[i].ty.value))
  {
    forall i | 1 <= i < |vs| && vs[i].ty.Some?
      ensures Settled(a, c, vs[i].ty.value) && ([v0] + ws)[i].ty == Some(Image(a, c, vs[i].ty.value))
    {
      assert vs[i] == vs[1..][i - 1] && ([v0] + ws)[i] == ws[i - 1];
    }
  }

  /**
    The clone of a generic type holds, for each typed instance variable of
    the original, the image of its type under the final context.
   */
  lemma CloneObjectIVars(a: Arena, ctx: Context, id: TypeId, bound: nat)
    requires Inv(a, ctx, bound) && id < bound && IsGenericObject(a, id) && id !in ctx
    ensures var r := CloneTy(a, ctx, Node(id), bound); var src := a.nodes[id].instanceVars;
      && a.next in r.arena.nodes && |r.arena.nodes[a.next].instanceVars| == |src|
      && forall i | 0 <= i < |src| && src[i].ty.Some? ::
           r.arena.nodes[a.next].instanceVars[i].ty == Some(Image(r.arena, r.ctx, src[i].ty.value))
  {
    var (b, n) := FreshClone(a, id);
    UnmemoShrinks(ctx, id, n, bound);
    FreshCloneInv(a, ctx, id, b, n, bound);
    var vs := a.nodes[id].instanceVars;
    var ri := CloneIVars(b, ctx[id := n], vs, bound);
    var c := InstanceVars.WithIVars(ri.arena, n, ri.value);
    assert CloneTy(a, ctx, Node(id), bound) == CloneObject(a, ctx, id, bound);
    assert CloneObject(a, ctx, id, bound) == Cloned(c, ri.ctx, Node(n));
    CloneIVarsImage(b, ctx[id := n], vs, bound);
    assert SameGenerics(ri.arena, c, bound) by {
      forall x: nat | x < bound
        ensures IsGenericObject(c, x) == IsGenericObject(ri.arena, x)
      {
        assert x != n;
      }
    }
    forall i | 0 <= i < |vs| && vs[i].ty.Some?
      ensures c.nodes[n].instanceVars[i].ty == Some(Image(c, ri.ctx, vs[i].ty.value))
    {
      assert IVarsBelow(vs, bound);
      ImageStable(ri.arena, ri.ctx, c, ri.ctx, vs[i].ty.value, bound);
    }
  }

  /**
    The type is recorded in the context before its instance variables are
    cloned, so an instance variable typed by the generic type itself is
    typed by the clone in the clone.
   */
  lemma CloneSelfReference(a: Arena, ctx: Context, id: TypeId, bound: nat, i: nat)
    requires Inv(a, ctx, bound) && id < bound && IsGenericObject(a, id) && id !in ctx
    requires i < |a.nodes[id].instanceVars| && a.nodes[id].instanceVars[i].ty == Some(Node(id))
    ensures var r := CloneTy(a, ctx, Node(id), bound);
      r.value == Node(a.next) && a.next in r.arena.nodes
      && i < |r.arena.nodes[a.next].instanceVars|
      && r.arena.nodes[a.next].instanceVars[i].ty == Some(Node(a.next))
  {
    var r := CloneTy(a, ctx, Node(id), bound);
    CloneObjectIVars(a, ctx, id, bound);
    assert r.arena.nodes[id] == a.nodes[id].(subclasses := r.arena.nodes[id].subclasses);
    assert Image(r.arena, r.ctx, Node(id)) == Node(a.next);
  }
}

=== FILE: cover.dfy ===
/**
  The coverage table of `lookup_matches_without_parents`: one cell per
  combination of union members among the call's argument types, marked by
  `mark_cover` for every combination some match accepts.
 */
module Cover {
  import opened Wrappers
  import opened TypeGraph
  import ObjectTypes

  /** One argument position of the table: the members of a union argument, or a single type */
  datatype CoverCell = Cells(members: seq<Ty>) | Single(t: Ty)

  /** How many table rows one position spans */
  function Width(c: CoverCell): nat {
    if c.Cells? then |c.members| else 1
  }

  /** The product of the widths of positions `i..` */
  function WidthFrom(cells: seq<CoverCell>, i: nat): nat
    requires i <= |cells|
    decreases |cells| - i
  {
    if i == |cells| then 1 else Width(cells[i]) * WidthFrom(cells, i + 1)
  }

  /** The size of the table: the product of the union member counts */
  function CoverSize(cells: seq<CoverCell>): nat {
    WidthFrom(cells, 0)
  }

  /** A virtual type stands for its base type in the table */
  function Unwrap(t: Ty): Ty {
    if t.Hierarchy? then Node(t.base) else t
  }

  /** `cover_arg_types` entry of one argument type */
  function CellOf(t: Ty): (c: CoverCell)
    ensures t.Union? <==> c.Cells?
    ensures t.Union? ==> |c.members| == |t.members|
  {
    match t
    case Union(ms) => Cells(seq(|ms|, i requires 0 <= i < |ms| => Unwrap(ms[i])))
    case Hierarchy(b) => Single(Node(b))
    case Node(_) => Single(t)
  }

  function CellsOf(args: seq<Ty>): (cells: seq<CoverCell>)
    ensures |cells| == |args|
    ensures forall i | 0 <= i < |args| :: cells[i] == CellOf(args[i])
  {
    seq(|args|, i requires 0 <= i < |args| => CellOf(args[i]))
  }

  /**
    `Type#each`: a type yields itself, a union its members, and a virtual
    type its base type followed by every subtype in preorder.
   */
  function EachTy(a: Arena, t: Ty): seq<Ty>
    requires WellFormed(a)
  {
    match t
    case Union(ms) => ms
    case Hierarchy(b) =>
      if b in a.nodes then
        var ids := ObjectTypes.EachType(a, b);
        seq(|ids|, i requires 0 <= i < |ids| => Node(ids[i]))
      else []
    case Node(_) => [t]
  }

  /** `Array#index`: the first position holding `x` */
  function IndexOf(s: seq<Ty>, x: Ty): (r: Option<nat>)
    ensures r.Some? ==> r.value < |s| && s[r.value] == x && forall j | 0 <= j < r.value :: s[j] != x
    ensures r.None? <==> x !in s
  {
    if |s| == 0 then None
    else if s[0] == x then Some(0)
    else match IndexOf(s[1..], x)
      case Some(k) => Some(k + 1)
      case None => None
  }

  /**
    `mark_cover`: the table positions one match marks, from argument
    position `index` on, having reached `position` with place value
    `multiplier`.
   */
  function MarkCover(a: Arena, cells: seq<CoverCell>, mts: seq<Ty>, index: nat, position: int, multiplier: int): set<int>
    requires WellFormed(a) && |mts| == |cells| && index <= |cells|
    decreases |cells| - index, 1, 0
  {
    if index == |cells| then {position}
    else MarkEach(a, cells, mts, index, position, multiplier, EachTy(a, mts[index]))
  }

  /** The marks reached through each type `xs` the match's argument type yields */
  function MarkEach(a: Arena, cells: seq<CoverCell>, mts: seq<Ty>, index: nat, position: int, multiplier: int, xs: seq<Ty>)
    : set<int>
    requires WellFormed(a) && |mts| == |cells| && index < |cells|
    decreases |cells| - index, 0, |xs|
  {
    if |xs| == 0 then {}
    else
      var here :=
        match cells[index]
        case Cells(ms) =>
          (match IndexOf(ms, xs[0])
           case Some(offset) => MarkCover(a, cells, mts, index + 1, position + offset * multiplier, multiplier * |ms|)
           case None => {})
        case Single(t) =>
          if t == xs[0] then MarkCover(a, cells, mts, index + 1, position, multiplier) else {};
      here + MarkEach(a, cells, mts, index, position, multiplier, xs[1..])
  }

  /** All positions one match marks in a fresh walk */
  function Marks(a: Arena, cells: seq<CoverCell>, mts: seq<Ty>): set<int>
    requires WellFormed(a) && |mts| == |cells|
  {
    MarkCover(a, cells, mts, 0, 0, 1)
  }

  lemma MulStep(position: int, offset: int, multiplier: int, w: int, rest: int)
    requires 0 <= position < multiplier && 0 <= offset < w
    ensures 0 <= position + offset * multiplier < multiplier * w
    ensures (multiplier * w) * rest == multiplier * (w * rest)
  {
    assert (offset + 1) * multiplier <= w * multiplier;
  }

  /**
    The index bound: starting below the place value of position `index`,
    every mark lies below that place value times the widths still to come.
   */
  lemma {:induction false} MarkCoverInRange(a: Arena, cells: seq<CoverCell>, mts: seq<Ty>, index: nat, position: int, multiplier: int)
    requires WellFormed(a) && |mts| == |cells| && index <= |cells|
    requires 0 <= position < multiplier
    ensures forall p | p in MarkCover(a, cells, mts, index, position, multiplier) :: 0 <= p < multiplier * WidthFrom(cells, index)
    decreases |cells| - index, 1, 0
  {
    if index < |cells| {
      MarkEachInRange(a, cells, mts, index, position, multiplier, EachTy(a, mts[index]));
    }
  }

  lemma {:induction false} MarkEachInRange(a: Arena, cells: seq<CoverCell>, mts: seq<Ty>, index: nat, position: int, multiplier: int, xs: seq<Ty>)
    requires WellFormed(a) && |mts| == |cells| && index < |cells|
    requires 0 <= position < multiplier
    ensures forall p | p in MarkEach(a, cells, mts, index, position, multiplier, xs) :: 0 <= p < multiplier * WidthFrom(cells, index)
    decreases |cells| - index, 0, |xs|
  {
    if |xs| > 0 {
      var rest := WidthFrom(cells, index + 1);
      match cells[index] {
        case Cells(ms) =>
          match IndexOf(ms, xs[0]) {
            case Some(offset) =>
              MulStep(position, offset, multiplier, |ms|, rest);
              MarkCoverInRange(a, cells, mts, index + 1, position + offset * multiplier, multiplier * |ms|);
            case None =>
          }
        case Single(t) =>
          if t == xs[0] {
            MarkCoverInRange(a, cells, mts, index + 1, position, multiplier);
            assert multiplier * rest == multiplier * (1 * rest);
          }
      }
      MarkEachInRange(a, cells, mts, index, position, multiplier, xs[1..]);
    }
  }

  /** Every position a match marks lies inside the table */
  lemma MarksInTable(a: Arena, cells: seq<CoverCell>, mts: seq<Ty>)
    requires WellFormed(a) && |mts| == |cells|
    ensures forall p | p in Marks(a, cells, mts) :: 0 <= p < CoverSize(cells)
  {
    MarkCoverInRange(a, cells, mts, 0, 0, 1);
  }

  /**
    With a single union argument, a match marks exactly the first position
    of each union member its argument type yields.
   */
  lemma {:induction false} MarkEachOneUnion(a: Arena, ms: seq<Ty>, mt: Ty, xs: seq<Ty>)
    requires WellFormed(a)
    ensures forall p :: p in MarkEach(a, [Cells(ms)], [mt], 0, 0, 1, xs) <==>
      exists x | x in xs :: IndexOf(ms, x) == Some(p)
    decreases |xs|
  {
    if |xs| > 0 {
      MarkEachOneUnion(a, ms, mt, xs[1..]);
      forall p
        ensures p in MarkEach(a, [Cells(ms)], [mt], 0, 0, 1, xs) <==> exists x | x in xs :: IndexOf(ms, x) == Some(p)
      {
        if exists x | x in xs :: IndexOf(ms, x) == Some(p) {
          var x :| x in xs && IndexOf(ms, x) == Some(p);
          if x != xs[0] {
            assert x in xs[1..];
          }
        }
      }
    }
  }

  /** A one-argument union table: position `p` is marked iff the match yields member `p` (first occurrence) */
  lemma MarksOneUnion(a: Arena, ms: seq<Ty>, mt: Ty, p: int)
    requires WellFormed(a) && 0 <= p < |ms| && forall j | 0 <= j < p :: ms[j] != ms[p]
    ensures p in Marks(a, [Cells(ms)], [mt]) <==> ms[p] in EachTy(a, mt)
  {
    MarkEachOneUnion(a, ms, mt, EachTy(a, mt));
    assert Marks(a, [Cells(ms)], [mt]) == MarkEach(a, [Cells(ms)], [mt], 0, 0, 1, EachTy(a, mt));
    if p in Marks(a, [Cells(ms)], [mt]) {
      var x :| x in EachTy(a, mt) && IndexOf(ms, x) == Some(p);
    }
    if ms[p] in EachTy(a, mt) {
      assert IndexOf(ms, ms[p]) == Some(p);
    }
  }
}

=== FILE: deftable.dfy ===
/**
  The per-type definition table of `DefContainer`: exact-signature
  registration, optional arguments as implicit shorter overloads, the
  specificity-ordered candidate lists, `lookup_first_def` and the macro table.
 */
module DefTable {
  import opened Wrappers
  import opened TypeGraph
  import ModuleTypes

  /**
    The position before which `add_sorted_def` inserts: the first existing
    candidate the new def is a restriction of, or the end of the list.
   */
  function InsertionPoint(s: seq<Def>, d: Def, restricts: (Def, Def) -> bool): (k: nat)
    ensures k <= |s|
    ensures forall j | 0 <= j < k :: !restricts(d, s[j])
    ensures k < |s| ==> restricts(d, s[k])
  {
    if |s| == 0 then 0
    else if restricts(d, s[0]) then 0
    else 1 + InsertionPoint(s[1..], d, restricts)
  }

  /** `add_sorted_def` on one candidate list; `restricts(d, x)` is `d.is_restriction_of?(x, self)` */
  function AddSortedDef(s: seq<Def>, d: Def, restricts: (Def, Def) -> bool): (r: seq<Def>)
    ensures |r| == |s| + 1
    ensures var k := InsertionPoint(s, d, restricts); r[k] == d && r[..k] == s[..k] && r[k + 1..] == s[k..]
  {
    var k := InsertionPoint(s, d, restricts);
    s[..k] + [d] + s[k..]
  }

  /**
    The insertion position is the only one where the new def follows no
    candidate it restricts and precedes one it restricts (or the end);
    the existing candidates keep their relative order.
   */
  lemma AddSortedDefFirstFit(s: seq<Def>, d: Def, restricts: (Def, Def) -> bool, k: nat)
    requires k <= |s|
    requires forall j | 0 <= j < k :: !restricts(d, s[j])
    requires k < |s| ==> restricts(d, s[k])
    ensures AddSortedDef(s, d, restricts) == s[..k] + [d] + s[k..]
  {
  }

  lemma AddSortedDefContents(s: seq<Def>, d: Def, restricts: (Def, Def) -> bool, x: Def)
    ensures x in AddSortedDef(s, d, restricts) <==> x == d || x in s
  {
    var k := InsertionPoint(s, d, restricts);
    assert s == s[..k] + s[k..];
  }

  /**
    `restricts` totally orders the distinct defs of `dom`: it is transitive,
    and of two distinct defs exactly one is a restriction of the other.
    Whether a def is a restriction of itself is left open, so a reflexive
    specificity relation qualifies.
   */
  predicate TotalOrderOn(dom: seq<Def>, restricts: (Def, Def) -> bool) {
    && (forall x, y, z | x in dom && y in dom && z in dom :: restricts(x, y) && restricts(y, z) ==> restricts(x, z))
    && (forall x, y | x in dom && y in dom && x != y :: restricts(x, y) || restricts(y, x))
    && AntisymmetricOn(dom, restricts)
  }

  /** No two distinct defs of `dom` are restrictions of each other */
  predicate AntisymmetricOn(dom: seq<Def>, restricts: (Def, Def) -> bool) {
    forall x, y | x in dom && y in dom && x != y :: !(restricts(x, y) && restricts(y, x))
  }

  /** Every def comes before the defs it is a restriction of */
  predicate SortedBy(s: seq<Def>, restricts: (Def, Def) -> bool) {
    forall i, j | 0 <= i < j < |s| :: restricts(s[i], s[j])
  }

  /** `add_sorted_def` of each def in turn, starting from an empty list */
  function InsertAll(ds: seq<Def>, restricts: (Def, Def) -> bool): (r: seq<Def>)
    ensures |r| == |ds|
  {
    if |ds| == 0 then []
    else AddSortedDef(InsertAll(ds[..|ds| - 1], restricts), ds[|ds| - 1], restricts)
  }

  /** Under a total order, every candidate before the insertion point is a restriction of the new def */
  lemma BeforeInsertionPoint(s: seq<Def>, d: Def, restricts: (Def, Def) -> bool, dom: seq<Def>)
    requires TotalOrderOn(dom, restricts) && d in dom && forall x | x in s :: x in dom
    requires d !in s
    ensures forall i | 0 <= i < InsertionPoint(s, d, restricts) :: restricts(s[i], d)
  {
    forall i | 0 <= i < InsertionPoint(s, d, restricts)
      ensures restricts(s[i], d)
    {
      assert s[i] in s;
    }
  }

  /** In a sorted list, the new def is a restriction of every candidate from the insertion point on */
  lemma FromInsertionPoint(s: seq<Def>, d: Def, restricts: (Def, Def) -> bool, dom: seq<Def>)
    requires TotalOrderOn(dom, restricts) && d in dom && forall x | x in s :: x in dom
    requires SortedBy(s, restricts)
    ensures forall i | InsertionPoint(s, d, restricts) <= i < |s| :: restricts(d, s[i])
  {
    var k := InsertionPoint(s, d, restricts);
    forall i | k < i < |s|
      ensures restricts(d, s[i])
    {
      assert s[k] in s && s[i] in s;
    }
  }

  /** A def placed after everything that restricts it and before everything it restricts keeps a list sorted */
  lemma InsertKeepsSorted(s: seq<Def>, d: Def, restricts: (Def, Def) -> bool, k: nat)
    requires k <= |s| && SortedBy(s, restricts)
    requires forall i | 0 <= i < k :: restricts(s[i], d)
    requires forall i | k <= i < |s| :: restricts(d, s[i])
    ensures SortedBy(s[..k] + [d] + s[k..], restricts)
  {
    var r := s[..k] + [d] + s[k..];
    forall i, j | 0 <= i < j < |r|
      ensures restricts(r[i], r[j])
    {
      if j < k {
        assert r[i] == s[i] && r[j] == s[j];
      } else if j == k {
        assert r[i] == s[i];
      } else if i < k {
        assert r[i] == s[i] && r[j] == s[j - 1];
      } else if i == k {
        assert r[j] == s[j - 1];
      } else {
        assert r[i] == s[i - 1] && r[j] == s[j - 1];
      }
    }
  }

  /** Under a total order, inserting a new def keeps the list sorted */
  lemma AddSortedDefKeepsSorted(s: seq<Def>, d: Def, restricts: (Def, Def) -> bool, dom: seq<Def>)
    requires TotalOrderOn(dom, restricts) && d in dom && forall x | x in s :: x in dom
    requires SortedBy(s, restricts) && d !in s
    ensures SortedBy(AddSortedDef(s, d, restricts), restricts)
  {
    BeforeInsertionPoint(s, d, restricts, dom);
    FromInsertionPoint(s, d, restricts, dom);
    InsertKeepsSorted(s, d, restricts, InsertionPoint(s, d, restricts));
  }

  /** Inserting a def not yet listed keeps the list free of repeats */
  lemma AddSortedDefKeepsDistinct(s: seq<Def>, d: Def, restricts: (Def, Def) -> bool)
    requires Distinct(s) && d !in s
    ensures Distinct(AddSortedDef(s, d, restricts))
  {
    var k := InsertionPoint(s, d, restricts);
    var r := AddSortedDef(s, d, restricts);
    assert forall i | 0 <= i < k :: r[i] == s[i];
    assert forall i | k < i < |r| :: r[i] == s[i - 1];
    forall i, j | 0 <= i < j < |r|
      ensures r[i] != r[j]
    {
      if i == k {
        assert r[j] in s;
      } else if j == k {
        assert r[i] in s;
      }
    }
  }

  /** Inserting one by one keeps exactly the inserted defs */
  lemma {:induction false} InsertAllContents(ds: seq<Def>, restricts: (Def, Def) -> bool)
    ensures forall x :: x in InsertAll(ds, restricts) <==> x in ds
    decreases |ds|
  {
    if |ds| > 0 {
      var init := ds[..|ds| - 1];
      var d := ds[|ds| - 1];
      InsertAllContents(init, restricts);
      forall x
        ensures x in InsertAll(ds, restricts) <==> x in ds
      {
        AddSortedDefContents(InsertAll(init, restricts), d, restricts, x);
        assert ds == init + [d];
      }
    }
  }

  /** The last def of a repeat-free sequence is not among the others */
  lemma LastNotInInit(ds: seq<Def>)
    requires Distinct(ds) && |ds| > 0
    ensures ds[|ds| - 1] !in ds[..|ds| - 1] && Distinct(ds[..|ds| - 1])
  {
    var init := ds[..|ds| - 1];
    forall i | 0 <= i < |init|
      ensures init[i] != ds[|ds| - 1]
    {
      assert init[i] == ds[i];
    }
  }

  /** Inserting distinct defs one by one gives a list without repeats, sorted under a total order */
  lemma {:induction false} InsertAllSorted(ds: seq<Def>, restricts: (Def, Def) -> bool, dom: seq<Def>)
    requires TotalOrderOn(dom, restricts) && Distinct(ds) && forall x | x in ds :: x in dom
    ensures SortedBy(InsertAll(ds, restricts), restricts)
    ensures Distinct(InsertAll(ds, restricts))
    decreases |ds|
  {
    if |ds| > 0 {
      var init := ds[..|ds| - 1];
      var d := ds[|ds| - 1];
      assert forall x | x in init :: x in ds;
      LastNotInInit(ds);
      InsertAllSorted(init, restricts, dom);
      InsertAllContents(init, restricts);
      AddSortedDefKeepsSorted(InsertAll(init, restricts), d, restricts, dom);
      AddSortedDefKeepsDistinct(InsertAll(init, restricts), d, restricts);
    }
  }

  /** Two sorted lists of the same defs, not both empty, start with the same def */
  lemma SortedHead(x: seq<Def>, y: seq<Def>, restricts: (Def, Def) -> bool, dom: seq<Def>)
    requires AntisymmetricOn(dom, restricts) && forall e | e in x :: e in dom
    requires SortedBy(x, restricts) && SortedBy(y, restricts)
    requires forall e :: e in x <==> e in y
    requires |x| > 0 || |y| > 0
    ensures |x| > 0 && |y| > 0 && x[0] == y[0]
  {
    assert |x| > 0 ==> x[0] in x && x[0] in y;
    assert |y| > 0 ==> y[0] in y && y[0] in x;
  }

  /** The tail of a list without repeats holds everything but its head */
  lemma DistinctTail(x: seq<Def>)
    requires Distinct(x) && |x| > 0
    ensures forall e :: e in x[1..] <==> e in x && e != x[0]
    ensures Distinct(x[1..])
  {
    forall e | e in x[1..]
      ensures e != x[0]
    {
      var i :| 0 <= i < |x[1..]| && x[1..][i] == e;
      assert x[i + 1] == e;
    }
    assert x == [x[0]] + x[1..];
  }

  /** Two repeat-free lists sorted by an antisymmetric relation and holding the same defs are the same list */
  lemma {:induction false} SortedUnique(x: seq<Def>, y: seq<Def>, restricts: (Def, Def) -> bool, dom: seq<Def>)
    requires AntisymmetricOn(dom, restricts) && forall e | e in x :: e in dom
    requires SortedBy(x, restricts) && SortedBy(y, restricts) && Distinct(x) && Distinct(y)
    requires forall e :: e in x <==> e in y
    ensures x == y
    decreases |x|
  {
    if |x| > 0 || |y| > 0 {
      SortedHead(x, y, restricts, dom);
      assert x[0] in x;
      DistinctTail(x);
      DistinctTail(y);
      var x', y' := x[1..], y[1..];
      assert forall e | e in x' :: e in x;
      SortedUnique(x', y', restricts, dom);
      assert x == [x[0]] + x' && y == [y[0]] + y';
    }
  }

  /**
    Specificity order does not depend on the order of definition: when the
    restriction relation totally orders a set of distinct defs, adding them
    one by one in any order yields the same, sorted, candidate list.
   */
  lemma InsertionOrderIrrelevant(ds1: seq<Def>, ds2: seq<Def>, restricts: (Def, Def) -> bool)
    requires Distinct(ds1) && Distinct(ds2) && forall e :: e in ds1 <==> e in ds2
    requires TotalOrderOn(ds1, restricts)
    ensures InsertAll(ds1, restricts) == InsertAll(ds2, restricts)
    ensures SortedBy(InsertAll(ds1, restricts), restricts)
  {
    InsertAllSorted(ds1, restricts, ds1);
    InsertAllSorted(ds2, restricts, ds1);
    InsertAllContents(ds1, restricts);
    InsertAllContents(ds2, restricts);
    SortedUnique(InsertAll(ds1, restricts), InsertAll(ds2, restricts), restricts, ds1);
  }

  /** The defs registered under one name */
  function DefsNamed(t: TypeNode, name: Name): map<Signature, Def> {
    if name in t.defs then t.defs[name] else map[]
  }

  /** The candidate list for one (name, arity, yields) key; absent keys read as empty */
  function SortedFor(t: TypeNode, key: DefKey): seq<Def> {
    if key in t.sortedDefs then t.sortedDefs[key] else []
  }

  function KeyFor(d: Def, arity: nat): DefKey {
    DefKey(d.name, arity, d.yieldsBlock)
  }

  function SignatureFor(d: Def, arity: nat): Signature
    requires arity <= |d.args|
  {
    Signature(Params(d)[..arity], d.yieldsBlock)
  }

  /** Arity `k` is reachable by omitting trailing arguments that all have defaults */
  predicate OptionalArity(d: Def, k: nat) {
    k <= |d.args| && forall j | k <= j < |d.args| :: d.args[j].hasDefault
  }

  function RegisterSignature(t: TypeNode, d: Def, arity: nat): TypeNode
    requires arity <= |d.args|
  {
    t.(defs := t.defs[d.name := DefsNamed(t, d.name)[SignatureFor(d, arity) := d]])
  }

  function InsertCandidate(t: TypeNode, d: Def, arity: nat, restricts: (Def, Def) -> bool): TypeNode {
    var key := KeyFor(d, arity);
    t.(sortedDefs := t.sortedDefs[key := AddSortedDef(SortedFor(t, key), d, restricts)])
  }

  lemma InsertCandidateFor(t: TypeNode, d: Def, arity: nat, restricts: (Def, Def) -> bool, key: DefKey)
    ensures SortedFor(InsertCandidate(t, d, arity, restricts), key) ==
      if key == KeyFor(d, arity) then AddSortedDef(SortedFor(t, key), d, restricts) else SortedFor(t, key)
    ensures InsertCandidate(t, d, arity, restricts).defs == t.defs
  {
  }

  lemma RegisterSignatureFor(t: TypeNode, d: Def, arity: nat, n: Name, sig: Signature)
    requires arity <= |d.args|
    ensures var r := RegisterSignature(t, d, arity);
      && r.sortedDefs == t.sortedDefs
      && (if n == d.name && sig == SignatureFor(d, arity)
          then sig in DefsNamed(r, n) && DefsNamed(r, n)[sig] == d
          else (sig in DefsNamed(r, n) <==> sig in DefsNamed(t, n))
               && (sig in DefsNamed(t, n) ==> DefsNamed(r, n)[sig] == DefsNamed(t, n)[sig]))
  {
  }

  /** Arity `k` is registered by the default-argument loop started at `index` */
  predicate DefaultRun(d: Def, k: nat, index: int)
    requires index < |d.args|
  {
    k <= index && forall j | k <= j <= index :: d.args[j].hasDefault
  }

  /** The `while` loop of `add_def` over trailing default-valued arguments */
  function AddDefaults(t: TypeNode, d: Def, index: int, restricts: (Def, Def) -> bool): (r: TypeNode)
    requires -1 <= index < |d.args|
    ensures r == t.(defs := r.defs, sortedDefs := r.sortedDefs)
    decreases index + 1
  {
    if index >= 0 && d.args[index].hasDefault then
      AddDefaults(InsertCandidate(RegisterSignature(t, d, index), d, index, restricts), d, index - 1, restricts)
    else t
  }

  predicate KeyOf(d: Def, key: DefKey) {
    key.name == d.name && key.yieldsBlock == d.yieldsBlock
  }

  lemma {:induction false} AddDefaultsCandidates(t: TypeNode, d: Def, index: int, restricts: (Def, Def) -> bool, key: DefKey)
    requires -1 <= index < |d.args|
    ensures SortedFor(AddDefaults(t, d, index, restricts), key) ==
      if KeyOf(d, key) && DefaultRun(d, key.arity, index)
      then AddSortedDef(SortedFor(t, key), d, restricts)
      else SortedFor(t, key)
    decreases index + 1
  {
    if index >= 0 && d.args[index].hasDefault {
      var t1 := RegisterSignature(t, d, index);
      RegisterSignatureFor(t, d, index, d.name, SignatureFor(d, index));
      var t' := InsertCandidate(t1, d, index, restricts);
      InsertCandidateFor(t1, d, index, restricts, key);
      AddDefaultsCandidates(t', d, index - 1, restricts, key);
      if KeyOf(d, key) && key.arity <= index - 1 {
        assert DefaultRun(d, key.arity, index) <==> DefaultRun(d, key.arity, index - 1);
      }
    }
  }

  lemma {:induction false} AddDefaultsSignatures(t: TypeNode, d: Def, index: int, restricts: (Def, Def) -> bool, k: nat)
    requires -1 <= index < |d.args|
    requires DefaultRun(d, k, index)
    ensures var r := AddDefaults(t, d, index, restricts);
      SignatureFor(d, k) in DefsNamed(r, d.name) && DefsNamed(r, d.name)[SignatureFor(d, k)] == d
    decreases index + 1
  {
    assert index >= 0 && d.args[index].hasDefault;
    var t1 := RegisterSignature(t, d, index);
    var t' := InsertCandidate(t1, d, index, restricts);
    InsertCandidateFor(t1, d, index, restricts, KeyFor(d, index));
    assert AddDefaults(t, d, index, restricts) == AddDefaults(t', d, index - 1, restricts);
    if k < index {
      assert DefaultRun(d, k, index - 1);
      AddDefaultsSignatures(t', d, index - 1, restricts, k);
    } else {
      RegisterSignatureFor(t, d, index, d.name, SignatureFor(d, k));
      ShorterSignaturesDiffer(d, k, index - 1);
      AddDefaultsKeepsSignature(t', d, index - 1, restricts, d.name, SignatureFor(d, k));
    }
  }

  /** A truncated signature differs from every shorter one */
  lemma ShorterSignaturesDiffer(d: Def, k: nat, index: int)
    requires k <= |d.args| && index < k
    ensures forall j | 0 <= j <= index :: SignatureFor(d, k) != SignatureFor(d, j)
  {
    forall j | 0 <= j <= index
      ensures SignatureFor(d, k) != SignatureFor(d, j)
    {
      assert |SignatureFor(d, k).restrictions| == k && |SignatureFor(d, j).restrictions| == j;
    }
  }

  /** Entries other than the def's own signatures of arity up to `index` are left alone */
  lemma {:induction false} AddDefaultsKeepsSignature(t: TypeNode, d: Def, index: int, restricts: (Def, Def) -> bool, n: Name, sig: Signature)
    requires -1 <= index < |d.args|
    requires n == d.name ==> forall k | 0 <= k <= index :: sig != SignatureFor(d, k)
    ensures var r := AddDefaults(t, d, index, restricts);
      (sig in DefsNamed(r, n) <==> sig in DefsNamed(t, n))
      && (sig in DefsNamed(t, n) ==> DefsNamed(r, n)[sig] == DefsNamed(t, n)[sig])
    decreases index + 1
  {
    if index >= 0 && d.args[index].hasDefault {
      var t1 := RegisterSignature(t, d, index);
      RegisterSignatureFor(t, d, index, n, sig);
      var t' := InsertCandidate(t1, d, index, restricts);
      InsertCandidateFor(t1, d, index, restricts, KeyFor(d, index));
      assert AddDefaults(t, d, index, restricts) == AddDefaults(t', d, index - 1, restricts);
      AddDefaultsKeepsSignature(t', d, index - 1, restricts, n, sig);
    }
  }

  /**
    `add_def`: registers the def under its exact signature and every
    optional shorter one, and inserts it into the candidate list of every
    optional arity.
   */
  function AddDef(t: TypeNode, d: Def, restricts: (Def, Def) -> bool): (r: TypeNode)
    ensures r == t.(defs := r.defs, sortedDefs := r.sortedDefs)
  {
    var n := |d.args|;
    InsertCandidate(AddDefaults(RegisterSignature(t, d, n), d, n - 1, restricts), d, n, restricts)
  }

  lemma OptionalArityAsRun(d: Def, k: nat)
    ensures OptionalArity(d, k) <==> k == |d.args| || DefaultRun(d, k, |d.args| - 1)
  {
  }

  /** After `add_def`, exactly the optional arities' candidate lists gain the def */
  lemma AddDefCandidates(t: TypeNode, d: Def, restricts: (Def, Def) -> bool, key: DefKey)
    ensures SortedFor(AddDef(t, d, restricts), key) ==
      if KeyOf(d, key) && OptionalArity(d, key.arity)
      then AddSortedDef(SortedFor(t, key), d, restricts)
      else SortedFor(t, key)
  {
    var n := |d.args|;
    var t1 := RegisterSignature(t, d, n);
    RegisterSignatureFor(t, d, n, d.name, SignatureFor(d, n));
    AddDefaultsCandidates(t1, d, n - 1, restricts, key);
    InsertCandidateFor(AddDefaults(t1, d, n - 1, restricts), d, n, restricts, key);
    OptionalArityAsRun(d, key.arity);
  }

  /** A def not yet listed is listed afterwards for arity k iff k is an optional arity */
  lemma AddDefListedExactly(t: TypeNode, d: Def, restricts: (Def, Def) -> bool, k: nat)
    requires d !in SortedFor(t, KeyFor(d, k))
    ensures d in SortedFor(AddDef(t, d, restricts), KeyFor(d, k)) <==> OptionalArity(d, k)
  {
    AddDefCandidates(t, d, restricts, KeyFor(d, k));
    AddSortedDefContents(SortedFor(t, KeyFor(d, k)), d, restricts, d);
  }

  /** After `add_def`, every optional signature of the def maps to the def */
  lemma AddDefSignatures(t: TypeNode, d: Def, restricts: (Def, Def) -> bool, k: nat)
    requires OptionalArity(d, k)
    ensures var r := AddDef(t, d, restricts);
      SignatureFor(d, k) in DefsNamed(r, d.name) && DefsNamed(r, d.name)[SignatureFor(d, k)] == d
  {
    var n := |d.args|;
    var t1 := RegisterSignature(t, d, n);
    AddDefKeepsDefaultsDefs(t, d, restricts);
    if k == n {
      OwnSignatureRegistered(t, d, restricts);
    } else {
      assert DefaultRun(d, k, n - 1);
      AddDefaultsSignatures(t1, d, n - 1, restricts, k);
    }
  }

  lemma AddDefKeepsDefaultsDefs(t: TypeNode, d: Def, restricts: (Def, Def) -> bool)
    ensures var t2 := AddDefaults(RegisterSignature(t, d, |d.args|), d, |d.args| - 1, restricts);
      DefsNamed(AddDef(t, d, restricts), d.name) == DefsNamed(t2, d.name)
  {
    var t2 := AddDefaults(RegisterSignature(t, d, |d.args|), d, |d.args| - 1, restricts);
    InsertCandidateFor(t2, d, |d.args|, restricts, KeyFor(d, |d.args|));
  }

  lemma OwnSignatureRegistered(t: TypeNode, d: Def, restricts: (Def, Def) -> bool)
    ensures var r := AddDefaults(RegisterSignature(t, d, |d.args|), d, |d.args| - 1, restricts);
      SignatureFor(d, |d.args|) in DefsNamed(r, d.name) && DefsNamed(r, d.name)[SignatureFor(d, |d.args|)] == d
  {
    var n := |d.args|;
    RegisterSignatureFor(t, d, n, d.name, SignatureFor(d, n));
    ShorterSignaturesDiffer(d, n, n - 1);
    AddDefaultsKeepsSignature(RegisterSignature(t, d, n), d, n - 1, restricts, d.name, SignatureFor(d, n));
  }

  lemma SingletonKey<K, V>(m: map<K, V>)
    requires |m| == 1
    ensures forall x, y | x in m && y in m :: x == y
  {
    forall x, y | x in m && y in m
      ensures x == y
    {
      if x != y {
        SubsetCard({x, y}, m.Keys);
      }
    }
  }

  /** `lookup_first_def`: the def of a name that has exactly one signature */
  function LookupFirstDef(t: TypeNode, name: Name): (r: Option<Def>)
    ensures r.Some? <==> |DefsNamed(t, name)| == 1
    ensures r.Some? ==> r.value in DefsNamed(t, name).Values
  {
    var m := DefsNamed(t, name);
    if |m| == 1 then
      SingletonKey(m);
      var s :| s in m;
      Some(m[s])
    else None
  }

  /** The macro registered on this very type for (name, arity) */
  function OwnMacro(t: TypeNode, name: Name, arity: nat): Option<Def> {
    if name in t.macros && arity in t.macros[name] then Some(t.macros[name][arity]) else None
  }

  /** `add_macro`: flat (name, arity) storage, the last registration wins */
  function AddMacro(t: TypeNode, d: Def): (r: TypeNode)
    ensures OwnMacro(r, d.name, |d.args|) == Some(d)
    ensures forall n, k: nat | n != d.name || k != |d.args| :: OwnMacro(r, n, k) == OwnMacro(t, n, k)
    ensures r == t.(macros := r.macros)
  {
    var m := if d.name in t.macros then t.macros[d.name] else map[];
    t.(macros := t.macros[d.name := m[|d.args| := d]])
  }

  /**
    `lookup_macro`: the type's own macro, else the first parent (in order)
    that has one; struct types have no parents.
   */
  function LookupMacro(a: Arena, id: TypeId, name: Name, arity: nat, onPath: set<TypeId>): (r: Option<Def>)
    ensures id !in a.nodes || id in onPath ==> r.None?
    ensures id in a.nodes && id !in onPath && OwnMacro(a.nodes[id], name, arity).Some? ==>
      r == OwnMacro(a.nodes[id], name, arity)
    ensures id in a.nodes && id !in onPath && OwnMacro(a.nodes[id], name, arity).None? ==>
      (UnvisitedShrinks(a, onPath, id);
       r == if a.nodes[id].kind.StructKind? then None else MacroInParents(a, a.nodes[id].parents, name, arity, onPath + {id}))
    ensures r.Some? ==> exists u | u in a.nodes && u !in onPath :: OwnMacro(a.nodes[u], name, arity) == r
    decreases |a.nodes.Keys - onPath|, 1
  {
    if id !in a.nodes || id in onPath then None
    else match OwnMacro(a.nodes[id], name, arity)
      case Some(m) => Some(m)
      case None =>
        if a.nodes[id].kind.StructKind? then None
        else
          UnvisitedShrinks(a, onPath, id);
          MacroInParents(a, a.nodes[id].parents, name, arity, onPath + {id})
  }

  function MacroInParents(a: Arena, ps: seq<TypeId>, name: Name, arity: nat, onPath: set<TypeId>): (r: Option<Def>)
    ensures r.Some? ==> exists u | u in a.nodes && u !in onPath :: OwnMacro(a.nodes[u], name, arity) == r
    decreases |a.nodes.Keys - onPath| + 1, 0, |ps|
  {
    if |ps| == 0 then None
    else match LookupMacro(a, ps[0], name, arity, onPath)
      case Some(m) => Some(m)
      case None => MacroInParents(a, ps[1..], name, arity, onPath)
  }

  /** The first result that holds a macro */
  function FirstMacro(rs: seq<Option<Def>>): Option<Def> {
    if |rs| == 0 then None
    else if rs[0].Some? then rs[0]
    else FirstMacro(rs[1..])
  }

  /** The first macro found is preceded only by misses; none means every result missed */
  lemma {:induction false} FirstMacroSpec(rs: seq<Option<Def>>)
    ensures var r := FirstMacro(rs);
      && (r.Some? ==> exists k | 0 <= k < |rs| :: r == rs[k] && forall j | 0 <= j < k :: rs[j].None?)
      && (r.None? ==> forall k | 0 <= k < |rs| :: rs[k].None?)
    decreases |rs|
  {
    if |rs| > 0 && rs[0].None? {
      var tail := rs[1..];
      FirstMacroSpec(tail);
      assert forall k | 1 <= k < |rs| :: rs[k] == tail[k - 1];
      if FirstMacro(rs).Some? {
        var k :| 0 <= k < |tail| && FirstMacro(rs) == tail[k] && forall j | 0 <= j < k :: tail[j].None?;
        assert FirstMacro(rs) == rs[k + 1];
      }
    }
  }

  /** The lookups of each parent, in order */
  function ParentMacros(a: Arena, ps: seq<TypeId>, name: Name, arity: nat, onPath: set<TypeId>): (rs: seq<Option<Def>>)
    ensures |rs| == |ps|
    ensures forall k | 0 <= k < |ps| :: rs[k] == LookupMacro(a, ps[k], name, arity, onPath)
  {
    seq(|ps|, k requires 0 <= k < |ps| => LookupMacro(a, ps[k], name, arity, onPath))
  }

  lemma {:induction false} MacroInParentsIsFirst(a: Arena, ps: seq<TypeId>, name: Name, arity: nat, onPath: set<TypeId>)
    ensures MacroInParents(a, ps, name, arity, onPath) == FirstMacro(ParentMacros(a, ps, name, arity, onPath))
    decreases |ps|
  {
    if |ps| > 0 {
      var rs := ParentMacros(a, ps, name, arity, onPath);
      MacroInParentsIsFirst(a, ps[1..], name, arity, onPath);
      assert rs[1..] == ParentMacros(a, ps[1..], name, arity, onPath);
    }
  }

  /**
    The parents are tried in order: the answer is that of the first parent
    whose lookup finds a macro, and nothing when none does.
   */
  lemma {:induction false} MacroInParentsFirstFound(a: Arena, ps: seq<TypeId>, name: Name, arity: nat, onPath: set<TypeId>)
    ensures var r := MacroInParents(a, ps, name, arity, onPath);
      && (r.Some? ==> exists k | 0 <= k < |ps| ::
           r == LookupMacro(a, ps[k], name, arity, onPath)
           && forall j | 0 <= j < k :: LookupMacro(a, ps[j], name, arity, onPath).None?)
      && (r.None? ==> forall k | 0 <= k < |ps| :: LookupMacro(a, ps[k], name, arity, onPath).None?)
  {
    MacroInParentsIsFirst(a, ps, name, arity, onPath);
    FirstMacroSpec(ParentMacros(a, ps, name, arity, onPath));
  }

  /**
    A non-struct type without a macro of its own answers with the first
    parent, in order, whose lookup finds one, and with nothing when none does.
   */
  lemma LookupMacroFallsBackInOrder(a: Arena, id: TypeId, name: Name, arity: nat, onPath: set<TypeId>)
    requires id in a.nodes && id !in onPath && !a.nodes[id].kind.StructKind?
    requires OwnMacro(a.nodes[id], name, arity).None?
    ensures var r := LookupMacro(a, id, name, arity, onPath);
      var ps, visited := a.nodes[id].parents, onPath + {id};
      && (r.Some? ==> exists k | 0 <= k < |ps| ::
           r == LookupMacro(a, ps[k], name, arity, visited)
           && forall j | 0 <= j < k :: LookupMacro(a, ps[j], name, arity, visited).None?)
      && (r.None? ==> forall k | 0 <= k < |ps| :: LookupMacro(a, ps[k], name, arity, visited).None?)
  {
    MacroInParentsFirstFound(a, a.nodes[id].parents, name, arity, onPath + {id});
  }

  /**
    A macro is found by walking up the parents, off the current walk, past
    types that do not define it, to the first type that does.
   */
  ghost predicate MacroChain(a: Arena, c: seq<TypeId>, name: Name, arity: nat, onPath: set<TypeId>, m: Def) {
    && ModuleTypes.ParentChain(a, c)
    && c[|c| - 1] in a.nodes && OwnMacro(a.nodes[c[|c| - 1]], name, arity) == Some(m)
    && (forall i | 0 <= i < |c| - 1 :: OwnMacro(a.nodes[c[i]], name, arity).None?)
    && (forall i | 0 <= i < |c| :: c[i] !in onPath)
  }

  /** Soundness of `lookup_macro`: the answer is the own macro of the end of a parent chain from the type */
  lemma {:induction false} LookupMacroHasChain(a: Arena, id: TypeId, name: Name, arity: nat, onPath: set<TypeId>)
    returns (c: seq<TypeId>)
    requires LookupMacro(a, id, name, arity, onPath).Some?
    ensures |c| >= 1 && c[0] == id
    ensures MacroChain(a, c, name, arity, onPath, LookupMacro(a, id, name, arity, onPath).value)
    decreases |a.nodes.Keys - onPath|, 1
  {
    if OwnMacro(a.nodes[id], name, arity).Some? {
      c := [id];
    } else {
      UnvisitedShrinks(a, onPath, id);
      var rest := MacroInParentsHasChain(a, a.nodes[id].parents, name, arity, onPath + {id});
      c := [id] + rest;
      ChainCons(a, id, rest, name, arity, onPath, LookupMacro(a, id, name, arity, onPath).value);
    }
  }

  lemma {:induction false} MacroInParentsHasChain(a: Arena, ps: seq<TypeId>, name: Name, arity: nat, onPath: set<TypeId>)
    returns (c: seq<TypeId>)
    requires MacroInParents(a, ps, name, arity, onPath).Some?
    ensures |c| >= 1 && c[0] in ps
    ensures MacroChain(a, c, name, arity, onPath, MacroInParents(a, ps, name, arity, onPath).value)
    decreases |a.nodes.Keys - onPath| + 1, 0, |ps|
  {
    if LookupMacro(a, ps[0], name, arity, onPath).Some? {
      c := LookupMacroHasChain(a, ps[0], name, arity, onPath);
    } else {
      c := MacroInParentsHasChain(a, ps[1..], name, arity, onPath);
    }
  }

  /** Prepending a non-struct type without the macro to a chain that starts at one of its parents */
  lemma ChainCons(a: Arena, id: TypeId, rest: seq<TypeId>, name: Name, arity: nat, onPath: set<TypeId>, m: Def)
    requires id in a.nodes && id !in onPath && !a.nodes[id].kind.StructKind?
    requires OwnMacro(a.nodes[id], name, arity).None?
    requires |rest| >= 1 && rest[0] in a.nodes[id].parents
    requires MacroChain(a, rest, name, arity, onPath + {id}, m)
    ensures MacroChain(a, [id] + rest, name, arity, onPath, m)
  {
    var c := [id] + rest;
    forall i | 0 <= i < |c| - 1
      ensures c[i] in a.nodes && !a.nodes[c[i]].kind.StructKind? && c[i + 1] in a.nodes[c[i]].parents
      ensures OwnMacro(a.nodes[c[i]], name, arity).None?
    {
      if i > 0 {
        assert c[i] == rest[i - 1] && c[i + 1] == rest[i];
      }
    }
    forall i | 0 <= i < |c|
      ensures c[i] !in onPath
    {
      if i > 0 {
        assert c[i] == rest[i - 1];
      }
    }
  }

  /** A macro just added to a type is what that type's lookup returns */
  lemma LookupMacroAfterAdd(a: Arena, id: TypeId, d: Def, onPath: set<TypeId>)
    requires id in a.nodes && id !in onPath
    ensures LookupMacro(a.(nodes := a.nodes[id := AddMacro(a.nodes[id], d)]), id, d.name, |d.args|, onPath) == Some(d)
  {
  }
}

=== FILE: instancevars.dfy ===
/**
  Instance variables of object types: inherited declarations
  (`has_instance_var?`, `lookup_instance_var`, `all_instance_vars`,
  `each_instance_var`) and the declarations `ObjectType#add_def` makes.
 */
module InstanceVars {
  import opened Wrappers
  import opened TypeGraph
  import ModuleTypes
  import DefTable

  /** An object type of the arena */
  predicate IsObject(a: Arena, id: TypeId) {
    id in a.nodes && a.nodes[id].kind.ObjectKind?
  }

  /** The first declaration of `name` in an ordered instance-variable table */
  function FindIVar(vs: seq<IVar>, name: Name): (r: Option<IVar>)
    ensures r.Some? ==> r.value in vs && r.value.name == name
    ensures r.None? <==> forall i | 0 <= i < |vs| :: vs[i].name != name
  {
    if |vs| == 0 then None
    else if vs[0].name == name then Some(vs[0])
    else FindIVar(vs[1..], name)
  }

  /** The declared names, in table order */
  function Names(vs: seq<IVar>): (ns: seq<Name>)
    ensures |ns| == |vs| && forall i | 0 <= i < |vs| :: ns[i] == vs[i].name
  {
    seq(|vs|, i requires 0 <= i < |vs| => vs[i].name)
  }

  /** `@instance_vars[name] ||= Var.new(name)`: declare an untyped variable unless present */
  function Declare(vs: seq<IVar>, name: Name): (r: seq<IVar>)
    ensures FindIVar(vs, name).Some? ==> r == vs
    ensures FindIVar(vs, name).None? ==> r == vs + [IVar(name, None)]
    ensures FindIVar(r, name).Some?
    ensures FindIVar(vs, name).None? ==> FindIVar(r, name) == Some(IVar(name, None))
  {
    if FindIVar(vs, name).Some? then vs
    else
      var r := vs + [IVar(name, None)];
      assert r[|vs|].name == name;
      r
  }

  /** The object superclass of an object type, in a well-formed arena */
  lemma ObjectSuperclass(a: Arena, id: TypeId)
    requires WellFormed(a) && IsObject(a, id)
    ensures Superclass(a, id).Some? ==>
      IsObject(a, Superclass(a, id).value) && a.nodes[Superclass(a, id).value].depth < a.nodes[id].depth
  {
    assert NodeRanked(a, id);
  }

  /** `has_instance_var?`: declared by the type or by an ancestor */
  predicate HasInstanceVar(a: Arena, id: TypeId, name: Name)
    requires WellFormed(a) && IsObject(a, id)
    decreases a.nodes[id].depth
  {
    ObjectSuperclass(a, id);
    (match Superclass(a, id)
     case Some(p) => HasInstanceVar(a, p, name)
     case None => false)
    || FindIVar(a.nodes[id].instanceVars, name).Some?
  }

  /** An instance variable is visible exactly when some class on the superclass chain declares it */
  lemma {:induction false} HasInstanceVarIffAncestorDeclares(a: Arena, id: TypeId, name: Name)
    requires WellFormed(a) && IsObject(a, id)
    ensures HasInstanceVar(a, id, name) <==>
      exists y | y in a.nodes && IsSubclassOf(a, id, y) :: FindIVar(a.nodes[y].instanceVars, name).Some?
    decreases a.nodes[id].depth
  {
    ObjectSuperclass(a, id);
    if Superclass(a, id).Some? {
      var p := Superclass(a, id).value;
      HasInstanceVarIffAncestorDeclares(a, p, name);
      if exists y | y in a.nodes && IsSubclassOf(a, id, y) :: FindIVar(a.nodes[y].instanceVars, name).Some? {
        var y :| y in a.nodes && IsSubclassOf(a, id, y) && FindIVar(a.nodes[y].instanceVars, name).Some?;
        if y != id {
          assert IsSubclassOf(a, p, y);
        }
      }
      if HasInstanceVar(a, p, name) {
        var y :| y in a.nodes && IsSubclassOf(a, p, y) && FindIVar(a.nodes[y].instanceVars, name).Some?;
        assert IsSubclassOf(a, id, y);
      }
    } else {
      if exists y | y in a.nodes && IsSubclassOf(a, id, y) :: FindIVar(a.nodes[y].instanceVars, name).Some? {
        var y :| y in a.nodes && IsSubclassOf(a, id, y) && FindIVar(a.nodes[y].instanceVars, name).Some?;
        assert y == id;
      }
    }
  }

  /** `lookup_instance_var(name, false)`: the outermost ancestor's declaration wins */
  function LookupVar(a: Arena, id: TypeId, name: Name): (r: Option<IVar>)
    requires WellFormed(a) && IsObject(a, id)
    ensures r.Some? <==> HasInstanceVar(a, id, name)
    ensures r.Some? ==> r.value.name == name
    decreases a.nodes[id].depth
  {
    ObjectSuperclass(a, id);
    var inherited := match Superclass(a, id) case Some(p) => LookupVar(a, p, name) case None => None;
    if inherited.Some? then inherited else FindIVar(a.nodes[id].instanceVars, name)
  }

  /**
    The variable `lookup_instance_var` finds is the declaration of an
    ancestor above which no class on the superclass chain declares the
    name: the outermost declaration, not the nearest.
   */
  lemma {:induction false} LookupVarOutermost(a: Arena, id: TypeId, name: Name)
    requires WellFormed(a) && IsObject(a, id)
    ensures var r := LookupVar(a, id, name);
      r.Some? ==> exists y | y in a.nodes && IsSubclassOf(a, id, y) ::
        && r == FindIVar(a.nodes[y].instanceVars, name)
        && forall z | z in a.nodes && z != y && IsSubclassOf(a, y, z) :: FindIVar(a.nodes[z].instanceVars, name).None?
    decreases a.nodes[id].depth
  {
    ObjectSuperclass(a, id);
    var r := LookupVar(a, id, name);
    if r.Some? {
      if Superclass(a, id).Some? && LookupVar(a, Superclass(a, id).value, name).Some? {
        var p := Superclass(a, id).value;
        LookupVarOutermost(a, p, name);
        var y :| y in a.nodes && IsSubclassOf(a, p, y) && r == FindIVar(a.nodes[y].instanceVars, name)
          && forall z | z in a.nodes && z != y && IsSubclassOf(a, y, z) :: FindIVar(a.nodes[z].instanceVars, name).None?;
        assert IsSubclassOf(a, id, y);
      } else {
        // the type's own declaration, and nothing above it declares the name
        assert IsSubclassOf(a, id, id);
        NothingAboveDeclares(a, id, name);
      }
    }
  }

  /** When the superclass does not see a name, no strict ancestor declares it */
  lemma NothingAboveDeclares(a: Arena, id: TypeId, name: Name)
    requires WellFormed(a) && IsObject(a, id)
    requires match Superclass(a, id) case Some(p) => IsObject(a, p) && !HasInstanceVar(a, p, name) case None => true
    ensures forall z | z in a.nodes && z != id && IsSubclassOf(a, id, z) :: FindIVar(a.nodes[z].instanceVars, name).None?
  {
    forall z | z in a.nodes && z != id && IsSubclassOf(a, id, z)
      ensures FindIVar(a.nodes[z].instanceVars, name).None?
    {
      var p := Superclass(a, id).value;
      assert IsSubclassOf(a, p, z);
      HasInstanceVarIffAncestorDeclares(a, p, name);
    }
  }

  /** Replace one type's instance-variable table */
  function WithIVars(a: Arena, id: TypeId, vs: seq<IVar>): (b: Arena)
    requires id in a.nodes
    ensures b.nodes.Keys == a.nodes.Keys && b.next == a.next
    ensures b.nodes[id] == a.nodes[id].(instanceVars := vs)
    ensures forall x | x in a.nodes && x != id :: b.nodes[x] == a.nodes[x]
  {
    a.(nodes := a.nodes[id := a.nodes[id].(instanceVars := vs)])
  }

  /** What a type is apart from its tables of definitions, macros and instance variables */
  function Shape(n: TypeNode): TypeNode {
    n.(defs := map[], sortedDefs := map[], macros := map[], instanceVars := [])
  }

  /** Two arenas that differ only in those tables */
  ghost predicate SameShape(a: Arena, b: Arena) {
    && a.nodes.Keys == b.nodes.Keys && a.next == b.next
    && forall x | x in a.nodes :: Shape(a.nodes[x]) == Shape(b.nodes[x])
  }

  lemma SameShapeSuperclass(a: Arena, b: Arena, x: TypeId)
    requires SameShape(a, b) && x in a.nodes
    ensures Superclass(a, x) == Superclass(b, x)
  {
    var ps := a.nodes[x].parents;
    assert Shape(a.nodes[x]).parents == ps;
    forall p | p in ps
      ensures IsClassParent(a, p) == IsClassParent(b, p)
    {
      if p in a.nodes {
        assert Shape(a.nodes[p]).kind == Shape(b.nodes[p]).kind;
      }
    }
    ModuleTypes.FirstClassParentSameKinds(a, b, ps);
  }

  lemma SameShapeNode(a: Arena, b: Arena, x: TypeId)
    requires SameShape(a, b) && x in a.nodes
    requires NodeClosed(a, x) && NodeRanked(a, x)
    ensures NodeClosed(b, x) && NodeRanked(b, x)
  {
    var n := a.nodes[x];
    assert Shape(n) == Shape(b.nodes[x]);
    SameShapeSuperclass(a, b, x);
    if Superclass(a, x).Some? {
      var s := Superclass(a, x).value;
      assert Shape(a.nodes[s]) == Shape(b.nodes[s]);
    }
    forall i | 0 <= i < |n.subclasses|
      ensures b.nodes[n.subclasses[i]].kind.ObjectKind? && Superclass(b, n.subclasses[i]) == Some(x)
    {
      var c := n.subclasses[i];
      assert Shape(a.nodes[c]) == Shape(b.nodes[c]);
      SameShapeSuperclass(a, b, c);
    }
  }

  /** Changing only definition, macro and instance-variable tables keeps an arena well formed */
  lemma SameShapeWellFormed(a: Arena, b: Arena)
    requires WellFormed(a) && SameShape(a, b)
    ensures WellFormed(b)
  {
    forall x | x in b.nodes
      ensures NodeClosed(b, x) && NodeRanked(b, x)
    {
      SameShapeNode(a, b, x);
    }
  }

  /**
    `lookup_instance_var(name)` (creating): an inherited or own declaration
    if there is one; otherwise a fresh untyped one, added to the type's own
    table.
   */
  function LookupOrCreate(a: Arena, id: TypeId, name: Name): (r: (Arena, IVar))
    requires WellFormed(a) && IsObject(a, id)
    ensures r.1.name == name
    ensures HasInstanceVar(a, id, name) ==> r == (a, LookupVar(a, id, name).value)
    ensures !HasInstanceVar(a, id, name) ==>
      r == (WithIVars(a, id, a.nodes[id].instanceVars + [IVar(name, None)]), IVar(name, None))
    ensures SameShape(a, r.0) && WellFormed(r.0) && IsObject(r.0, id)
  {
    var v := LookupVar(a, id, name);
    if v.Some? then (a, v.value)
    else
      var b := WithIVars(a, id, Declare(a.nodes[id].instanceVars, name));
      assert SameShape(a, b) by {
        forall x | x in a.nodes
          ensures Shape(a.nodes[x]) == Shape(b.nodes[x])
        {
        }
      }
      SameShapeWellFormed(a, b);
      (b, IVar(name, None))
  }

  /** Types with the same superclass chain and the same tables see the same variables */
  lemma {:induction false} HasInstanceVarFrame(a: Arena, b: Arena, x: TypeId, name: Name)
    requires WellFormed(a) && WellFormed(b) && SameShape(a, b) && IsObject(a, x)
    requires forall y | y in a.nodes && IsSubclassOf(a, x, y) :: a.nodes[y].instanceVars == b.nodes[y].instanceVars
    ensures IsObject(b, x) && HasInstanceVar(b, x, name) == HasInstanceVar(a, x, name)
    decreases a.nodes[x].depth
  {
    assert Shape(a.nodes[x]) == Shape(b.nodes[x]);
    ObjectSuperclass(a, x);
    SameShapeSuperclass(a, b, x);
    if Superclass(a, x).Some? {
      var p := Superclass(a, x).value;
      forall y | y in a.nodes && IsSubclassOf(a, p, y)
        ensures a.nodes[y].instanceVars == b.nodes[y].instanceVars
      {
        assert IsSubclassOf(a, x, y);
      }
      HasInstanceVarFrame(a, b, p, name);
    }
  }

  /** After the creating lookup the variable is visible, and a second lookup finds the same one */
  lemma LookupOrCreateIdempotent(a: Arena, id: TypeId, name: Name)
    requires WellFormed(a) && IsObject(a, id)
    ensures var (b, v) := LookupOrCreate(a, id, name);
      HasInstanceVar(b, id, name) && LookupOrCreate(b, id, name) == (b, v)
  {
    var (b, v) := LookupOrCreate(a, id, name);
    if !HasInstanceVar(a, id, name) {
      ObjectSuperclass(a, id);
      assert FindIVar(b.nodes[id].instanceVars, name).Some?;
      if Superclass(a, id).Some? {
        var p := Superclass(a, id).value;
        SameShapeSuperclass(a, b, id);
        HasInstanceVarUnchangedAt(a, b, id, p, name);
        assert LookupVar(b, p, name).None?;
      }
      FindIVarLast(a.nodes[id].instanceVars, IVar(name, None));
    }
  }

  lemma FindIVarLast(vs: seq<IVar>, v: IVar)
    requires FindIVar(vs, v.name).None?
    ensures FindIVar(vs + [v], v.name) == Some(v)
    decreases |vs|
  {
    if |vs| > 0 {
      assert (vs + [v])[1..] == vs[1..] + [v];
      FindIVarLast(vs[1..], v);
    }
  }

  /**
    Ruby `Hash#merge` of ordered tables: the base's entries keep their
    places, overridden by same-named entries of `over`; entries of `over`
    with new names follow in order.
   */
  function Merge(base: seq<IVar>, over: seq<IVar>): (r: seq<IVar>)
    ensures |base| <= |r|
    ensures forall i | 0 <= i < |base| :: r[i] == FindIVar(over, base[i].name).GetOr(base[i])
    ensures r[|base|..] == NewNames(over, Names(base))
    ensures forall n :: n in Names(r) <==> n in Names(base) || n in Names(over)
  {
    MergeNames(base, over);
    Overridden(base, over) + NewNames(over, Names(base))
  }

  /** Looking up a merged table: `over`'s entry wins, else the base's */
  lemma MergeLookup(base: seq<IVar>, over: seq<IVar>, n: Name)
    ensures FindIVar(Merge(base, over), n) == if FindIVar(over, n).Some? then FindIVar(over, n) else FindIVar(base, n)
  {
    var kept := Overridden(base, over);
    var added := NewNames(over, Names(base));
    FindIVarAppend(kept, added, n);
    FindIVarOverridden(base, over, n);
    if FindIVar(base, n).None? {
      assert n !in Names(base);
      FindIVarNewNames(over, Names(base), n);
    }
  }

  lemma {:induction false} FindIVarAppend(x: seq<IVar>, y: seq<IVar>, n: Name)
    ensures FindIVar(x + y, n) == if FindIVar(x, n).Some? then FindIVar(x, n) else FindIVar(y, n)
    decreases |x|
  {
    if |x| > 0 {
      assert (x + y)[0] == x[0] && (x + y)[1..] == x[1..] + y;
      FindIVarAppend(x[1..], y, n);
    } else {
      assert x + y == y;
    }
  }

  lemma {:induction false} FindIVarOverridden(base: seq<IVar>, over: seq<IVar>, n: Name)
    ensures FindIVar(Overridden(base, over), n) ==
      if FindIVar(base, n).Some? then Some(FindIVar(over, n).GetOr(FindIVar(base, n).value)) else None
    decreases |base|
  {
    if |base| > 0 {
      assert Overridden(base, over)[1..] == Overridden(base[1..], over);
      FindIVarOverridden(base[1..], over, n);
    }
  }

  lemma {:induction false} FindIVarNewNames(vs: seq<IVar>, ns: seq<Name>, n: Name)
    requires n !in ns
    ensures FindIVar(NewNames(vs, ns), n) == FindIVar(vs, n)
    decreases |vs|
  {
    if |vs| > 0 {
      FindIVarNewNames(vs[1..], ns, n);
      if vs[0].name !in ns {
        assert ([vs[0]] + NewNames(vs[1..], ns))[1..] == NewNames(vs[1..], ns);
      }
    }
  }

  /** The base's entries in place, each replaced by the same-named entry of `over` if any */
  function Overridden(base: seq<IVar>, over: seq<IVar>): (r: seq<IVar>)
    ensures |r| == |base|
    ensures forall i | 0 <= i < |base| :: r[i].name == base[i].name
  {
    seq(|base|, i requires 0 <= i < |base| => FindIVar(over, base[i].name).GetOr(base[i]))
  }

  lemma MergeNames(base: seq<IVar>, over: seq<IVar>)
    ensures var r := Overridden(base, over) + NewNames(over, Names(base));
      forall n :: n in Names(r) <==> n in Names(base) || n in Names(over)
  {
    var kept := Overridden(base, over);
    var added := NewNames(over, Names(base));
    assert Names(kept) == Names(base);
    forall n
      ensures n in Names(kept + added) <==> n in Names(kept) || n in Names(added)
    {
      NamesConcat(kept, added, n);
    }
    forall n
      ensures n in Names(added) <==> n in Names(over) && n !in Names(base)
    {
      NamesOfNewNames(over, Names(base), n);
    }
  }

  lemma NamesConcat(x: seq<IVar>, y: seq<IVar>, n: Name)
    ensures n in Names(x + y) <==> n in Names(x) || n in Names(y)
  {
    if n in Names(x + y) {
      var i :| 0 <= i < |x + y| && Names(x + y)[i] == n;
      if i >= |x| {
        assert Names(y)[i - |x|] == n;
      }
    }
    if n in Names(x) {
      var i :| 0 <= i < |x| && Names(x)[i] == n;
      assert Names(x + y)[i] == n;
    }
    if n in Names(y) {
      var i :| 0 <= i < |y| && Names(y)[i] == n;
      assert Names(x + y)[|x| + i] == n;
    }
  }

  lemma NamesOfNewNames(vs: seq<IVar>, ns: seq<Name>, n: Name)
    ensures n in Names(NewNames(vs, ns)) <==> n in Names(vs) && n !in ns
  {
    var r := NewNames(vs, ns);
    if n in Names(r) {
      var i :| 0 <= i < |r| && Names(r)[i] == n;
      assert r[i] in r;
      var j :| 0 <= j < |vs| && vs[j] == r[i];
      assert Names(vs)[j] == n;
    }
    if n in Names(vs) && n !in ns {
      var j :| 0 <= j < |vs| && Names(vs)[j] == n;
      assert vs[j] in r;
      var i :| 0 <= i < |r| && r[i] == vs[j];
      assert Names(r)[i] == n;
    }
  }

  /** The entries of `vs` whose names are not in `ns`, in order */
  function NewNames(vs: seq<IVar>, ns: seq<Name>): (r: seq<IVar>)
    ensures forall v :: v in r <==> v in vs && v.name !in ns
  {
    if |vs| == 0 then []
    else
      var rest := NewNames(vs[1..], ns);
      assert forall v :: v in vs <==> v == vs[0] || v in vs[1..];
      if vs[0].name in ns then rest else [vs[0]] + rest
  }

  /** `all_instance_vars`: the superclass's table merged with the type's own */
  function AllInstanceVars(a: Arena, id: TypeId): (r: seq<IVar>)
    requires WellFormed(a) && IsObject(a, id)
    ensures forall n :: n in Names(r) <==> HasInstanceVar(a, id, n)
    decreases a.nodes[id].depth
  {
    ObjectSuperclass(a, id);
    var own := a.nodes[id].instanceVars;
    var r := match Superclass(a, id)
      case Some(p) => Merge(AllInstanceVars(a, p), own)
      case None => own;
    forall n
      ensures FindIVar(own, n).Some? <==> n in Names(own)
    {
      if n in Names(own) {
        var i :| 0 <= i < |own| && Names(own)[i] == n;
      }
    }
    r
  }

  /**
    The declaration of `name` on the nearest type of the superclass chain
    that declares it, the type itself first.
   */
  function NearestVar(a: Arena, id: TypeId, name: Name): (r: Option<IVar>)
    requires WellFormed(a) && IsObject(a, id)
    ensures r.Some? <==> HasInstanceVar(a, id, name)
    decreases a.nodes[id].depth
  {
    ObjectSuperclass(a, id);
    if FindIVar(a.nodes[id].instanceVars, name).Some? then FindIVar(a.nodes[id].instanceVars, name)
    else match Superclass(a, id)
      case Some(p) => NearestVar(a, p, name)
      case None => None
  }

  /** `all_instance_vars` reports, for each name, the nearest declaration: the type's own overrides the superclass's */
  lemma {:induction false} AllInstanceVarsReports(a: Arena, id: TypeId, name: Name)
    requires WellFormed(a) && IsObject(a, id)
    ensures FindIVar(AllInstanceVars(a, id), name) == NearestVar(a, id, name)
    decreases a.nodes[id].depth
  {
    ObjectSuperclass(a, id);
    if Superclass(a, id).Some? {
      var p := Superclass(a, id).value;
      AllInstanceVarsReports(a, p, name);
      MergeLookup(AllInstanceVars(a, p), a.nodes[id].instanceVars, name);
    }
  }

  /** The superclass's variables come first, in the superclass's order */
  lemma SuperclassVarsFirst(a: Arena, id: TypeId)
    requires WellFormed(a) && IsObject(a, id)
    ensures Superclass(a, id).Some? ==>
      var sup := AllInstanceVars(a, Superclass(a, id).value);
      var all := AllInstanceVars(a, id);
      |sup| <= |all| && Names(all)[..|sup|] == Names(sup)
  {
    ObjectSuperclass(a, id);
  }

  /** `each_instance_var`: the superclass's variables, then the type's own */
  function EachInstanceVar(a: Arena, id: TypeId): (r: seq<IVar>)
    requires WellFormed(a) && IsObject(a, id)
    ensures forall n :: n in Names(r) <==> HasInstanceVar(a, id, n)
    decreases a.nodes[id].depth
  {
    ObjectSuperclass(a, id);
    var own := a.nodes[id].instanceVars;
    var r := match Superclass(a, id)
      case Some(p) => EachInstanceVar(a, p) + own
      case None => own;
    forall n
      ensures n in Names(r) <==> (Superclass(a, id).Some? && HasInstanceVar(a, Superclass(a, id).value, n)) || FindIVar(own, n).Some?
    {
      if n in Names(r) {
        var i :| 0 <= i < |r| && Names(r)[i] == n;
        if Superclass(a, id).Some? && i < |r| - |own| {
          assert Names(EachInstanceVar(a, Superclass(a, id).value))[i] == n;
        }
      }
      if FindIVar(own, n).Some? {
        var v := FindIVar(own, n).value;
        var j :| 0 <= j < |own| && own[j] == v;
        assert r[|r| - |own| + j] == v;
      }
      if Superclass(a, id).Some? && HasInstanceVar(a, Superclass(a, id).value, n) {
        var e := EachInstanceVar(a, Superclass(a, id).value);
        var i :| 0 <= i < |e| && Names(e)[i] == n;
        assert r[i] == e[i];
      }
    }
    r
  }

  /**
    `each_instance_var` yields ancestors' variables before descendants':
    every ancestor's sequence is a prefix, and the type's own table comes last.
   */
  lemma {:induction false} EachInstanceVarOrder(a: Arena, id: TypeId, y: TypeId)
    requires WellFormed(a) && IsObject(a, id) && y in a.nodes && IsSubclassOf(a, id, y)
    ensures IsObject(a, y)
    ensures var e := EachInstanceVar(a, id);
      var ey := EachInstanceVar(a, y);
      |ey| <= |e| && e[..|ey|] == ey
    ensures var e := EachInstanceVar(a, id);
      var own := a.nodes[id].instanceVars;
      |own| <= |e| && e[|e| - |own|..] == own
    decreases a.nodes[id].depth
  {
    ObjectSuperclass(a, id);
    var e := EachInstanceVar(a, id);
    var own := a.nodes[id].instanceVars;
    if y != id {
      var p := Superclass(a, id).value;
      assert IsSubclassOf(a, p, y);
      EachInstanceVarOrder(a, p, y);
      assert e == EachInstanceVar(a, p) + own;
    } else {
      assert e == (match Superclass(a, id) case Some(p) => EachInstanceVar(a, p) + own case None => own);
    }
  }

  /** Declare one name unless the superclass already provides it */
  function DeclareOne(a: Arena, id: TypeId, sup: TypeId, name: Name): (b: Arena)
    requires WellFormed(a) && IsObject(a, id) && Superclass(a, id) == Some(sup) && IsObject(a, sup)
    ensures SameShape(a, b) && WellFormed(b) && IsObject(b, id) && Superclass(b, id) == Some(sup)
    ensures forall x | x in a.nodes && x != id :: b.nodes[x] == a.nodes[x]
    ensures b.nodes[id] == a.nodes[id].(instanceVars := b.nodes[id].instanceVars)
    ensures FindIVar(b.nodes[id].instanceVars, name).Some? || HasInstanceVar(a, sup, name)
    ensures forall n | FindIVar(a.nodes[id].instanceVars, n).Some? || n != name ::
      FindIVar(b.nodes[id].instanceVars, n) == FindIVar(a.nodes[id].instanceVars, n)
    ensures HasInstanceVar(a, sup, name) ==> b == a
    ensures FindIVar(a.nodes[id].instanceVars, name).None? && !HasInstanceVar(a, sup, name) ==>
      FindIVar(b.nodes[id].instanceVars, name) == Some(IVar(name, None))
    ensures IsObject(b, sup) && forall n :: HasInstanceVar(b, sup, n) == HasInstanceVar(a, sup, n)
  {
    var vs := a.nodes[id].instanceVars;
    var b := if HasInstanceVar(a, sup, name) then a else WithIVars(a, id, Declare(vs, name));
    assert SameShape(a, b) by {
      forall x | x in a.nodes
        ensures Shape(a.nodes[x]) == Shape(b.nodes[x])
      {
      }
    }
    SameShapeWellFormed(a, b);
    SameShapeSuperclass(a, b, id);
    HasInstanceVarsUnchanged(a, b, id, sup);
    forall n | FindIVar(vs, n).Some? || n != name
      ensures FindIVar(b.nodes[id].instanceVars, n) == FindIVar(vs, n)
    {
      DeclareKeeps(vs, name, n);
    }
    b
  }

  /** Declare each name the superclass does not already provide */
  function DeclareUnlessInherited(a: Arena, id: TypeId, sup: TypeId, names: seq<Name>): (b: Arena)
    requires WellFormed(a) && IsObject(a, id) && Superclass(a, id) == Some(sup) && IsObject(a, sup)
    ensures SameShape(a, b) && WellFormed(b)
    ensures forall x | x in a.nodes && x != id :: b.nodes[x] == a.nodes[x]
    ensures b.nodes[id] == a.nodes[id].(instanceVars := b.nodes[id].instanceVars)
    ensures forall n | n in names :: FindIVar(b.nodes[id].instanceVars, n).Some? || HasInstanceVar(a, sup, n)
    ensures forall n | FindIVar(a.nodes[id].instanceVars, n).Some? ::
      FindIVar(b.nodes[id].instanceVars, n) == FindIVar(a.nodes[id].instanceVars, n)
    ensures forall n | n in names && FindIVar(a.nodes[id].instanceVars, n).None? && !HasInstanceVar(a, sup, n) ::
      FindIVar(b.nodes[id].instanceVars, n) == Some(IVar(n, None))
    ensures forall n | n !in names :: FindIVar(b.nodes[id].instanceVars, n) == FindIVar(a.nodes[id].instanceVars, n)
    ensures forall n | HasInstanceVar(a, sup, n) ::
      FindIVar(b.nodes[id].instanceVars, n) == FindIVar(a.nodes[id].instanceVars, n)
    decreases |names|
  {
    if |names| == 0 then a
    else
      var a1 := DeclareOne(a, id, sup, names[0]);
      var b := DeclareUnlessInherited(a1, id, sup, names[1..]);
      SameShapeTransitive(a, a1, b);
      forall n | n in names
        ensures FindIVar(b.nodes[id].instanceVars, n).Some? || HasInstanceVar(a, sup, n)
      {
        if n != names[0] {
          assert n in names[1..];
        }
      }
      forall n | n !in names
        ensures FindIVar(b.nodes[id].instanceVars, n) == FindIVar(a.nodes[id].instanceVars, n)
      {
        assert n != names[0] && n !in names[1..];
      }
      forall n | n in names && FindIVar(a.nodes[id].instanceVars, n).None? && !HasInstanceVar(a, sup, n)
        ensures FindIVar(b.nodes[id].instanceVars, n) == Some(IVar(n, None))
      {
        if n != names[0] {
          assert n in names[1..];
        }
      }
      b
  }

  lemma DeclareKeeps(vs: seq<IVar>, name: Name, n: Name)
    ensures FindIVar(vs, n).Some? ==> FindIVar(Declare(vs, name), n) == FindIVar(vs, n)
    ensures n != name ==> FindIVar(Declare(vs, name), n) == FindIVar(vs, n)
    decreases |vs|
  {
    if FindIVar(vs, name).None? && |vs| > 0 {
      assert Declare(vs, name)[1..] == Declare(vs[1..], name);
      DeclareKeeps(vs[1..], name, n);
    }
  }

  /** Changing only a type's own table does not change what its superclass sees */
  lemma HasInstanceVarUnchangedAt(a: Arena, b: Arena, id: TypeId, sup: TypeId, n: Name)
    requires WellFormed(a) && WellFormed(b) && SameShape(a, b) && IsObject(a, id)
    requires forall x | x in a.nodes && x != id :: b.nodes[x] == a.nodes[x]
    requires Superclass(a, id) == Some(sup)
    ensures IsObject(a, sup) && IsObject(b, sup) && HasInstanceVar(b, sup, n) == HasInstanceVar(a, sup, n)
  {
    ObjectSuperclass(a, id);
    AncestorsAreOthers(a, id, sup);
    HasInstanceVarFrame(a, b, sup, n);
  }

  /** A type is not among its superclass's ancestors */
  lemma AncestorsAreOthers(a: Arena, id: TypeId, sup: TypeId)
    requires WellFormed(a) && IsObject(a, id) && Superclass(a, id) == Some(sup)
    ensures forall y | y in a.nodes && IsSubclassOf(a, sup, y) :: y != id
  {
    ObjectSuperclass(a, id);
    forall y | y in a.nodes && IsSubclassOf(a, sup, y)
      ensures y != id
    {
      SubclassDepth(a, sup, y);
    }
  }

  lemma HasInstanceVarsUnchanged(a: Arena, b: Arena, id: TypeId, sup: TypeId)
    requires WellFormed(a) && WellFormed(b) && SameShape(a, b) && IsObject(a, id)
    requires forall x | x in a.nodes && x != id :: b.nodes[x] == a.nodes[x]
    requires Superclass(a, id) == Some(sup)
    ensures IsObject(a, sup) && IsObject(b, sup)
    ensures forall n :: HasInstanceVar(b, sup, n) == HasInstanceVar(a, sup, n)
  {
    ObjectSuperclass(a, id);
    assert Shape(a.nodes[sup]) == Shape(b.nodes[sup]);
    forall n
      ensures HasInstanceVar(b, sup, n) == HasInstanceVar(a, sup, n)
    {
      HasInstanceVarUnchangedAt(a, b, id, sup, n);
    }
  }

  /** A variable declared in the type's own table, or provided by its superclass, is visible */
  lemma VisibleFromOwnOrSuperclass(a: Arena, id: TypeId, sup: TypeId, n: Name)
    requires WellFormed(a) && IsObject(a, id) && Superclass(a, id) == Some(sup)
    requires FindIVar(a.nodes[id].instanceVars, n).Some? || (IsObject(a, sup) && HasInstanceVar(a, sup, n))
    ensures HasInstanceVar(a, id, n)
  {
    ObjectSuperclass(a, id);
  }

  /** Registering a definition changes only the type's definition tables */
  lemma AddDefKeepsShape(a: Arena, id: TypeId, t: TypeNode)
    requires WellFormed(a) && IsObject(a, id)
    requires t == a.nodes[id].(defs := t.defs, sortedDefs := t.sortedDefs)
    ensures var b := a.(nodes := a.nodes[id := t]);
      SameShape(a, b) && WellFormed(b) && IsObject(b, id) && Superclass(b, id) == Superclass(a, id)
      && forall n :: HasInstanceVar(b, id, n) == HasInstanceVar(a, id, n)
  {
    var b := a.(nodes := a.nodes[id := t]);
    assert SameShape(a, b) by {
      forall x | x in a.nodes
        ensures Shape(a.nodes[x]) == Shape(b.nodes[x])
      {
      }
    }
    SameShapeWellFormed(a, b);
    SameShapeSuperclass(a, b, id);
    forall n
      ensures HasInstanceVar(b, id, n) == HasInstanceVar(a, id, n)
    {
      HasInstanceVarFrame(a, b, id, n);
    }
  }

  lemma SameShapeTransitive(a: Arena, b: Arena, c: Arena)
    requires SameShape(a, b) && SameShape(b, c)
    ensures SameShape(a, c)
  {
    forall x | x in a.nodes
      ensures Shape(a.nodes[x]) == Shape(c.nodes[x])
    {
      assert Shape(b.nodes[x]) == Shape(c.nodes[x]);
    }
  }

  /** Every name handed to `DeclareUnlessInherited` is visible afterwards */
  lemma DeclaredVisible(a: Arena, id: TypeId, sup: TypeId, names: seq<Name>)
    requires WellFormed(a) && IsObject(a, id) && Superclass(a, id) == Some(sup) && IsObject(a, sup)
    ensures var b := DeclareUnlessInherited(a, id, sup, names);
      IsObject(b, id) && forall n | n in names :: HasInstanceVar(b, id, n)
  {
    var b := DeclareUnlessInherited(a, id, sup, names);
    SameShapeSuperclass(a, b, id);
    HasInstanceVarsUnchanged(a, b, id, sup);
    forall n | n in names
      ensures HasInstanceVar(b, id, n)
    {
      VisibleFromOwnOrSuperclass(b, id, sup, n);
    }
  }

  /** The definition-table half of `ObjectType#add_def`, lifted to the arena */
  function RegisterDef(a: Arena, id: TypeId, d: Def, restricts: (Def, Def) -> bool): (b: Arena)
    requires WellFormed(a) && IsObject(a, id)
    ensures SameShape(a, b) && WellFormed(b) && IsObject(b, id) && Superclass(b, id) == Superclass(a, id)
    ensures forall x | x in a.nodes && x != id :: b.nodes[x] == a.nodes[x]
    ensures b.nodes[id] == DefTable.AddDef(a.nodes[id], d, restricts)
    ensures b.nodes[id].instanceVars == a.nodes[id].instanceVars
  {
    var t := DefTable.AddDef(a.nodes[id], d, restricts);
    AddDefKeepsShape(a, id, t);
    a.(nodes := a.nodes[id := t])
  }

  /**
    `ObjectType#add_def`: register the definition, then declare every
    instance variable it assigns that the superclass does not provide.
    The superclass is consulted unguarded, so a type without one fails
    (`None`) as soon as the definition assigns any instance variable.
   */
  function ObjectAddDef(a: Arena, id: TypeId, d: Def, restricts: (Def, Def) -> bool): (r: Option<Arena>)
    requires WellFormed(a) && IsObject(a, id)
    ensures r.None? <==> Superclass(a, id).None? && |d.instanceVars| > 0
    ensures r.Some? ==> SameShape(a, r.value) && WellFormed(r.value)
    ensures r.Some? ==> forall x | x in a.nodes && x != id :: r.value.nodes[x] == a.nodes[x]
    ensures r.Some? ==>
      var t := DefTable.AddDef(a.nodes[id], d, restricts);
      r.value.nodes[id] == t.(instanceVars := r.value.nodes[id].instanceVars)
    ensures r.Some? ==> IsObject(r.value, id) && forall n | n in d.instanceVars :: HasInstanceVar(r.value, id, n)
    ensures r.Some? && Superclass(a, id).Some? ==>
      forall n | IsObject(a, Superclass(a, id).value) && HasInstanceVar(a, Superclass(a, id).value, n) ::
        FindIVar(r.value.nodes[id].instanceVars, n) == FindIVar(a.nodes[id].instanceVars, n)
    ensures r.Some? ==> forall n | n !in d.instanceVars ::
      FindIVar(r.value.nodes[id].instanceVars, n) == FindIVar(a.nodes[id].instanceVars, n)
    ensures r.Some? ==> forall n | FindIVar(a.nodes[id].instanceVars, n).Some? ::
      FindIVar(r.value.nodes[id].instanceVars, n) == FindIVar(a.nodes[id].instanceVars, n)
    ensures r.Some? && Superclass(a, id).Some? ==>
      forall n | n in d.instanceVars && FindIVar(a.nodes[id].instanceVars, n).None?
                 && IsObject(a, Superclass(a, id).value) && !HasInstanceVar(a, Superclass(a, id).value, n) ::
        FindIVar(r.value.nodes[id].instanceVars, n) == Some(IVar(n, None))
  {
    var b := RegisterDef(a, id, d, restricts);
    if |d.instanceVars| == 0 then Some(b)
    else match Superclass(a, id)
      case None => None
      case Some(sup) =>
        ObjectSuperclass(b, id);
        var c := DeclareUnlessInherited(b, id, sup, d.instanceVars);
        DeclaredVisible(b, id, sup, d.instanceVars);
        ObjectSuperclass(a, id);
        HasInstanceVarsUnchanged(a, b, id, sup);
        SameShapeTransitive(a, b, c);
        Some(c)
  }
}

=== FILE: matcher.dfy ===
/**
  The argument matcher of `DefContainer`: `match_arg`, `match_generic_type`
  and `match_def_args`.  The compiler's `is_restriction_of?` and `restrict`
  relations are defined outside the type model and enter as an `Oracle`.
 */
module Matcher {
  import opened Wrappers
  import opened TypeGraph
  import ModuleTypes

  /** The restriction relations the type model consults but does not define */
  datatype Oracle = Oracle(
    /** `d1.is_restriction_of?(d2, owner)` between method definitions */
    defRestricts: (Def, Def, TypeId) -> bool,
    /** `t1.is_restriction_of?(t2, owner)` between types */
    isRestrictionOf: (Ty, Ty, Ty) -> bool,
    /** `t1.restrict(t2, owner)`: the narrowed type, or none */
    restrict: (Ty, Ty, Option<Ty>) -> Option<Ty>)

  /** Bindings of free type variables made during one match attempt */
  type FreeVars = map<Path, Ty>

  /** Every binding of `fv` survives unchanged in `fv'` */
  predicate Extends(fv: FreeVars, fv': FreeVars) {
    forall k | k in fv :: k in fv' && fv'[k] == fv[k]
  }

  /** `owner.lookup_type(names)`; a metaclass or a virtual type looks up in its instance type */
  function OwnerLookup(a: Arena, owner: Ty, names: Path): Option<Ty> {
    match owner
    case Node(id) =>
      if id in a.nodes && a.nodes[id].kind.MetaclassKind? then
        ModuleTypes.LookupType(a, a.nodes[id].kind.instance, names, {}).0
      else ModuleTypes.LookupType(a, id, names, {}).0
    case Hierarchy(b) => ModuleTypes.LookupType(a, b, names, {}).0
    case Union(_) => None
  }

  /** `type_vars` of a type: a metaclass reports those of its instance type */
  function TypeVarsOf(a: Arena, t: Ty): Option<seq<TypeVar>> {
    if t.Node? && t.id in a.nodes then
      var n := a.nodes[t.id];
      if n.kind.MetaclassKind? && n.kind.instance in a.nodes then a.nodes[n.kind.instance].typeVars
      else n.typeVars
    else None
  }

  /** `generic`: the type has a type-variable table */
  predicate IsGeneric(a: Arena, t: Ty) {
    TypeVarsOf(a, t).Some?
  }

  function NameOf(a: Arena, t: Ty): Name {
    if t.Node? && t.id in a.nodes then a.nodes[t.id].name else "Union"
  }

  /** The restriction of position `i`; Ruby reads a missing one as `nil` */
  function RestrictionAt(rs: seq<Restriction>, i: nat): Restriction {
    if i < |rs| then rs[i] else NoRestriction
  }

  /**
    The `Ident` case of `match_arg`: a name already bound in this attempt,
    or resolvable from the owner, must be restricted to; otherwise this is
    the free variable's first occurrence and it binds to the argument type.
   */
  function MatchIdent(a: Arena, o: Oracle, argTy: Ty, path: Path, owner: Ty, fv: FreeVars): (res: Option<(Ty, FreeVars)>)
    ensures path in fv ==>
      res == (match o.restrict(argTy, fv[path], Some(owner)) case Some(t) => Some((t, fv)) case None => None)
    ensures path !in fv && OwnerLookup(a, owner, path).Some? ==>
      res == (match o.restrict(argTy, OwnerLookup(a, owner, path).value, Some(owner))
              case Some(t) => Some((t, fv)) case None => None)
    ensures path !in fv && OwnerLookup(a, owner, path).None? ==> res == Some((argTy, fv[path := argTy]))
    ensures res.Some? ==> Extends(fv, res.value.1) && res.value.1.Keys <= fv.Keys + {path}
  {
    var resolved := if path in fv then Some(fv[path]) else OwnerLookup(a, owner, path);
    match resolved
    case Some(t) =>
      (match o.restrict(argTy, t, Some(owner))
       case Some(r) => Some((r, fv))
       case None => None)
    case None => Some((argTy, fv[path := argTy]))
  }

  /** `IdentUnion`: the first member identifier that matches decides */
  function MatchAnyIdent(a: Arena, o: Oracle, argTy: Ty, paths: seq<Path>, owner: Ty, fv: FreeVars): (res: Option<FreeVars>)
    ensures res.None? <==> forall i | 0 <= i < |paths| :: MatchIdent(a, o, argTy, paths[i], owner, fv).None?
    ensures res.Some? ==> Extends(fv, res.value)
    ensures res.Some? ==> exists i | 0 <= i < |paths| ::
      && MatchIdent(a, o, argTy, paths[i], owner, fv).Some?
      && MatchIdent(a, o, argTy, paths[i], owner, fv).value.1 == res.value
      && forall j | 0 <= j < i :: MatchIdent(a, o, argTy, paths[j], owner, fv).None?
  {
    if |paths| == 0 then None
    else match MatchIdent(a, o, argTy, paths[0], owner, fv)
      case Some((_, fv')) => Some(fv')
      case None =>
        var r := MatchAnyIdent(a, o, argTy, paths[1..], owner, fv);
        assert forall i | 1 <= i < |paths| :: paths[i] == paths[1..][i - 1];
        r
  }

  /**
    `match_arg`: whether one argument type satisfies one restriction, and
    the type recorded for that position; free-variable bindings only grow.
   */
  function MatchArg(a: Arena, o: Oracle, argTy: Ty, r: Restriction, owner: Ty, fv: FreeVars): (res: Option<(Ty, FreeVars)>)
    ensures res.Some? ==> Extends(fv, res.value.1)
    ensures r.NoRestriction? ==> res == Some((argTy, fv))
    ensures r.TypeRestriction? ==>
      (res.Some? <==> o.isRestrictionOf(argTy, r.ty, owner)) && (res.Some? ==> res.value == (r.ty, fv))
    ensures r.SelfRestriction? ==>
      (res.Some? <==> o.restrict(argTy, owner, Some(owner)).Some?)
      && (res.Some? ==> res.value == (o.restrict(argTy, owner, Some(owner)).value, fv))
    ensures r.IdentUnion? ==>
      (res.Some? <==> exists i | 0 <= i < |r.paths| :: MatchIdent(a, o, argTy, r.paths[i], owner, fv).Some?)
      && (res.Some? ==> res.value.0 == argTy)
    ensures r.IdentRestriction? ==> res == MatchIdent(a, o, argTy, r.path, owner, fv)
    ensures r.GenericRestriction? ==>
      && (res.Some? <==> IsGeneric(a, argTy) && MatchGenericType(a, o, argTy, r, owner, fv).Some?)
      && (res.Some? ==> res.value == (argTy, MatchGenericType(a, o, argTy, r, owner, fv).value))
    ensures r.OtherRestriction? ==> res.None?
    decreases r, 2
  {
    match r
    case NoRestriction => Some((argTy, fv))
    case SelfRestriction =>
      (match o.restrict(argTy, owner, Some(owner))
       case Some(t) => Some((t, fv))
       case None => None)
    case GenericRestriction(_, _) =>
      if IsGeneric(a, argTy) then
        match MatchGenericType(a, o, argTy, r, owner, fv)
        case Some(fv') => Some((argTy, fv'))
        case None => None
      else None
    case IdentRestriction(path) => MatchIdent(a, o, argTy, path, owner, fv)
    case IdentUnion(paths) =>
      (match MatchAnyIdent(a, o, argTy, paths, owner, fv)
       case Some(fv') => Some((argTy, fv'))
       case None => None)
    case TypeRestriction(t) =>
      if o.isRestrictionOf(argTy, t, owner) then Some((t, fv)) else None
    case OtherRestriction => None
  }

  /**
    `match_generic_type`: same simple name, same number of type variables,
    and every bound type variable matches its restriction positionally.
    An unbound type variable does not match.
   */
  function MatchGenericType(a: Arena, o: Oracle, argTy: Ty, r: Restriction, owner: Ty, fv: FreeVars): (res: Option<FreeVars>)
    requires r.GenericRestriction? && IsGeneric(a, argTy)
    ensures res.Some? ==> Extends(fv, res.value)
    ensures res.Some? ==> |r.path| > 0 && NameOf(a, argTy) == r.path[|r.path| - 1]
    ensures res.Some? ==> |TypeVarsOf(a, argTy).value| == |r.typeArgs|
    ensures res.Some? ==> forall i | 0 <= i < |r.typeArgs| :: TypeVarsOf(a, argTy).value[i].bound.Some?
    decreases r, 1
  {
    var vars := TypeVarsOf(a, argTy).value;
    if |r.path| == 0 || NameOf(a, argTy) != r.path[|r.path| - 1] then None
    else if |vars| != |r.typeArgs| then None
    else MatchTypeVars(a, o, vars, r, 0, owner, fv)
  }

  function MatchTypeVars(a: Arena, o: Oracle, vars: seq<TypeVar>, r: Restriction, i: nat, owner: Ty, fv: FreeVars): (res: Option<FreeVars>)
    requires r.GenericRestriction? && |vars| == |r.typeArgs| && i <= |vars|
    ensures res.Some? ==> Extends(fv, res.value)
    ensures res.Some? ==> forall j | i <= j < |vars| :: vars[j].bound.Some?
    decreases r, 0, |vars| - i
  {
    if i == |vars| then Some(fv)
    else match vars[i].bound
      case None => None
      case Some(t) =>
        match MatchArg(a, o, t, r.typeArgs[i], owner, fv)
        case None => None
        case Some((_, fv')) => MatchTypeVars(a, o, vars, r, i + 1, owner, fv')
  }

  /**
    A run of `match_arg` over the type variables `i..` of a generic type:
    each is bound, its bound type matches the restriction's type argument
    at the same position, and `fvs[k - i]` is the map before position `k`.
   */
  ghost predicate VarTrace(a: Arena, o: Oracle, vars: seq<TypeVar>, r: Restriction, i: nat, owner: Ty, fvs: seq<FreeVars>)
    requires r.GenericRestriction? && |vars| == |r.typeArgs| && i <= |vars|
  {
    && |fvs| == |vars| - i + 1
    && forall k | i <= k < |vars| :: VarStep(a, o, vars[k], r.typeArgs[k], owner, fvs[k - i], fvs[k - i + 1])
  }

  /** One type variable is bound and its type matches `ra`, taking the bindings from `before` to `after` */
  ghost predicate VarStep(a: Arena, o: Oracle, v: TypeVar, ra: Restriction, owner: Ty, before: FreeVars, after: FreeVars) {
    v.bound.Some? && MatchArg(a, o, v.bound.value, ra, owner, before).Some?
    && MatchArg(a, o, v.bound.value, ra, owner, before).value.1 == after
  }

  lemma {:induction false} MatchTypeVarsTrace(a: Arena, o: Oracle, vars: seq<TypeVar>, r: Restriction, i: nat, owner: Ty, fv: FreeVars)
    returns (fvs: seq<FreeVars>)
    requires r.GenericRestriction? && |vars| == |r.typeArgs| && i <= |vars|
    requires MatchTypeVars(a, o, vars, r, i, owner, fv).Some?
    ensures VarTrace(a, o, vars, r, i, owner, fvs)
    ensures fvs[0] == fv && fvs[|fvs| - 1] == MatchTypeVars(a, o, vars, r, i, owner, fv).value
    decreases |vars| - i
  {
    if i == |vars| {
      fvs := [fv];
    } else {
      var fv1 := MatchArg(a, o, vars[i].bound.value, r.typeArgs[i], owner, fv).value.1;
      var rest := MatchTypeVarsTrace(a, o, vars, r, i + 1, owner, fv1);
      fvs := [fv] + rest;
      forall k | i <= k < |vars|
        ensures VarStep(a, o, vars[k], r.typeArgs[k], owner, fvs[k - i], fvs[k - i + 1])
      {
        if k > i {
          assert fvs[k - i] == rest[k - (i + 1)] && fvs[k - i + 1] == rest[k - (i + 1) + 1];
        }
      }
    }
  }

  lemma {:induction false} TraceMatchTypeVars(a: Arena, o: Oracle, vars: seq<TypeVar>, r: Restriction, i: nat, owner: Ty, fvs: seq<FreeVars>)
    requires r.GenericRestriction? && |vars| == |r.typeArgs| && i <= |vars|
    requires VarTrace(a, o, vars, r, i, owner, fvs)
    ensures MatchTypeVars(a, o, vars, r, i, owner, fvs[0]) == Some(fvs[|fvs| - 1])
    decreases |vars| - i
  {
    if i < |vars| {
      var rest := fvs[1..];
      assert VarTrace(a, o, vars, r, i + 1, owner, rest) by {
        forall k | i + 1 <= k < |vars|
          ensures VarStep(a, o, vars[k], r.typeArgs[k], owner, rest[k - (i + 1)], rest[k - (i + 1) + 1])
        {
          assert rest[k - (i + 1)] == fvs[k - i] && rest[k - (i + 1) + 1] == fvs[k - i + 1];
        }
      }
      TraceMatchTypeVars(a, o, vars, r, i + 1, owner, rest);
      assert VarStep(a, o, vars[i], r.typeArgs[i], owner, fvs[i - i], fvs[i - i + 1]);
    }
  }

  /**
    Soundness of `match_generic_type`: a success means the names and the
    counts agree and every type variable is bound to a type that matches
    the restriction's type argument at its position, in one threaded run.
   */
  lemma MatchGenericTypeSound(a: Arena, o: Oracle, argTy: Ty, r: Restriction, owner: Ty, fv: FreeVars)
    returns (fvs: seq<FreeVars>)
    requires r.GenericRestriction? && IsGeneric(a, argTy)
    requires MatchGenericType(a, o, argTy, r, owner, fv).Some?
    ensures |r.path| > 0 && NameOf(a, argTy) == r.path[|r.path| - 1]
    ensures |TypeVarsOf(a, argTy).value| == |r.typeArgs|
    ensures VarTrace(a, o, TypeVarsOf(a, argTy).value, r, 0, owner, fvs)
    ensures fvs[0] == fv && fvs[|fvs| - 1] == MatchGenericType(a, o, argTy, r, owner, fv).value
  {
    fvs := MatchTypeVarsTrace(a, o, TypeVarsOf(a, argTy).value, r, 0, owner, fv);
  }

  /** Completeness of `match_generic_type`: every such run is accepted, with the run's final bindings */
  lemma MatchGenericTypeComplete(a: Arena, o: Oracle, argTy: Ty, r: Restriction, owner: Ty, fvs: seq<FreeVars>)
    requires r.GenericRestriction? && IsGeneric(a, argTy)
    requires |r.path| > 0 && NameOf(a, argTy) == r.path[|r.path| - 1]
    requires |TypeVarsOf(a, argTy).value| == |r.typeArgs|
    requires VarTrace(a, o, TypeVarsOf(a, argTy).value, r, 0, owner, fvs)
    ensures MatchGenericType(a, o, argTy, r, owner, fvs[0]) == Some(fvs[|fvs| - 1])
  {
    TraceMatchTypeVars(a, o, TypeVarsOf(a, argTy).value, r, 0, owner, fvs);
  }

  /**
    With `String` not a restriction of `Int`, the restriction `Array(Int)`
    rejects an `Array` bound to `String` and a `List` bound to `Int`, and
    accepts an `Array` bound to `Int` when `Int` restricts to itself.
   */
  lemma ArrayOfIntRestriction(a: Arena, o: Oracle, owner: Ty, fv: FreeVars,
                              arrStr: TypeId, arrInt: TypeId, listInt: TypeId, intTy: Ty, strTy: Ty)
    requires arrStr in a.nodes && arrInt in a.nodes && listInt in a.nodes
    requires !a.nodes[arrStr].kind.MetaclassKind? && !a.nodes[arrInt].kind.MetaclassKind? && !a.nodes[listInt].kind.MetaclassKind?
    requires a.nodes[arrStr].name == "Array" && a.nodes[arrInt].name == "Array" && a.nodes[listInt].name == "List"
    requires a.nodes[arrStr].typeVars == Some([TypeVar("T", Some(strTy))])
    requires a.nodes[arrInt].typeVars == Some([TypeVar("T", Some(intTy))])
    requires a.nodes[listInt].typeVars == Some([TypeVar("T", Some(intTy))])
    requires !o.isRestrictionOf(strTy, intTy, owner) && o.isRestrictionOf(intTy, intTy, owner)
    ensures var r := GenericRestriction(["Array"], [TypeRestriction(intTy)]);
      && MatchArg(a, o, Node(arrStr), r, owner, fv).None?
      && MatchArg(a, o, Node(listInt), r, owner, fv).None?
      && MatchArg(a, o, Node(arrInt), r, owner, fv) == Some((Node(arrInt), fv))
  {
    var r := GenericRestriction(["Array"], [TypeRestriction(intTy)]);
    assert TypeVarsOf(a, Node(arrStr)) == Some([TypeVar("T", Some(strTy))]) && NameOf(a, Node(arrStr)) == "Array";
    assert TypeVarsOf(a, Node(arrInt)) == Some([TypeVar("T", Some(intTy))]) && NameOf(a, Node(arrInt)) == "Array";
    assert NameOf(a, Node(listInt)) == "List";
    assert MatchArg(a, o, strTy, r.typeArgs[0], owner, fv).None?;
    assert MatchArg(a, o, intTy, r.typeArgs[0], owner, fv) == Some((intTy, fv));
    assert MatchTypeVars(a, o, [TypeVar("T", Some(strTy))], r, 0, owner, fv).None?;
    assert MatchTypeVars(a, o, [TypeVar("T", Some(intTy))], r, 1, owner, fv) == Some(fv);
    assert MatchTypeVars(a, o, [TypeVar("T", Some(intTy))], r, 0, owner, fv) == Some(fv);
  }

  /** Positions `i..` of `match_def_args`, threading the free-variable map */
  function MatchArgsFrom(a: Arena, o: Oracle, args: seq<Ty>, rs: seq<Restriction>, owner: Ty, i: nat, fv: FreeVars)
    : (res: Option<(seq<Ty>, FreeVars)>)
    requires i <= |args|
    ensures res.Some? ==> |res.value.0| == |args| - i && Extends(fv, res.value.1)
    decreases |args| - i
  {
    if i == |args| then Some(([], fv))
    else match MatchArg(a, o, args[i], RestrictionAt(rs, i), owner, fv)
      case None => None
      case Some((t, fv1)) =>
        match MatchArgsFrom(a, o, args, rs, owner, i + 1, fv1)
        case None => None
        case Some((ts, fv2)) => Some(([t] + ts, fv2))
  }

  /**
    `match_def_args`: a fresh, empty free-variable map per attempt; all
    positions must match; one resolved type per argument, in order.
   */
  function MatchDefArgs(a: Arena, o: Oracle, args: seq<Ty>, rs: seq<Restriction>, owner: Ty): (res: Option<(seq<Ty>, FreeVars)>)
    ensures res.Some? ==> |res.value.0| == |args|
  {
    MatchArgsFrom(a, o, args, rs, owner, 0, map[])
  }

  /**
    A run of `match_arg` over positions `i..`: `fvs[j - i]` is the map
    before position `j`, and each position yields `types[j - i]`.
   */
  ghost predicate MatchTrace(a: Arena, o: Oracle, args: seq<Ty>, rs: seq<Restriction>, owner: Ty, i: nat,
                             types: seq<Ty>, fvs: seq<FreeVars>)
    requires i <= |args|
  {
    && |types| == |args| - i && |fvs| == |types| + 1
    && forall j | 0 <= j < |types| ::
         MatchArg(a, o, args[i + j], RestrictionAt(rs, i + j), owner, fvs[j]) == Some((types[j], fvs[j + 1]))
  }

  /** Soundness: a successful match is a positional run of `match_arg` */
  lemma {:induction false} MatchArgsFromTrace(a: Arena, o: Oracle, args: seq<Ty>, rs: seq<Restriction>, owner: Ty, i: nat, fv: FreeVars)
    returns (fvs: seq<FreeVars>)
    requires i <= |args|
    requires MatchArgsFrom(a, o, args, rs, owner, i, fv).Some?
    ensures var (types, fv') := MatchArgsFrom(a, o, args, rs, owner, i, fv).value;
      MatchTrace(a, o, args, rs, owner, i, types, fvs) && fvs[0] == fv && fvs[|fvs| - 1] == fv'
    decreases |args| - i
  {
    if i == |args| {
      fvs := [fv];
    } else {
      var (t, fv1) := MatchArg(a, o, args[i], RestrictionAt(rs, i), owner, fv).value;
      var rest := MatchArgsFromTrace(a, o, args, rs, owner, i + 1, fv1);
      fvs := [fv] + rest;
      var (ts, _) := MatchArgsFrom(a, o, args, rs, owner, i + 1, fv1).value;
      TraceCons(a, o, args, rs, owner, i, t, ts, rest);
    }
  }

  /** A step at position `i` followed by a run from `i + 1` is a run from `i` */
  lemma TraceCons(a: Arena, o: Oracle, args: seq<Ty>, rs: seq<Restriction>, owner: Ty, i: nat,
                  t: Ty, ts: seq<Ty>, rest: seq<FreeVars>)
    requires i < |args| && MatchTrace(a, o, args, rs, owner, i + 1, ts, rest)
    ensures forall fv | MatchArg(a, o, args[i], RestrictionAt(rs, i), owner, fv) == Some((t, rest[0])) ::
      MatchTrace(a, o, args, rs, owner, i, [t] + ts, [fv] + rest)
  {
    forall fv | MatchArg(a, o, args[i], RestrictionAt(rs, i), owner, fv) == Some((t, rest[0]))
      ensures MatchTrace(a, o, args, rs, owner, i, [t] + ts, [fv] + rest)
    {
      var types := [t] + ts;
      var fvs := [fv] + rest;
      forall j | 0 <= j < |types|
        ensures MatchArg(a, o, args[i + j], RestrictionAt(rs, i + j), owner, fvs[j]) == Some((types[j], fvs[j + 1]))
      {
        if j > 0 {
          assert types[j] == ts[j - 1] && fvs[j] == rest[j - 1] && fvs[j + 1] == rest[j];
          assert i + j == (i + 1) + (j - 1);
        }
      }
    }
  }

  /** Completeness: every positional run of `match_arg` is what the matcher returns */
  lemma {:induction false} TraceMatchArgsFrom(a: Arena, o: Oracle, args: seq<Ty>, rs: seq<Restriction>, owner: Ty, i: nat,
                                              types: seq<Ty>, fvs: seq<FreeVars>)
    requires i <= |args|
    requires MatchTrace(a, o, args, rs, owner, i, types, fvs)
    ensures MatchArgsFrom(a, o, args, rs, owner, i, fvs[0]) == Some((types, fvs[|fvs| - 1]))
    decreases |args| - i
  {
    if i < |args| {
      assert MatchTrace(a, o, args, rs, owner, i + 1, types[1..], fvs[1..]) by {
        forall j | 0 <= j < |types[1..]|
          ensures MatchArg(a, o, args[i + 1 + j], RestrictionAt(rs, i + 1 + j), owner, fvs[1..][j])
                  == Some((types[1..][j], fvs[1..][j + 1]))
        {
          assert i + 1 + j == i + (j + 1);
        }
      }
      TraceMatchArgsFrom(a, o, args, rs, owner, i + 1, types[1..], fvs[1..]);
      assert [types[0]] + types[1..] == types;
    }
  }

  /** All or nothing: the attempt fails exactly when some position fails along the run */
  lemma {:induction false} MatchArgsFromFails(a: Arena, o: Oracle, args: seq<Ty>, rs: seq<Restriction>, owner: Ty, i: nat,
                                              types: seq<Ty>, fvs: seq<FreeVars>, k: nat)
    requires i + k < |args| && |types| == k && |fvs| == k + 1
    requires forall j | 0 <= j < k ::
      MatchArg(a, o, args[i + j], RestrictionAt(rs, i + j), owner, fvs[j]) == Some((types[j], fvs[j + 1]))
    requires MatchArg(a, o, args[i + k], RestrictionAt(rs, i + k), owner, fvs[k]).None?
    ensures MatchArgsFrom(a, o, args, rs, owner, i, fvs[0]).None?
    decreases k
  {
    if k > 0 {
      MatchArgsFromFails(a, o, args, rs, owner, i + 1, types[1..], fvs[1..], k - 1);
    }
  }

  /**
    Free-variable consistency: with `X` unresolvable from the owner,
    restrictions `(X, X)` accept `(T, T)` when `T` restricts to itself, and
    reject `(T, U)` when `U` does not restrict to `T`.
   */
  lemma FreeVariableConsistency(a: Arena, o: Oracle, owner: Ty, x: Path, t: Ty, u: Ty)
    requires OwnerLookup(a, owner, x).None?
    requires o.restrict(t, t, Some(owner)) == Some(t)
    requires o.restrict(u, t, Some(owner)).None?
    ensures MatchDefArgs(a, o, [t, t], [IdentRestriction(x), IdentRestriction(x)], owner) == Some(([t, t], map[x := t]))
    ensures MatchDefArgs(a, o, [t, u], [IdentRestriction(x), IdentRestriction(x)], owner).None?
  {
    var rs := [IdentRestriction(x), IdentRestriction(x)];
    var fv0: FreeVars := map[];
    var fv1: FreeVars := map[x := t];
    assert RestrictionAt(rs, 0) == IdentRestriction(x) && RestrictionAt(rs, 1) == IdentRestriction(x);
    assert MatchArg(a, o, t, IdentRestriction(x), owner, fv0) == Some((t, fv1));
    assert MatchArg(a, o, t, IdentRestriction(x), owner, fv1) == Some((t, fv1));
    assert MatchArg(a, o, u, IdentRestriction(x), owner, fv1).None?;
    var tt := [t, t];
    assert tt[0] == t && tt[1] == t;
    assert MatchArgsFrom(a, o, tt, rs, owner, 2, fv1) == Some(([], fv1));
    assert [t] + [] == [t] && [t] + [t] == tt;
    assert MatchArgsFrom(a, o, tt, rs, owner, 1, fv1) == Some(([t], fv1));
    assert MatchArgsFrom(a, o, tt, rs, owner, 0, fv0) == Some(([t, t], fv1));
    var tu := [t, u];
    assert tu[0] == t && tu[1] == u;
    assert MatchArgsFrom(a, o, tu, rs, owner, 1, fv1).None?;
    assert MatchArgsFrom(a, o, tu, rs, owner, 0, fv0).None?;
  }
}

=== FILE: moduletypes.dfy ===
/**
  Structural queries of `ModuleType`: mixin inclusion, `implements?` and
  qualified-name lookup through nested types, parents and containers.
 */
module ModuleTypes {
  import opened Wrappers
  import opened TypeGraph

  /** `ModuleType#include`: put a mixin first among the parents, once */
  function Include(t: TypeNode, mod: TypeId): (r: TypeNode)
    ensures mod in r.parents
    ensures mod in t.parents ==> r == t
    ensures mod !in t.parents ==> r.parents == [mod] + t.parents && r == t.(parents := r.parents)
  {
    if mod in t.parents then t else t.(parents := [mod] + t.parents)
  }

  function IncludeIn(a: Arena, id: TypeId, mod: TypeId): (r: Arena)
    requires id in a.nodes
    ensures r.nodes.Keys == a.nodes.Keys && r.next == a.next
    ensures r.nodes[id] == Include(a.nodes[id], mod)
    ensures forall x | x in a.nodes && x != id :: r.nodes[x] == a.nodes[x]
  {
    a.(nodes := a.nodes[id := Include(a.nodes[id], mod)])
  }

  /** Including the same mixin twice is the same as including it once */
  lemma IncludeIdempotent(t: TypeNode, mod: TypeId)
    ensures Include(Include(t, mod), mod) == Include(t, mod)
  {
  }

  /** Parents never hold the same type twice when built by `include` */
  lemma IncludeKeepsDistinct(t: TypeNode, mod: TypeId)
    requires Distinct(t.parents)
    ensures Distinct(Include(t, mod).parents)
  {
    var r := Include(t, mod);
    if mod !in t.parents {
      forall i, j | 0 <= i < j < |r.parents|
        ensures r.parents[i] != r.parents[j]
      {
        if i == 0 {
          assert r.parents[j] == t.parents[j - 1];
        } else {
          assert r.parents[i] == t.parents[i - 1] && r.parents[j] == t.parents[j - 1];
        }
      }
    }
  }

  /** The first class parent only depends on which parents are classes */
  lemma {:induction false} FirstClassParentSameKinds(a: Arena, b: Arena, ps: seq<TypeId>)
    requires forall p | p in ps :: IsClassParent(a, p) == IsClassParent(b, p)
    ensures FirstClassParent(a, ps) == FirstClassParent(b, ps)
    decreases |ps|
  {
    if |ps| > 0 {
      FirstClassParentSameKinds(a, b, ps[1..]);
    }
  }

  /** Including a non-class mixin does not change any superclass */
  lemma IncludeKeepsSuperclass(a: Arena, id: TypeId, mod: TypeId, x: TypeId)
    requires id in a.nodes && mod in a.nodes && x in a.nodes
    requires !IsClassKind(a.nodes[mod].kind)
    ensures Superclass(IncludeIn(a, id, mod), x) == Superclass(a, x)
  {
    var b := IncludeIn(a, id, mod);
    var ps := a.nodes[x].parents;
    FirstClassParentSameKinds(a, b, ps);
    if x == id && mod !in ps {
      assert b.nodes[id].parents == [mod] + ps;
      assert ([mod] + ps)[1..] == ps;
    }
  }

  lemma IncludeKeepsNode(a: Arena, id: TypeId, mod: TypeId, x: TypeId)
    requires id in a.nodes && mod in a.nodes && x in a.nodes
    requires !IsClassKind(a.nodes[mod].kind)
    requires NodeClosed(a, x) && NodeRanked(a, x)
    ensures NodeClosed(IncludeIn(a, id, mod), x) && NodeRanked(IncludeIn(a, id, mod), x)
  {
    var b := IncludeIn(a, id, mod);
    var n := a.nodes[x];
    IncludeKeepsSuperclass(a, id, mod, x);
    assert RefsIn(b, b.nodes[x].parents);
    forall i | 0 <= i < |n.subclasses|
      ensures Superclass(b, n.subclasses[i]) == Superclass(a, n.subclasses[i])
    {
      IncludeKeepsSuperclass(a, id, mod, n.subclasses[i]);
    }
  }

  /** Including a non-class mixin keeps the arena well formed */
  lemma IncludePreservesWellFormed(a: Arena, id: TypeId, mod: TypeId)
    requires WellFormed(a) && id in a.nodes && mod in a.nodes
    requires !IsClassKind(a.nodes[mod].kind)
    ensures WellFormed(IncludeIn(a, id, mod))
  {
    var b := IncludeIn(a, id, mod);
    forall x | x in b.nodes
      ensures NodeClosed(b, x) && NodeRanked(b, x)
    {
      IncludeKeepsNode(a, id, mod, x);
    }
  }

  /** `ModuleType#implements?`; struct types only implement themselves */
  function Implements(a: Arena, x: TypeId, other: Ty, onPath: set<TypeId>): bool
    decreases |a.nodes.Keys - onPath|
  {
    Node(x) == other ||
    (x in a.nodes && x !in onPath && !a.nodes[x].kind.StructKind? &&
     (UnvisitedShrinks(a, onPath, x);
      exists i | 0 <= i < |a.nodes[x].parents| :: Implements(a, a.nodes[x].parents[i], other, onPath + {x})))
  }

  /** A walk up the parent lists, from `c[0]` to its last element */
  ghost predicate ParentChain(a: Arena, c: seq<TypeId>) {
    && |c| >= 1
    && forall i | 0 <= i < |c| - 1 ::
         c[i] in a.nodes && !a.nodes[c[i]].kind.StructKind? && c[i + 1] in a.nodes[c[i]].parents
  }

  /** Soundness: a type implements another only along a parent chain */
  lemma {:induction false} ImplementsHasChain(a: Arena, x: TypeId, y: TypeId, onPath: set<TypeId>)
    returns (c: seq<TypeId>)
    requires Implements(a, x, Node(y), onPath)
    ensures ParentChain(a, c) && c[0] == x && c[|c| - 1] == y
    ensures forall i | 0 <= i < |c| - 1 :: c[i] !in onPath
    decreases |a.nodes.Keys - onPath|
  {
    if x == y {
      c := [x];
    } else {
      UnvisitedShrinks(a, onPath, x);
      var ps := a.nodes[x].parents;
      var i :| 0 <= i < |ps| && Implements(a, ps[i], Node(y), onPath + {x});
      var rest := ImplementsHasChain(a, ps[i], y, onPath + {x});
      c := [x] + rest;
      forall k | 0 <= k < |c| - 1
        ensures c[k] in a.nodes && !a.nodes[c[k]].kind.StructKind? && c[k + 1] in a.nodes[c[k]].parents
      {
        if k > 0 {
          assert c[k] == rest[k - 1] && c[k + 1] == rest[k];
        }
      }
    }
  }

  /** Completeness: every repetition-free parent chain off the current walk is found */
  lemma {:induction false} ChainImplements(a: Arena, c: seq<TypeId>, onPath: set<TypeId>)
    requires ParentChain(a, c) && Distinct(c)
    requires forall i | 0 <= i < |c| - 1 :: c[i] !in onPath
    ensures Implements(a, c[0], Node(c[|c| - 1]), onPath)
    decreases |c|
  {
    if |c| > 1 && c[0] != c[|c| - 1] {
      var x := c[0];
      var rest := c[1..];
      forall i | 0 <= i < |rest| - 1
        ensures rest[i] !in onPath + {x}
      {
        assert rest[i] == c[i + 1];
      }
      assert ParentChain(a, rest) by {
        forall i | 0 <= i < |rest| - 1
          ensures rest[i] in a.nodes && !a.nodes[rest[i]].kind.StructKind? && rest[i + 1] in a.nodes[rest[i]].parents
        {
          assert rest[i] == c[i + 1] && rest[i + 1] == c[i + 2];
        }
      }
      ChainImplements(a, rest, onPath + {x});
      var ps := a.nodes[x].parents;
      var i :| 0 <= i < |ps| && ps[i] == c[1];
      assert Implements(a, ps[i], Node(c[|c| - 1]), onPath + {x});
    }
  }

  function FindTypeVar(vars: seq<TypeVar>, name: Name): (r: Option<TypeVar>)
    ensures r.Some? ==> r.value in vars && r.value.name == name
    ensures r.None? ==> forall i | 0 <= i < |vars| :: vars[i].name != name
  {
    if |vars| == 0 then None
    else if vars[0].name == name then Some(vars[0])
    else FindTypeVar(vars[1..], name)
  }

  /** Follow `names` through the nested-type tables, starting at `id` */
  function WalkPath(a: Arena, id: TypeId, names: Path): Option<TypeId>
    decreases |names|
  {
    if |names| == 0 then Some(id)
    else if id in a.nodes && names[0] in a.nodes[id].types then
      WalkPath(a, a.nodes[id].types[names[0]], names[1..])
    else None
  }

  /**
    What `lookup_type` decides at one type before consulting parents: a
    one-segment name that is a generic type variable resolves to the
    variable's binding (possibly none); otherwise a nested-type path hit.
    None means "not decided here".
   */
  function LocalResolve(a: Arena, id: TypeId, names: Path): Option<Option<Ty>>
    requires id in a.nodes
  {
    var n := a.nodes[id];
    if n.typeVars.Some? && |names| == 1 && FindTypeVar(n.typeVars.value, names[0]).Some? then
      Some(FindTypeVar(n.typeVars.value, names[0]).value.bound)
    else match WalkPath(a, id, names)
      case Some(t) => Some(Some(Node(t)))
      case None => None
  }

  /**
    `ModuleType#lookup_type` with its `already_looked_up` set threaded
    through the walk: the type itself, then each parent in order, then the
    container.  Returns the answer and the grown visited set.
   */
  function LookupType(a: Arena, id: TypeId, names: Path, visited: set<TypeId>): (res: (Option<Ty>, set<TypeId>))
    ensures visited <= res.1 <= visited + a.nodes.Keys
    ensures id in visited ==> res == (None, visited)
    ensures res.0.Some? ==>
      exists u | u in res.1 && u !in visited :: u in a.nodes && LocalResolve(a, u, names) == Some(res.0)
    decreases |a.nodes.Keys - visited|, 1
  {
    if id in visited || id !in a.nodes then (None, visited)
    else
      var seen := visited + {id};
      match LocalResolve(a, id, names)
      case Some(found) => (found, seen)
      case None =>
        UnvisitedShrinks(a, visited, id);
        var r := LookupInParents(a, a.nodes[id].parents, names, seen);
        if r.0.Some? then r
        else
          UnvisitedMonotone(a, seen, r.1);
          match a.nodes[id].container
          case Some(c) => LookupType(a, c, names, r.1)
          case None => (None, r.1)
  }

  function LookupInParents(a: Arena, ps: seq<TypeId>, names: Path, visited: set<TypeId>): (res: (Option<Ty>, set<TypeId>))
    ensures visited <= res.1 <= visited + a.nodes.Keys
    ensures res.0.Some? ==>
      exists u | u in res.1 && u !in visited :: u in a.nodes && LocalResolve(a, u, names) == Some(res.0)
    decreases |a.nodes.Keys - visited| + 1, 0, |ps|
  {
    if |ps| == 0 then (None, visited)
    else
      var r := LookupType(a, ps[0], names, visited);
      if r.0.Some? then r
      else
        UnvisitedMonotone(a, visited, r.1);
        LookupInParents(a, ps[1..], names, r.1)
  }

  /** A path found among the type's own nested types wins over parents and container */
  lemma LookupTypeFindsOwnNestedType(a: Arena, id: TypeId, names: Path, visited: set<TypeId>, t: TypeId)
    requires id in a.nodes && id !in visited
    requires |names| != 1 || a.nodes[id].typeVars.None?
    requires WalkPath(a, id, names) == Some(t)
    ensures LookupType(a, id, names, visited).0 == Some(Node(t))
  {
  }
}

=== FILE: objecttypes.dfy ===
/**
  `ObjectType` construction (depth and subclass back-link) and the
  preorder enumeration of a class and its transitive subclasses used by
  `HierarchyType#each`.
 */
module ObjectTypes {
  import opened Wrappers
  import opened TypeGraph
  import ModuleTypes

  function NewNode(name: Name, kind: Kind, parents: seq<TypeId>, container: Option<TypeId>, depth: nat): TypeNode {
    TypeNode(name, kind, container, parents, map[], None, map[], map[], map[], [], [], depth)
  }

  /**
    `ObjectType.new(name, parent_type, container)`: allocates a fresh id,
    sets depth to the parent's depth plus one (zero for a root) and appends
    the new type to the parent's subclass list.
   */
  function NewObjectType(a: Arena, name: Name, parent: Option<TypeId>, container: Option<TypeId>): (r: (Arena, TypeId))
    requires IdsBelowNext(a)
    requires parent.Some? ==> parent.value in a.nodes && a.nodes[parent.value].kind.ObjectKind?
    ensures r.1 == a.next && r.1 !in a.nodes
    ensures r.0.nodes.Keys == a.nodes.Keys + {r.1} && r.0.next == a.next + 1
    ensures r.0.nodes[r.1].kind.ObjectKind? && r.0.nodes[r.1].name == name
    ensures r.0.nodes[r.1].subclasses == [] && r.0.nodes[r.1].instanceVars == []
    ensures parent.None? ==> r.0.nodes[r.1].depth == 0 && r.0.nodes[r.1].parents == []
    ensures parent.Some? ==> r.0.nodes[r.1].depth == a.nodes[parent.value].depth + 1
    ensures parent.Some? ==> r.0.nodes[r.1].parents == [parent.value]
    ensures parent.Some? ==>
      r.0.nodes[parent.value] == a.nodes[parent.value].(subclasses := a.nodes[parent.value].subclasses + [r.1])
    ensures forall x | x in a.nodes && Some(x) != parent :: r.0.nodes[x] == a.nodes[x]
  {
    var id := a.next;
    match parent
    case None =>
      (Arena(a.nodes[id := NewNode(name, ObjectKind, [], container, 0)], id + 1), id)
    case Some(p) =>
      var pn := a.nodes[p];
      var nodes := a.nodes[p := pn.(subclasses := pn.subclasses + [id])][id := NewNode(name, ObjectKind, [p], container, pn.depth + 1)];
      (Arena(nodes, id + 1), id)
  }

  /** Under this model every arena id is below `next` (the id counter) */
  ghost predicate IdsBelowNext(a: Arena) {
    forall x | x in a.nodes :: x < a.next
  }

  lemma NewObjectKeepsSuperclass(a: Arena, name: Name, parent: Option<TypeId>, container: Option<TypeId>, x: TypeId)
    requires IdsBelowNext(a)
    requires parent.Some? ==> parent.value in a.nodes && a.nodes[parent.value].kind.ObjectKind?
    requires x in a.nodes && RefsIn(a, a.nodes[x].parents)
    ensures Superclass(NewObjectType(a, name, parent, container).0, x) == Superclass(a, x)
  {
    var b := NewObjectType(a, name, parent, container).0;
    ModuleTypes.FirstClassParentSameKinds(a, b, a.nodes[x].parents);
  }

  lemma NewObjectNewNodeOk(a: Arena, name: Name, parent: Option<TypeId>, container: Option<TypeId>)
    requires IdsBelowNext(a)
    requires parent.Some? ==> parent.value in a.nodes && a.nodes[parent.value].kind.ObjectKind?
    requires container.Some? ==> container.value in a.nodes
    ensures var (b, id) := NewObjectType(a, name, parent, container); NodeClosed(b, id) && NodeRanked(b, id)
  {
    var (b, id) := NewObjectType(a, name, parent, container);
    if parent.Some? {
      assert IsClassParent(b, parent.value);
      assert Superclass(b, id) == Some(parent.value);
    } else {
      assert Superclass(b, id) == None;
    }
  }

  lemma NewObjectOldNodeClosed(a: Arena, name: Name, parent: Option<TypeId>, container: Option<TypeId>, x: TypeId)
    requires IdsBelowNext(a)
    requires parent.Some? ==> parent.value in a.nodes && a.nodes[parent.value].kind.ObjectKind?
    requires x in a.nodes && NodeClosed(a, x)
    ensures NodeClosed(NewObjectType(a, name, parent, container).0, x)
  {
    var b := NewObjectType(a, name, parent, container).0;
    assert b.nodes[x].parents == a.nodes[x].parents;
    assert RefsIn(b, b.nodes[x].parents);
  }

  lemma NewObjectOldSubclassesOk(a: Arena, name: Name, parent: Option<TypeId>, container: Option<TypeId>, x: TypeId)
    requires IdsBelowNext(a)
    requires parent.Some? ==> parent.value in a.nodes && a.nodes[parent.value].kind.ObjectKind?
    requires x in a.nodes && NodeClosed(a, x) && NodeRanked(a, x)
    requires forall i | 0 <= i < |a.nodes[x].subclasses| :: NodeClosed(a, a.nodes[x].subclasses[i])
    ensures var b := NewObjectType(a, name, parent, container).0;
      forall i | 0 <= i < |b.nodes[x].subclasses| ::
        b.nodes[x].subclasses[i] in b.nodes && b.nodes[b.nodes[x].subclasses[i]].kind.ObjectKind?
        && Superclass(b, b.nodes[x].subclasses[i]) == Some(x)
  {
    var (b, id) := NewObjectType(a, name, parent, container);
    var n := a.nodes[x];
    forall i | 0 <= i < |n.subclasses|
      ensures Superclass(b, n.subclasses[i]) == Superclass(a, n.subclasses[i])
    {
      NewObjectKeepsSuperclass(a, name, parent, container, n.subclasses[i]);
    }
    if Some(x) == parent {
      assert b.nodes[x].subclasses == n.subclasses + [id];
      assert IsClassParent(b, x);
      assert Superclass(b, id) == Some(x);
    }
  }

  lemma NewObjectOldNodeOk(a: Arena, name: Name, parent: Option<TypeId>, container: Option<TypeId>, x: TypeId)
    requires IdsBelowNext(a)
    requires parent.Some? ==> parent.value in a.nodes && a.nodes[parent.value].kind.ObjectKind?
    requires x in a.nodes && NodeClosed(a, x) && NodeRanked(a, x)
    requires forall i | 0 <= i < |a.nodes[x].subclasses| :: NodeClosed(a, a.nodes[x].subclasses[i])
    ensures var b := NewObjectType(a, name, parent, container).0; NodeClosed(b, x) && NodeRanked(b, x)
  {
    var b := NewObjectType(a, name, parent, container).0;
    NewObjectOldNodeClosed(a, name, parent, container, x);
    NewObjectKeepsSuperclass(a, name, parent, container, x);
    NewObjectOldSubclassesOk(a, name, parent, container, x);
    var n := a.nodes[x];
    if IsClassKind(n.kind) && Superclass(a, x).Some? {
      var s := Superclass(a, x).value;
      assert b.nodes[s].depth == a.nodes[s].depth && b.nodes[s].kind == a.nodes[s].kind;
      assert forall y | y in a.nodes[s].subclasses :: y in b.nodes[s].subclasses;
    }
  }

  /** Creating an object type keeps every invariant of the arena */
  lemma NewObjectTypePreservesWellFormed(a: Arena, name: Name, parent: Option<TypeId>, container: Option<TypeId>)
    requires WellFormed(a) && IdsBelowNext(a)
    requires parent.Some? ==> parent.value in a.nodes && a.nodes[parent.value].kind.ObjectKind?
    requires container.Some? ==> container.value in a.nodes
    ensures WellFormed(NewObjectType(a, name, parent, container).0)
  {
    var (b, id) := NewObjectType(a, name, parent, container);
    forall x | x in b.nodes
      ensures NodeClosed(b, x) && NodeRanked(b, x)
    {
      if x == id {
        NewObjectNewNodeOk(a, name, parent, container);
      } else {
        assert NodeClosed(a, x) && NodeRanked(a, x);
        assert forall i | 0 <= i < |a.nodes[x].subclasses| :: NodeClosed(a, a.nodes[x].subclasses[i]);
        NewObjectOldNodeOk(a, name, parent, container, x);
      }
    }
  }

  /** A bound on every depth in the arena, used only as a termination measure */
  ghost function MaxDepth(a: Arena): (m: nat)
    ensures forall id | id in a.nodes :: a.nodes[id].depth <= m
  {
    MaxDepthOf(a, a.nodes.Keys)
  }

  ghost function MaxDepthOf(a: Arena, ks: set<TypeId>): (m: nat)
    requires ks <= a.nodes.Keys
    ensures forall id | id in ks :: a.nodes[id].depth <= m
    decreases ks
  {
    if ks == {} then 0
    else
      var k :| k in ks;
      var r := MaxDepthOf(a, ks - {k});
      if a.nodes[k].depth > r then a.nodes[k].depth else r
  }

  predicate SubclassesBelow(a: Arena, subs: seq<TypeId>, d: nat) {
    forall i | 0 <= i < |subs| :: subs[i] in a.nodes && a.nodes[subs[i]].kind.ObjectKind? && a.nodes[subs[i]].depth > d
  }

  /** `HierarchyType#each2`: the type, then each subclass subtree in list order */
  function EachType(a: Arena, id: TypeId): seq<TypeId>
    requires WellFormed(a) && id in a.nodes
    decreases MaxDepth(a) - a.nodes[id].depth, 1, 0
  {
    assert NodeRanked(a, id);
    assert SubclassesBelow(a, a.nodes[id].subclasses, a.nodes[id].depth) by {
      forall i | 0 <= i < |a.nodes[id].subclasses|
        ensures a.nodes[a.nodes[id].subclasses[i]].depth > a.nodes[id].depth
      {
        assert NodeRanked(a, a.nodes[id].subclasses[i]);
      }
    }
    [id] + EachSubtype(a, a.nodes[id].subclasses, a.nodes[id].depth)
  }

  /** `HierarchyType#each_subtype` over a subclass list */
  function EachSubtype(a: Arena, subs: seq<TypeId>, d: nat): seq<TypeId>
    requires WellFormed(a) && SubclassesBelow(a, subs, d)
    decreases MaxDepth(a) - d, 0, |subs|
  {
    if |subs| == 0 then []
    else EachType(a, subs[0]) + EachSubtype(a, subs[1..], d)
  }

  /** The strict subtypes of an object type, in preorder */
  function StrictSubtypes(a: Arena, id: TypeId): seq<TypeId>
    requires WellFormed(a) && id in a.nodes
  {
    EachType(a, id)[1..]
  }

  lemma {:induction false} EachSubtypeMember(a: Arena, subs: seq<TypeId>, d: nat, y: TypeId)
    returns (k: nat)
    requires WellFormed(a) && SubclassesBelow(a, subs, d)
    requires y in EachSubtype(a, subs, d)
    ensures k < |subs| && y in EachType(a, subs[k])
    decreases |subs|
  {
    if y in EachType(a, subs[0]) {
      k := 0;
    } else {
      var k' := EachSubtypeMember(a, subs[1..], d, y);
      k := k' + 1;
    }
  }

  lemma {:induction false} EachSubtypeContains(a: Arena, subs: seq<TypeId>, d: nat, k: nat, y: TypeId)
    requires WellFormed(a) && SubclassesBelow(a, subs, d)
    requires k < |subs| && y in EachType(a, subs[k])
    ensures y in EachSubtype(a, subs, d)
    decreases |subs|
  {
    if k > 0 {
      EachSubtypeContains(a, subs[1..], d, k - 1, y);
    }
  }

  /** Soundness: every enumerated type is an object subclass of the start */
  lemma {:induction false} EachTypeSound(a: Arena, id: TypeId, y: TypeId)
    requires WellFormed(a) && id in a.nodes && a.nodes[id].kind.ObjectKind?
    requires y in EachType(a, id)
    ensures y in a.nodes && a.nodes[y].kind.ObjectKind? && IsSubclassOf(a, y, id)
    decreases MaxDepth(a) - a.nodes[id].depth
  {
    if y != id {
      var subs := a.nodes[id].subclasses;
      assert NodeRanked(a, id);
      var k := EachSubtypeMember(a, subs, a.nodes[id].depth, y);
      var s := subs[k];
      assert NodeRanked(a, s);
      EachTypeSound(a, s, y);
      assert Superclass(a, s) == Some(id);
      assert IsSubclassOf(a, s, id);
      SubclassTransitive(a, y, s, id);
    }
  }

  /** The enumeration is closed under taking subclasses */
  lemma {:induction false} EachTypeClosed(a: Arena, id: TypeId, p: TypeId, x: TypeId)
    requires WellFormed(a) && id in a.nodes
    requires p in EachType(a, id) && p in a.nodes && x in a.nodes[p].subclasses
    ensures x in EachType(a, id)
    decreases MaxDepth(a) - a.nodes[id].depth
  {
    var subs := a.nodes[id].subclasses;
    assert NodeRanked(a, id);
    if p == id {
      var k :| 0 <= k < |subs| && subs[k] == x;
      EachSubtypeContains(a, subs, a.nodes[id].depth, k, x);
    } else {
      var k := EachSubtypeMember(a, subs, a.nodes[id].depth, p);
      EachTypeClosed(a, subs[k], p, x);
      EachSubtypeContains(a, subs, a.nodes[id].depth, k, x);
    }
  }

  /** Completeness: every object subclass of the start is enumerated */
  lemma {:induction false} EachTypeComplete(a: Arena, id: TypeId, x: TypeId)
    requires WellFormed(a) && id in a.nodes && x in a.nodes
    requires a.nodes[x].kind.ObjectKind? && IsSubclassOf(a, x, id)
    ensures x in EachType(a, id)
    decreases a.nodes[x].depth
  {
    if x != id {
      assert NodeRanked(a, x);
      var p := Superclass(a, x).value;
      EachTypeComplete(a, id, p);
      EachTypeClosed(a, id, p, x);
    }
  }

  /** The strict subtypes are exactly the object subclasses other than the type itself */
  lemma StrictSubtypesExactly(a: Arena, id: TypeId, y: TypeId)
    requires WellFormed(a) && id in a.nodes && a.nodes[id].kind.ObjectKind?
    ensures y in StrictSubtypes(a, id) <==>
      y in a.nodes && a.nodes[y].kind.ObjectKind? && y != id && IsSubclassOf(a, y, id)
  {
    var subs := a.nodes[id].subclasses;
    assert NodeRanked(a, id);
    assert StrictSubtypes(a, id) == EachSubtype(a, subs, a.nodes[id].depth);
    if y in StrictSubtypes(a, id) {
      var k := EachSubtypeMember(a, subs, a.nodes[id].depth, y);
      assert NodeRanked(a, subs[k]);
      EachTypeSound(a, subs[k], y);
      SubclassDepth(a, y, subs[k]);
      EachTypeSound(a, id, y);
    }
    if y in a.nodes && a.nodes[y].kind.ObjectKind? && y != id && IsSubclassOf(a, y, id) {
      EachTypeComplete(a, id, y);
    }
  }
}

=== FILE: resolver.dfy ===
/**
  Overload resolution: `lookup_matches_without_parents` over one type's
  specificity-ordered candidates, `lookup_matches` with its fallback to
  parents, and the virtual-type lookup of `HierarchyType` that fans a call
  out to every subtype.
 */
module Resolver {
  import opened Wrappers
  import opened TypeGraph
  import ObjectTypes
  import opened Matcher
  import Unions
  import Cover

  /** One applicable definition: its owner, resolved argument types and bindings */
  datatype Match = Match(def: Def, owner: Ty, argTypes: seq<Ty>, freeVars: FreeVars)

  /** The match is what `match_def_args` gives its definition for these arguments under its owner */
  predicate Genuine(a: Arena, o: Oracle, args: seq<Ty>, m: Match) {
    MatchDefArgs(a, o, args, Params(m.def), m.owner) == Some((m.argTypes, m.freeVars))
  }

  /** A candidate's match for the call, if it has one */
  function TryMatch(a: Arena, o: Oracle, d: Def, args: seq<Ty>, owner: Ty): (r: Option<Match>)
    ensures r.None? <==> MatchDefArgs(a, o, args, Params(d), owner).None?
    ensures r.Some? ==> r.value.def == d && r.value.owner == owner && Genuine(a, o, args, r.value)
    ensures r.Some? ==> |r.value.argTypes| == |args|
  {
    match MatchDefArgs(a, o, args, Params(d), owner)
    case Some((ts, fv)) => Some(Match(d, owner, ts, fv))
    case None => None
  }

  /** `match.arg_types == arg_types`: position-wise Ruby `==` with the match's types as receivers */
  predicate SameTypes(ts: seq<Ty>, args: seq<Ty>) {
    |ts| == |args| && forall i | 0 <= i < |ts| :: Unions.TyEq(ts[i], args[i])
  }

  /** A candidate that matches and resolves every argument to the argument's own type */
  predicate IsPerfect(a: Arena, o: Oracle, d: Def, args: seq<Ty>, owner: Ty) {
    var m := TryMatch(a, o, d, args, owner);
    m.Some? && SameTypes(m.value.argTypes, args)
  }

  /** Reference definition: the matches of all candidates, in candidate order */
  function AllMatches(a: Arena, o: Oracle, defs: seq<Def>, args: seq<Ty>, owner: Ty): (ms: seq<Match>)
    ensures |ms| <= |defs|
    ensures forall m | m in ms :: m.owner == owner && m.def in defs && Genuine(a, o, args, m)
    ensures |ms| == 0 <==> forall k | 0 <= k < |defs| :: TryMatch(a, o, defs[k], args, owner).None?
  {
    if |defs| == 0 then []
    else
      var rest := AllMatches(a, o, defs[1..], args, owner);
      assert forall k | 1 <= k < |defs| :: defs[k] == defs[1..][k - 1];
      match TryMatch(a, o, defs[0], args, owner)
      case Some(m) => [m] + rest
      case None => rest
  }

  /** The candidate walk: matches collected up to and including the first perfect one */
  function Scan(a: Arena, o: Oracle, defs: seq<Def>, args: seq<Ty>, owner: Ty): (r: (seq<Match>, bool))
    ensures r.1 ==> |r.0| > 0
    ensures forall m | m in r.0 :: m.owner == owner && Genuine(a, o, args, m)
  {
    if |defs| == 0 then ([], false)
    else match TryMatch(a, o, defs[0], args, owner)
      case Some(m) =>
        if SameTypes(m.argTypes, args) then ([m], true)
        else
          var r := Scan(a, o, defs[1..], args, owner);
          ([m] + r.0, r.1)
      case None => Scan(a, o, defs[1..], args, owner)
  }

  /** The walk reports a perfect match exactly when some candidate is one */
  lemma {:induction false} ScanFindsPerfect(a: Arena, o: Oracle, defs: seq<Def>, args: seq<Ty>, owner: Ty)
    ensures Scan(a, o, defs, args, owner).1 <==> exists k | 0 <= k < |defs| :: IsPerfect(a, o, defs[k], args, owner)
    decreases |defs|
  {
    if |defs| > 0 {
      var tail := defs[1..];
      if !IsPerfect(a, o, defs[0], args, owner) {
        ScanFindsPerfect(a, o, tail, args, owner);
        assert Scan(a, o, defs, args, owner).1 == Scan(a, o, tail, args, owner).1;
        if exists k | 0 <= k < |defs| :: IsPerfect(a, o, defs[k], args, owner) {
          var k :| 0 <= k < |defs| && IsPerfect(a, o, defs[k], args, owner);
          assert tail[k - 1] == defs[k];
        }
        if exists k | 0 <= k < |tail| :: IsPerfect(a, o, tail[k], args, owner) {
          var k :| 0 <= k < |tail| && IsPerfect(a, o, tail[k], args, owner);
          assert defs[k + 1] == tail[k];
        }
      }
    }
  }

  /** Without a perfect candidate the walk collects the matches of all candidates */
  lemma {:induction false} ScanWithoutPerfect(a: Arena, o: Oracle, defs: seq<Def>, args: seq<Ty>, owner: Ty)
    requires forall k | 0 <= k < |defs| :: !IsPerfect(a, o, defs[k], args, owner)
    ensures Scan(a, o, defs, args, owner).0 == AllMatches(a, o, defs, args, owner)
    decreases |defs|
  {
    if |defs| > 0 {
      assert forall k | 0 <= k < |defs[1..]| :: defs[1..][k] == defs[k + 1];
      ScanWithoutPerfect(a, o, defs[1..], args, owner);
      assert !IsPerfect(a, o, defs[0], args, owner);
    }
  }

  /** The walk stops at the first perfect candidate, with the matches of every candidate up to it */
  lemma {:induction false} ScanStopsAtFirstPerfect(a: Arena, o: Oracle, defs: seq<Def>, args: seq<Ty>, owner: Ty, k: nat)
    requires k < |defs| && IsPerfect(a, o, defs[k], args, owner)
    requires forall j | 0 <= j < k :: !IsPerfect(a, o, defs[j], args, owner)
    ensures Scan(a, o, defs, args, owner).0 == AllMatches(a, o, defs[..k + 1], args, owner)
    decreases k
  {
    var pre := defs[..k + 1];
    assert pre[0] == defs[0];
    if k == 0 {
      assert pre[1..] == [];
    } else {
      var tail := defs[1..];
      assert forall j | 0 <= j < k - 1 :: tail[j] == defs[j + 1];
      assert tail[k - 1] == defs[k];
      ScanStopsAtFirstPerfect(a, o, tail, args, owner, k - 1);
      assert pre[1..] == tail[..k];
      assert !IsPerfect(a, o, defs[0], args, owner);
    }
  }

  /** Some match marks table position `p` */
  predicate MarkedBy(a: Arena, cells: seq<Cover.CoverCell>, ms: seq<Match>, p: int)
    requires WellFormed(a)
    requires forall i | 0 <= i < |ms| :: |ms[i].argTypes| == |cells|
  {
    exists i | 0 <= i < |ms| :: p in Cover.Marks(a, cells, ms[i].argTypes)
  }

  /** The coverage table is fully marked by the given matches (`cover.all?`) */
  predicate Covered(a: Arena, args: seq<Ty>, ms: seq<Match>)
    requires WellFormed(a)
    requires forall i | 0 <= i < |ms| :: |ms[i].argTypes| == |args|
  {
    var cells := Cover.CellsOf(args);
    forall p | 0 <= p < Cover.CoverSize(cells) :: MarkedBy(a, cells, ms, p)
  }

  /** The candidate key of a call: name, number of arguments, whether a block is given */
  function CallKey(name: Name, args: seq<Ty>, yieldsBlock: bool): DefKey {
    DefKey(name, |args|, yieldsBlock)
  }

  /**
    `lookup_matches_without_parents`: the type's own candidates only.  A
    perfect match ends the walk at once; otherwise the matches are returned
    when some exist and, if asked, they cover every union combination.
   */
  function LookupMatchesWithoutParents(a: Arena, o: Oracle, id: TypeId, name: Name, args: seq<Ty>, yieldsBlock: bool,
                                       owner: Ty, checkCover: bool): (res: Option<seq<Match>>)
    requires WellFormed(a)
    ensures res.Some? ==> |res.value| > 0 && forall m | m in res.value :: m.owner == owner && Genuine(a, o, args, m)
    ensures (id !in a.nodes || CallKey(name, args, yieldsBlock) !in a.nodes[id].sortedDefs) ==> res.None?
  {
    if id !in a.nodes || CallKey(name, args, yieldsBlock) !in a.nodes[id].sortedDefs then None
    else
      var cands := a.nodes[id].sortedDefs[CallKey(name, args, yieldsBlock)];
      var (ms, perfect) := Scan(a, o, cands, args, owner);
      if perfect then Some(ms)
      else if |ms| == 0 then None
      else if !checkCover || Covered(a, args, ms) then Some(ms)
      else None
  }

  /** The candidates of a call in the type's own table */
  function Candidates(a: Arena, id: TypeId, name: Name, args: seq<Ty>, yieldsBlock: bool): seq<Def>
    requires id in a.nodes && CallKey(name, args, yieldsBlock) in a.nodes[id].sortedDefs
  {
    a.nodes[id].sortedDefs[CallKey(name, args, yieldsBlock)]
  }

  /** With a perfect candidate, the answer is every match up to the first perfect one, coverage unchecked */
  lemma WithoutParentsPerfect(a: Arena, o: Oracle, id: TypeId, name: Name, args: seq<Ty>, yieldsBlock: bool,
                              owner: Ty, checkCover: bool, k: nat)
    requires WellFormed(a) && id in a.nodes && CallKey(name, args, yieldsBlock) in a.nodes[id].sortedDefs
    requires var cands := Candidates(a, id, name, args, yieldsBlock);
      k < |cands| && IsPerfect(a, o, cands[k], args, owner)
      && forall j | 0 <= j < k :: !IsPerfect(a, o, cands[j], args, owner)
    ensures LookupMatchesWithoutParents(a, o, id, name, args, yieldsBlock, owner, checkCover)
      == Some(AllMatches(a, o, Candidates(a, id, name, args, yieldsBlock)[..k + 1], args, owner))
  {
    var cands := Candidates(a, id, name, args, yieldsBlock);
    ScanFindsPerfect(a, o, cands, args, owner);
    ScanStopsAtFirstPerfect(a, o, cands, args, owner, k);
  }

  /**
    Without a perfect candidate, the answer is the matches of all candidates
    when there are any and, if asked, they cover every union combination.
   */
  lemma WithoutParentsImperfect(a: Arena, o: Oracle, id: TypeId, name: Name, args: seq<Ty>, yieldsBlock: bool,
                                owner: Ty, checkCover: bool)
    requires WellFormed(a) && id in a.nodes && CallKey(name, args, yieldsBlock) in a.nodes[id].sortedDefs
    requires var cands := Candidates(a, id, name, args, yieldsBlock);
      forall k | 0 <= k < |cands| :: !IsPerfect(a, o, cands[k], args, owner)
    ensures var all := AllMatches(a, o, Candidates(a, id, name, args, yieldsBlock), args, owner);
      var res := LookupMatchesWithoutParents(a, o, id, name, args, yieldsBlock, owner, checkCover);
      && (res.Some? <==> |all| > 0 && (!checkCover || Covered(a, args, all)))
      && (res.Some? ==> res.value == all)
  {
    var cands := Candidates(a, id, name, args, yieldsBlock);
    ScanFindsPerfect(a, o, cands, args, owner);
    ScanWithoutPerfect(a, o, cands, args, owner);
  }

  /**
    The coverage check on a call with one union argument `A | B`: overloads
    for `A` and for `B` together answer it with both matches; an overload
    for `A` alone covers only half the table and answers nothing.
   */
  lemma UnionCoverExample(a: Arena, o: Oracle, both: TypeId, onlyA: TypeId, name: Name, owner: Ty,
                          ta: TypeId, tb: TypeId, da: Def, db: Def)
    requires WellFormed(a) && both in a.nodes && onlyA in a.nodes && ta != tb
    requires Params(da) == [TypeRestriction(Node(ta))] && Params(db) == [TypeRestriction(Node(tb))]
    requires var u := Union([Node(ta), Node(tb)]);
      o.isRestrictionOf(u, Node(ta), owner) && o.isRestrictionOf(u, Node(tb), owner)
    requires var key := CallKey(name, [Union([Node(ta), Node(tb)])], false);
      && key in a.nodes[both].sortedDefs && a.nodes[both].sortedDefs[key] == [da, db]
      && key in a.nodes[onlyA].sortedDefs && a.nodes[onlyA].sortedDefs[key] == [da]
    ensures var args := [Union([Node(ta), Node(tb)])];
      && LookupMatchesWithoutParents(a, o, both, name, args, false, owner, true)
         == Some([Match(da, owner, [Node(ta)], map[]), Match(db, owner, [Node(tb)], map[])])
      && LookupMatchesWithoutParents(a, o, onlyA, name, args, false, owner, true).None?
  {
    var u := Union([Node(ta), Node(tb)]);
    var args := [u];
    var ma := Match(da, owner, [Node(ta)], map[]);
    var mb := Match(db, owner, [Node(tb)], map[]);
    OneArgMatch(a, o, u, da, ta, owner);
    OneArgMatch(a, o, u, db, tb, owner);
    assert AllMatches(a, o, [da, db], args, owner) == [ma, mb];
    assert AllMatches(a, o, [da], args, owner) == [ma];
    UnionCoverTable(a, ta, tb, ma, mb);
    WithoutParentsImperfect(a, o, both, name, args, false, owner, true);
    WithoutParentsImperfect(a, o, onlyA, name, args, false, owner, true);
  }

  /** With one argument `A | B`, matches resolving it to `A` and to `B` cover the table; `A` alone does not */
  lemma UnionCoverTable(a: Arena, ta: TypeId, tb: TypeId, ma: Match, mb: Match)
    requires WellFormed(a) && ta != tb && ma.argTypes == [Node(ta)] && mb.argTypes == [Node(tb)]
    ensures Covered(a, [Union([Node(ta), Node(tb)])], [ma, mb])
    ensures !Covered(a, [Union([Node(ta), Node(tb)])], [ma])
  {
    var ms := [Node(ta), Node(tb)];
    var cells := Cover.CellsOf([Union(ms)]);
    OneUnionCells(ta, tb);
    assert Cover.EachTy(a, Node(ta)) == [Node(ta)] && Cover.EachTy(a, Node(tb)) == [Node(tb)];
    Cover.MarksOneUnion(a, ms, Node(ta), 0);
    Cover.MarksOneUnion(a, ms, Node(ta), 1);
    Cover.MarksOneUnion(a, ms, Node(tb), 1);
    assert MarkedBy(a, cells, [ma, mb], 0) by {
      assert 0 in Cover.Marks(a, cells, [ma, mb][0].argTypes);
    }
    assert MarkedBy(a, cells, [ma, mb], 1) by {
      assert 1 in Cover.Marks(a, cells, [ma, mb][1].argTypes);
    }
    assert !MarkedBy(a, cells, [ma], 1);
  }

  lemma OneUnionCells(ta: TypeId, tb: TypeId)
    ensures Cover.CellsOf([Union([Node(ta), Node(tb)])]) == [Cover.Cells([Node(ta), Node(tb)])]
    ensures Cover.CoverSize(Cover.CellsOf([Union([Node(ta), Node(tb)])])) == 2
  {
    var ms := [Node(ta), Node(tb)];
    var c := Cover.CellOf(Union(ms));
    assert |c.members| == 2 && c.members[0] == ms[0] && c.members[1] == ms[1];
    assert c == Cover.Cells(ms);
    var cells := Cover.CellsOf([Union(ms)]);
    assert cells == [Cover.Cells(ms)];
    assert Cover.WidthFrom(cells, 1) == 1;
  }

  /** A one-argument overload restricted to type `t` matches a union argument that restricts to `t` */
  lemma OneArgMatch(a: Arena, o: Oracle, u: Ty, d: Def, t: TypeId, owner: Ty)
    requires Params(d) == [TypeRestriction(Node(t))] && o.isRestrictionOf(u, Node(t), owner) && u.Union?
    ensures TryMatch(a, o, d, [u], owner) == Some(Match(d, owner, [Node(t)], map[]))
    ensures !IsPerfect(a, o, d, [u], owner)
  {
    var rs := Params(d);
    assert RestrictionAt(rs, 0) == TypeRestriction(Node(t)) && [u][0] == u;
    assert MatchArg(a, o, u, TypeRestriction(Node(t)), owner, map[]) == Some((Node(t), map[]));
    assert MatchArgsFrom(a, o, [u], rs, owner, 1, map[]) == Some(([], map[]));
    assert [Node(t)] + [] == [Node(t)];
    assert MatchArgsFrom(a, o, [u], rs, owner, 0, map[]) == Some(([Node(t)], map[]));
    assert !Unions.TyEq(Node(t), u);
  }

  /** A call that finds nothing in a type's own table may not fall back to its parents */
  predicate NoParentFallback(a: Arena, id: TypeId, name: Name, owner: Ty)
    requires id in a.nodes
  {
    a.nodes[id].kind.StructKind?
    || (name == "new" && owner.Node? && owner.id in a.nodes && a.nodes[owner.id].kind.MetaclassKind?)
  }

  /** Every match is genuine, owned by the caller or by a type the caller restricts */
  predicate SoundFor(a: Arena, o: Oracle, args: seq<Ty>, owner: Ty, ms: seq<Match>) {
    forall m | m in ms :: Genuine(a, o, args, m) && (m.owner == owner || o.isRestrictionOf(owner, m.owner, owner))
  }

  predicate Found(r: Option<seq<Match>>) {
    r.Some? && |r.value| > 0
  }

  /**
    `lookup_matches`: the type's own candidates, then each parent in order;
    an object parent is searched as its virtual type and keeps only the
    matches whose owner the caller restricts.  `onPath` holds the types
    whose parents are being searched.
   */
  function LookupMatches(a: Arena, o: Oracle, id: TypeId, name: Name, args: seq<Ty>, yieldsBlock: bool,
                         owner: Ty, onPath: set<TypeId>): (res: Option<seq<Match>>)
    requires WellFormed(a)
    ensures res.Some? ==> |res.value| > 0 && SoundFor(a, o, args, owner, res.value)
    ensures LookupMatchesWithoutParents(a, o, id, name, args, yieldsBlock, owner, true).Some? ==>
      res == LookupMatchesWithoutParents(a, o, id, name, args, yieldsBlock, owner, true)
    ensures id in a.nodes && NoParentFallback(a, id, name, owner) ==>
      res == LookupMatchesWithoutParents(a, o, id, name, args, yieldsBlock, owner, true)
    ensures id !in a.nodes ==> res.None?
    ensures id in onPath && LookupMatchesWithoutParents(a, o, id, name, args, yieldsBlock, owner, true).None? ==> res.None?
    ensures (&& id in a.nodes && id !in onPath && !NoParentFallback(a, id, name, owner)
             && LookupMatchesWithoutParents(a, o, id, name, args, yieldsBlock, owner, true).None?) ==>
      (UnvisitedShrinks(a, onPath, id);
       res == LookupInParents(a, o, a.nodes[id].parents, name, args, yieldsBlock, owner, onPath + {id}))
    decreases |a.nodes.Keys - onPath|, 0, 0
  {
    var own := LookupMatchesWithoutParents(a, o, id, name, args, yieldsBlock, owner, true);
    if own.Some? then own
    else if id !in a.nodes || id in onPath || NoParentFallback(a, id, name, owner) then None
    else
      UnvisitedShrinks(a, onPath, id);
      LookupInParents(a, o, a.nodes[id].parents, name, args, yieldsBlock, owner, onPath + {id})
  }

  /** The first parent whose search finds something decides */
  function LookupInParents(a: Arena, o: Oracle, ps: seq<TypeId>, name: Name, args: seq<Ty>, yieldsBlock: bool,
                           owner: Ty, onPath: set<TypeId>): (res: Option<seq<Match>>)
    requires WellFormed(a)
    ensures res.Some? ==> |res.value| > 0 && SoundFor(a, o, args, owner, res.value)
    decreases |a.nodes.Keys - onPath|, 2, |ps|
  {
    if |ps| == 0 then None
    else
      var r := ParentMatches(a, o, ps[0], name, args, yieldsBlock, owner, onPath);
      if Found(r) then r
      else LookupInParents(a, o, ps[1..], name, args, yieldsBlock, owner, onPath)
  }

  /** The first result that found something */
  function FirstFound(rs: seq<Option<seq<Match>>>): Option<seq<Match>> {
    if |rs| == 0 then None
    else if Found(rs[0]) then rs[0]
    else FirstFound(rs[1..])
  }

  /** The first found result is preceded only by results that found nothing; none means none found */
  lemma {:induction false} FirstFoundSpec(rs: seq<Option<seq<Match>>>)
    ensures var r := FirstFound(rs);
      && (r.Some? ==> exists k | 0 <= k < |rs| :: r == rs[k] && forall j | 0 <= j < k :: !Found(rs[j]))
      && (r.None? ==> forall k | 0 <= k < |rs| :: !Found(rs[k]))
    decreases |rs|
  {
    if |rs| > 0 && !Found(rs[0]) {
      var tail := rs[1..];
      FirstFoundSpec(tail);
      assert forall k | 1 <= k < |rs| :: rs[k] == tail[k - 1];
      if FirstFound(rs).Some? {
        var k :| 0 <= k < |tail| && FirstFound(rs) == tail[k] && forall j | 0 <= j < k :: !Found(tail[j]);
        assert FirstFound(rs) == rs[k + 1];
      }
    }
  }

  /** The searches of each parent, in order */
  function ParentResults(a: Arena, o: Oracle, ps: seq<TypeId>, name: Name, args: seq<Ty>, yieldsBlock: bool,
                         owner: Ty, onPath: set<TypeId>): (rs: seq<Option<seq<Match>>>)
    requires WellFormed(a)
    ensures |rs| == |ps|
    ensures forall k | 0 <= k < |ps| :: rs[k] == ParentMatches(a, o, ps[k], name, args, yieldsBlock, owner, onPath)
  {
    seq(|ps|, k requires 0 <= k < |ps| => ParentMatches(a, o, ps[k], name, args, yieldsBlock, owner, onPath))
  }

  lemma {:induction false} LookupInParentsIsFirstFound(a: Arena, o: Oracle, ps: seq<TypeId>, name: Name, args: seq<Ty>,
                                                       yieldsBlock: bool, owner: Ty, onPath: set<TypeId>)
    requires WellFormed(a)
    ensures LookupInParents(a, o, ps, name, args, yieldsBlock, owner, onPath)
         == FirstFound(ParentResults(a, o, ps, name, args, yieldsBlock, owner, onPath))
    decreases |ps|
  {
    if |ps| > 0 {
      var rs := ParentResults(a, o, ps, name, args, yieldsBlock, owner, onPath);
      LookupInParentsIsFirstFound(a, o, ps[1..], name, args, yieldsBlock, owner, onPath);
      assert rs[1..] == ParentResults(a, o, ps[1..], name, args, yieldsBlock, owner, onPath);
    }
  }

  /**
    The parents are tried in order: the answer is that of the first parent
    whose search finds something, and nothing when none does.
   */
  lemma LookupInParentsFirstFound(a: Arena, o: Oracle, ps: seq<TypeId>, name: Name, args: seq<Ty>,
                                  yieldsBlock: bool, owner: Ty, onPath: set<TypeId>)
    requires WellFormed(a)
    ensures var res := LookupInParents(a, o, ps, name, args, yieldsBlock, owner, onPath);
      && (res.Some? ==> exists k | 0 <= k < |ps| ::
           && res == ParentMatches(a, o, ps[k], name, args, yieldsBlock, owner, onPath)
           && forall j | 0 <= j < k :: !Found(ParentMatches(a, o, ps[j], name, args, yieldsBlock, owner, onPath)))
      && (res.None? ==> forall k | 0 <= k < |ps| :: !Found(ParentMatches(a, o, ps[k], name, args, yieldsBlock, owner, onPath)))
  {
    LookupInParentsIsFirstFound(a, o, ps, name, args, yieldsBlock, owner, onPath);
    FirstFoundSpec(ParentResults(a, o, ps, name, args, yieldsBlock, owner, onPath));
  }

  /**
    A type that finds nothing of its own and may fall back answers with the
    first parent, in order, whose search finds something, and with nothing
    when no parent does.
   */
  lemma LookupMatchesFallsBackInOrder(a: Arena, o: Oracle, id: TypeId, name: Name, args: seq<Ty>, yieldsBlock: bool,
                                      owner: Ty, onPath: set<TypeId>)
    requires WellFormed(a)
    requires id in a.nodes && id !in onPath && !NoParentFallback(a, id, name, owner)
    requires LookupMatchesWithoutParents(a, o, id, name, args, yieldsBlock, owner, true).None?
    ensures var res := LookupMatches(a, o, id, name, args, yieldsBlock, owner, onPath);
      var ps, visited := a.nodes[id].parents, onPath + {id};
      && (res.Some? ==> exists k | 0 <= k < |ps| ::
           && res == ParentMatches(a, o, ps[k], name, args, yieldsBlock, owner, visited)
           && forall j | 0 <= j < k :: !Found(ParentMatches(a, o, ps[j], name, args, yieldsBlock, owner, visited)))
      && (res.None? ==> forall k | 0 <= k < |ps| :: !Found(ParentMatches(a, o, ps[k], name, args, yieldsBlock, owner, visited)))
  {
    LookupInParentsFirstFound(a, o, a.nodes[id].parents, name, args, yieldsBlock, owner, onPath + {id});
  }

  /** The matches of one parent, as `lookup_matches` takes them */
  function ParentMatches(a: Arena, o: Oracle, p: TypeId, name: Name, args: seq<Ty>, yieldsBlock: bool,
                         owner: Ty, onPath: set<TypeId>): (res: Option<seq<Match>>)
    requires WellFormed(a)
    ensures res.Some? ==> SoundFor(a, o, args, owner, res.value)
    decreases |a.nodes.Keys - onPath|, 2, 0
  {
    if p in a.nodes && a.nodes[p].kind.ObjectKind? then
      match HierarchyLookupMatches(a, o, p, name, args, yieldsBlock, onPath)
      case Some(ms) => Some(SelectRestricting(a, o, args, ms, owner))
      case None => None
    else LookupMatches(a, o, p, name, args, yieldsBlock, owner, onPath)
  }

  /** `matches.select { owner.is_restriction_of?(match.owner, owner) }` */
  function SelectRestricting(a: Arena, o: Oracle, args: seq<Ty>, ms: seq<Match>, owner: Ty): (r: seq<Match>)
    requires forall m | m in ms :: Genuine(a, o, args, m)
    ensures forall m :: m in r <==> m in ms && o.isRestrictionOf(owner, m.owner, owner)
    ensures SoundFor(a, o, args, owner, r)
  {
    if |ms| == 0 then []
    else
      var rest := SelectRestricting(a, o, args, ms[1..], owner);
      assert forall m :: m in ms <==> m == ms[0] || m in ms[1..];
      if o.isRestrictionOf(owner, ms[0].owner, owner) then [ms[0]] + rest else rest
  }

  /**
    `HierarchyType#lookup_matches`: the base type's matches with the virtual
    type as owner, then each strict subtype's own matches in preorder,
    without the coverage check.
   */
  function HierarchyLookupMatches(a: Arena, o: Oracle, b: TypeId, name: Name, args: seq<Ty>, yieldsBlock: bool,
                                  onPath: set<TypeId>): (res: Option<seq<Match>>)
    requires WellFormed(a)
    ensures res.Some? <==> LookupMatches(a, o, b, name, args, yieldsBlock, Hierarchy(b), onPath).Some?
    ensures res.Some? ==>
      res.value == LookupMatches(a, o, b, name, args, yieldsBlock, Hierarchy(b), onPath).value
                   + SubtypeMatches(a, o, ObjectTypes.StrictSubtypes(a, b), name, args, yieldsBlock)
    ensures res.Some? ==> forall m | m in res.value :: Genuine(a, o, args, m)
    decreases |a.nodes.Keys - onPath|, 1, 0
  {
    var base := LookupMatches(a, o, b, name, args, yieldsBlock, Hierarchy(b), onPath);
    if base.None? then None
    else
      Some(base.value + SubtypeMatches(a, o, ObjectTypes.StrictSubtypes(a, b), name, args, yieldsBlock))
  }

  /** Each subtype's own matches, with its virtual type as owner, concatenated in order */
  function SubtypeMatches(a: Arena, o: Oracle, subs: seq<TypeId>, name: Name, args: seq<Ty>, yieldsBlock: bool): (ms: seq<Match>)
    requires WellFormed(a)
    ensures forall m | m in ms :: Genuine(a, o, args, m) && exists k | 0 <= k < |subs| :: m.owner == Hierarchy(subs[k])
  {
    if |subs| == 0 then []
    else
      var own := LookupMatchesWithoutParents(a, o, subs[0], name, args, yieldsBlock, Hierarchy(subs[0]), false);
      var rest := SubtypeMatches(a, o, subs[1..], name, args, yieldsBlock);
      assert forall k | 1 <= k < |subs| :: subs[k] == subs[1..][k - 1];
      (if own.Some? then own.value else []) + rest
  }

  /** The match is owned by the virtual type of a strict object subtype of `b` */
  predicate OwnedByStrictSubtype(a: Arena, b: TypeId, m: Match)
    requires WellFormed(a)
  {
    exists s | s in a.nodes && a.nodes[s].kind.ObjectKind? && s != b && IsSubclassOf(a, s, b) :: m.owner == Hierarchy(s)
  }

  /** Every match a virtual call adds after the base type's belongs to a strict object subtype */
  lemma SubtypeMatchesStrict(a: Arena, o: Oracle, b: TypeId, name: Name, args: seq<Ty>, yieldsBlock: bool)
    requires WellFormed(a) && b in a.nodes && a.nodes[b].kind.ObjectKind?
    ensures var ms := SubtypeMatches(a, o, ObjectTypes.StrictSubtypes(a, b), name, args, yieldsBlock);
      forall i | 0 <= i < |ms| :: OwnedByStrictSubtype(a, b, ms[i])
  {
    var subs := ObjectTypes.StrictSubtypes(a, b);
    var ms := SubtypeMatches(a, o, subs, name, args, yieldsBlock);
    forall i | 0 <= i < |ms|
      ensures OwnedByStrictSubtype(a, b, ms[i])
    {
      assert ms[i] in ms;
      var k :| 0 <= k < |subs| && ms[i].owner == Hierarchy(subs[k]);
      var s := subs[k];
      assert s in subs;
      ObjectTypes.StrictSubtypesExactly(a, b, s);
    }
  }

  /** A first candidate that is a perfect match is the whole answer of the type's own lookup */
  lemma FirstPerfectWins(a: Arena, o: Oracle, id: TypeId, name: Name, args: seq<Ty>, yieldsBlock: bool, owner: Ty, checkCover: bool)
    requires WellFormed(a) && id in a.nodes && CallKey(name, args, yieldsBlock) in a.nodes[id].sortedDefs
    requires var cands := Candidates(a, id, name, args, yieldsBlock);
      |cands| > 0 && IsPerfect(a, o, cands[0], args, owner)
    ensures LookupMatchesWithoutParents(a, o, id, name, args, yieldsBlock, owner, checkCover)
        == Some([TryMatch(a, o, Candidates(a, id, name, args, yieldsBlock)[0], args, owner).value])
  {
    var cands := Candidates(a, id, name, args, yieldsBlock);
    WithoutParentsPerfect(a, o, id, name, args, yieldsBlock, owner, checkCover, 0);
    var pre := cands[..1];
    assert pre[0] == cands[0] && pre[1..] == [];
  }
}

=== FILE: typegraph.dfy ===
/**
  The type-node arena of the compiler's type model.

  Every type that can own methods (modules, classes, primitives, object
  classes, pointers, metaclasses, libraries, structs) is a record stored in
  an arena under a unique identifier; unions and virtual (hierarchy) types
  are values that refer to arena entries.  Method bodies, argument ASTs and
  the restriction relations of the compiler are opaque here.
 */
module TypeGraph {
  import opened Wrappers

  type TypeId = nat
  type Name = string
  /** The `names` of an identifier such as `A::B::C` */
  type Path = seq<Name>

  /** A type as it appears as an argument, restriction or instance-variable type */
  datatype Ty =
    | Node(id: TypeId)          // an arena entry, compared by identity
    | Union(members: seq<Ty>)   // a flattened union: members are never unions
    | Hierarchy(base: TypeId)   // "base or any transitive subclass" (one per object type)

  datatype Kind =
    | ModuleKind
    | ClassKind
    | PrimitiveKind
    | ObjectKind
    | PointerKind
    | MetaclassKind(instance: TypeId)
    | LibKind
    | StructKind

  /** The kinds that are `ClassType`s: they have a superclass */
  predicate IsClassKind(k: Kind) {
    k.ClassKind? || k.PrimitiveKind? || k.ObjectKind? || k.PointerKind?
  }

  /** A declared parameter restriction, as produced by the parser */
  datatype Restriction =
    | NoRestriction                                         // nil
    | SelfRestriction                                       // SelfType
    | GenericRestriction(path: Path, typeArgs: seq<Restriction>) // NewGenericClass
    | IdentRestriction(path: Path)                          // Ident
    | IdentUnion(paths: seq<Path>)                          // IdentUnion of Idents
    | TypeRestriction(ty: Ty)                               // an already resolved Type
    | OtherRestriction                                      // any other AST node

  datatype Arg = Arg(name: Name, restriction: Restriction, hasDefault: bool)

  /** A method definition; `body` stands for the opaque AST of its body */
  datatype Def = Def(name: Name, args: seq<Arg>, yieldsBlock: bool, instanceVars: seq<Name>, body: nat)

  /** Exact-signature key of the definitions table */
  datatype Signature = Signature(restrictions: seq<Restriction>, yieldsBlock: bool)

  /** Key of the specificity-ordered candidate lists */
  datatype DefKey = DefKey(name: Name, arity: nat, yieldsBlock: bool)

  /** A generic type variable and the type it is bound to, if any */
  datatype TypeVar = TypeVar(name: Name, bound: Option<Ty>)

  /** A declared instance variable and its type, if known */
  datatype IVar = IVar(name: Name, ty: Option<Ty>)

  datatype TypeNode = TypeNode(
    name: Name,
    kind: Kind,
    container: Option<TypeId>,
    parents: seq<TypeId>,
    types: map<Name, TypeId>,
    typeVars: Option<seq<TypeVar>>,              // Some marks a generic type
    defs: map<Name, map<Signature, Def>>,
    sortedDefs: map<DefKey, seq<Def>>,
    macros: map<Name, map<nat, Def>>,
    instanceVars: seq<IVar>,
    subclasses: seq<TypeId>,
    depth: nat)

  /** All type nodes, and the next identifier to hand out */
  datatype Arena = Arena(nodes: map<TypeId, TypeNode>, next: TypeId)

  function Params(d: Def): (rs: seq<Restriction>)
    ensures |rs| == |d.args|
    ensures forall i | 0 <= i < |rs| :: rs[i] == d.args[i].restriction
  {
    seq(|d.args|, i requires 0 <= i < |d.args| => d.args[i].restriction)
  }

  predicate IsClassParent(a: Arena, p: TypeId) {
    p in a.nodes && IsClassKind(a.nodes[p].kind)
  }

  /** The first parent that is a class */
  function FirstClassParent(a: Arena, ps: seq<TypeId>): (r: Option<TypeId>)
    ensures r.None? <==> forall i | 0 <= i < |ps| :: !IsClassParent(a, ps[i])
    ensures r.Some? ==> IsClassParent(a, r.value)
    ensures r.Some? ==> exists i | 0 <= i < |ps| :: ps[i] == r.value && forall j | 0 <= j < i :: !IsClassParent(a, ps[j])
  {
    if |ps| == 0 then None
    else if IsClassParent(a, ps[0]) then Some(ps[0])
    else
      var r := FirstClassParent(a, ps[1..]);
      assert forall i | 1 <= i < |ps| :: ps[i] == ps[1..][i - 1];
      r
  }

  /** `ClassType#superclass` */
  function Superclass(a: Arena, id: TypeId): Option<TypeId>
    requires id in a.nodes
  {
    FirstClassParent(a, a.nodes[id].parents)
  }

  predicate RefsIn(a: Arena, ids: seq<TypeId>) {
    forall i | 0 <= i < |ids| :: ids[i] in a.nodes
  }

  /** Every reference of a node points into the arena, and ids are below `next` */
  predicate NodeClosed(a: Arena, id: TypeId)
    requires id in a.nodes
  {
    var n := a.nodes[id];
    && id < a.next
    && RefsIn(a, n.parents)
    && RefsIn(a, n.subclasses)
    && (n.container.Some? ==> n.container.value in a.nodes)
    && (forall k | k in n.types :: n.types[k] in a.nodes)
    && (n.kind.MetaclassKind? ==> n.kind.instance in a.nodes)
  }

  /** Superclass depth is smaller; subclass back-links agree with the superclass */
  predicate NodeRanked(a: Arena, id: TypeId)
    requires id in a.nodes
  {
    var n := a.nodes[id];
    && (IsClassKind(n.kind) && Superclass(a, id).Some? ==>
          a.nodes[Superclass(a, id).value].depth < n.depth)
    && (n.kind.ObjectKind? && Superclass(a, id).Some? ==>
          a.nodes[Superclass(a, id).value].kind.ObjectKind? && id in a.nodes[Superclass(a, id).value].subclasses)
    && (forall i | 0 <= i < |n.subclasses| ::
          n.subclasses[i] in a.nodes && a.nodes[n.subclasses[i]].kind.ObjectKind?
          && Superclass(a, n.subclasses[i]) == Some(id))
  }

  ghost predicate WellFormed(a: Arena) {
    forall id | id in a.nodes :: NodeClosed(a, id) && NodeRanked(a, id)
  }

  /** `ClassType#is_subclass_of?`: reflexive for classes, false for other kinds */
  function IsSubclassOf(a: Arena, x: TypeId, y: TypeId): bool
    requires WellFormed(a) && x in a.nodes
    decreases a.nodes[x].depth
  {
    assert NodeRanked(a, x);
    IsClassKind(a.nodes[x].kind) &&
    (x == y || match Superclass(a, x)
               case Some(p) => IsSubclassOf(a, p, y)
               case None => false)
  }

  /** A subclass is at least as deep as its ancestor, strictly unless equal */
  lemma {:induction false} SubclassDepth(a: Arena, x: TypeId, y: TypeId)
    requires WellFormed(a) && x in a.nodes
    requires IsSubclassOf(a, x, y)
    ensures y in a.nodes
    ensures a.nodes[y].depth <= a.nodes[x].depth
    ensures a.nodes[y].depth == a.nodes[x].depth ==> x == y
    decreases a.nodes[x].depth
  {
    assert NodeRanked(a, x);
    if x != y {
      var p := Superclass(a, x).value;
      SubclassDepth(a, p, y);
    }
  }

  lemma {:induction false} SubclassTransitive(a: Arena, x: TypeId, y: TypeId, z: TypeId)
    requires WellFormed(a) && x in a.nodes && y in a.nodes
    requires IsSubclassOf(a, x, y) && IsSubclassOf(a, y, z)
    ensures IsSubclassOf(a, x, z)
    decreases a.nodes[x].depth
  {
    assert NodeRanked(a, x);
    if x != y {
      SubclassTransitive(a, Superclass(a, x).value, y, z);
    }
  }

  lemma SubclassAntisymmetric(a: Arena, x: TypeId, y: TypeId)
    requires WellFormed(a) && x in a.nodes && y in a.nodes
    requires IsSubclassOf(a, x, y) && IsSubclassOf(a, y, x)
    ensures x == y
  {
    SubclassDepth(a, x, y);
    SubclassDepth(a, y, x);
  }

  /** Marking one more arena type as visited leaves fewer unvisited types */
  lemma UnvisitedShrinks(a: Arena, seen: set<TypeId>, id: TypeId)
    requires id in a.nodes && id !in seen
    ensures |a.nodes.Keys - (seen + {id})| < |a.nodes.Keys - seen|
  {
    assert a.nodes.Keys - (seen + {id}) == (a.nodes.Keys - seen) - {id};
  }

  /** Visiting more types never leaves more types unvisited */
  lemma UnvisitedMonotone(a: Arena, s1: set<TypeId>, s2: set<TypeId>)
    requires s1 <= s2
    ensures |a.nodes.Keys - s2| <= |a.nodes.Keys - s1|
  {
    SubsetCard(a.nodes.Keys - s2, a.nodes.Keys - s1);
  }

  lemma SubsetCard<T>(small: set<T>, big: set<T>)
    requires small <= big
    ensures |small| <= |big|
    decreases big
  {
    if small != {} {
      var x :| x in small;
      SubsetCard(small - {x}, big - {x});
    }
  }

  predicate Distinct<T(==)>(s: seq<T>) {
    forall i, j | 0 <= i < j < |s| :: s[i] != s[j]
  }
}

=== FILE: unions.dfy ===
/**
  The union algebra of `UnionType`: equality by member set, recognition
  of nilable unions, and narrowing a type by `filter_by`.
 */
module Unions {
  import opened Wrappers
  import opened TypeGraph
  import ModuleTypes
  import Matcher

  /** The members of a union as a set */
  function MemberSet(ms: seq<Ty>): (s: set<Ty>)
    ensures forall x :: x in s <==> x in ms
  {
    set x | x in ms
  }

  /**
    Ruby `==` with `x` as the receiver.  A union equals another union with
    the same member set, and a non-union when it has exactly one distinct
    member equal to it; every other type compares by identity.
   */
  predicate TyEq(x: Ty, y: Ty) {
    if x.Union? then
      x == y
      || (y.Union? && MemberSet(x.members) == MemberSet(y.members))
      || (!y.Union? && |MemberSet(x.members)| == 1 && x.members[0] == y)
    else x == y
  }

  /** Two unions are equal exactly when they hold the same members, in any order and multiplicity */
  lemma UnionEqIsSetEq(xs: seq<Ty>, ys: seq<Ty>)
    ensures TyEq(Union(xs), Union(ys)) <==> (forall t :: t in xs <==> t in ys)
  {
    if forall t :: t in xs <==> t in ys {
      assert MemberSet(xs) == MemberSet(ys);
    }
  }

  /** Between unions, `==` is an equivalence */
  lemma UnionEqEquivalence(xs: seq<Ty>, ys: seq<Ty>, zs: seq<Ty>)
    ensures TyEq(Union(xs), Union(xs))
    ensures TyEq(Union(xs), Union(ys)) ==> TyEq(Union(ys), Union(xs))
    ensures TyEq(Union(xs), Union(ys)) && TyEq(Union(ys), Union(zs)) ==> TyEq(Union(xs), Union(zs))
  {
    UnionEqIsSetEq(xs, ys);
    UnionEqIsSetEq(ys, xs);
    UnionEqIsSetEq(ys, zs);
    UnionEqIsSetEq(xs, zs);
  }

  /** Reordering the members of a union does not change it under `==` */
  lemma UnionEqPermutation(xs: seq<Ty>, ys: seq<Ty>)
    requires multiset(xs) == multiset(ys)
    ensures TyEq(Union(xs), Union(ys)) && TyEq(Union(ys), Union(xs))
  {
    forall t
      ensures t in xs <==> t in ys
    {
      assert t in xs <==> t in multiset(xs);
      assert t in ys <==> t in multiset(ys);
    }
    UnionEqIsSetEq(xs, ys);
    UnionEqIsSetEq(ys, xs);
  }

  /**
    A union whose members are all one non-union type equals that type.
    For a type compared by identity (`Type#==`) the converse fails; generic
    object types and pointer types, whose `==` defers to the union, are
    not among the arena's identity-compared types.
   */
  lemma SingletonUnionEq(t: Ty, n: nat)
    requires !t.Union? && n >= 1
    ensures TyEq(Union(seq(n, _ => t)), t)
    ensures !TyEq(t, Union(seq(n, _ => t)))
  {
    var ms := seq(n, _ => t);
    assert ms[0] == t;
    assert MemberSet(ms) == {t};
  }

  /** `nil_type?`: the primitive named `Nil` */
  predicate IsNilType(a: Arena, t: Ty) {
    t.Node? && t.id in a.nodes && a.nodes[t.id].kind.PrimitiveKind? && a.nodes[t.id].name == "Nil"
  }

  /** `nilable_able?`: object and pointer types */
  predicate NilableAble(a: Arena, t: Ty) {
    t.Node? && t.id in a.nodes && (a.nodes[t.id].kind.ObjectKind? || a.nodes[t.id].kind.PointerKind?)
  }

  /**
    `UnionType#nilable?`: a two-member union of `Nil` and a nilable-able
    type, answered with that other type (`nilable_type`), in either order.
   */
  function NilableType(a: Arena, u: Ty): (r: Option<Ty>)
    ensures r.Some? <==>
      u.Union? && |u.members| == 2 &&
      ((IsNilType(a, u.members[0]) && NilableAble(a, u.members[1])) ||
       (IsNilType(a, u.members[1]) && NilableAble(a, u.members[0])))
    ensures r.Some? ==> NilableAble(a, r.value) && r.value in u.members && !IsNilType(a, r.value)
    ensures r.Some? ==> exists i | 0 <= i < 2 :: IsNilType(a, u.members[i]) && r.value == u.members[1 - i]
  {
    if u.Union? && |u.members| == 2 then
      if IsNilType(a, u.members[0]) && NilableAble(a, u.members[1]) then Some(u.members[1])
      else if IsNilType(a, u.members[1]) && NilableAble(a, u.members[0]) then Some(u.members[0])
      else None
    else None
  }

  /** `UnionType#union?`: a union that is not a nilable one */
  predicate IsProperUnion(a: Arena, u: Ty)
    requires u.Union?
  {
    NilableType(a, u).None?
  }

  /** Nilability does not depend on the order of the two members */
  lemma NilableOrderInsensitive(a: Arena, x: Ty, y: Ty)
    ensures NilableType(a, Union([x, y])) == NilableType(a, Union([y, x]))
  {
  }

  /**
    `filter_by`: a plain type survives when it implements the other type;
    a virtual type is narrowed by `restrict`; a union keeps its surviving
    members, collapsing to one member or to nothing.
   */
  function FilterBy(a: Arena, o: Matcher.Oracle, t: Ty, other: Ty): (r: Option<Ty>)
    ensures t.Node? ==> (r.Some? <==> ModuleTypes.Implements(a, t.id, other, {})) && (r.Some? ==> r.value == t)
    ensures t.Hierarchy? ==> r == o.restrict(t, other, None)
    ensures t.Union? ==>
      var fs := FilterMembers(a, o, t.members, other, t);
      r == if |fs| == 0 then None else if |fs| == 1 then Some(fs[0]) else Some(Union(fs))
    decreases t, 1
  {
    match t
    case Node(id) => if ModuleTypes.Implements(a, id, other, {}) then Some(t) else None
    case Hierarchy(_) => o.restrict(t, other, None)
    case Union(ms) =>
      var fs := FilterMembers(a, o, ms, other, t);
      if |fs| == 0 then None
      else if |fs| == 1 then Some(fs[0])
      else Some(Union(fs))
  }

  /** The surviving members of a union, in order (`map` then `compact`) */
  function FilterMembers(a: Arena, o: Matcher.Oracle, ms: seq<Ty>, other: Ty, ghost u: Ty): (fs: seq<Ty>)
    requires forall i | 0 <= i < |ms| :: ms[i] < u
    ensures |fs| <= |ms|
    decreases u, 0, |ms|
  {
    if |ms| == 0 then []
    else
      assert forall i | 1 <= i < |ms| :: ms[i] == ms[1..][i - 1];
      var rest := FilterMembers(a, o, ms[1..], other, u);
      match FilterBy(a, o, ms[0], other)
      case Some(f) => [f] + rest
      case None => rest
  }

  /** The survivors are exactly the members' filtered results that exist */
  lemma {:induction false} FilterMembersSpec(a: Arena, o: Matcher.Oracle, ms: seq<Ty>, other: Ty, u: Ty)
    requires forall i | 0 <= i < |ms| :: ms[i] < u
    ensures var fs := FilterMembers(a, o, ms, other, u);
      && (|fs| == 0 <==> forall i | 0 <= i < |ms| :: FilterBy(a, o, ms[i], other).None?)
      && (forall f | f in fs :: exists i | 0 <= i < |ms| :: FilterBy(a, o, ms[i], other) == Some(f))
      && (forall i | 0 <= i < |ms| && FilterBy(a, o, ms[i], other).Some? :: FilterBy(a, o, ms[i], other).value in fs)
    decreases |ms|
  {
    if |ms| > 0 {
      var tail := ms[1..];
      assert forall i | 1 <= i < |ms| :: ms[i] == tail[i - 1];
      FilterMembersSpec(a, o, tail, other, u);
      var rest := FilterMembers(a, o, tail, other, u);
      var fs := FilterMembers(a, o, ms, other, u);
      var h := FilterBy(a, o, ms[0], other);
      assert fs == if h.Some? then [h.value] + rest else rest;
      forall f | f in fs
        ensures exists i | 0 <= i < |ms| :: FilterBy(a, o, ms[i], other) == Some(f)
      {
        if h.Some? && f == h.value {
        } else {
          assert f in rest;
          var j :| 0 <= j < |tail| && FilterBy(a, o, tail[j], other) == Some(f);
          assert FilterBy(a, o, ms[j + 1], other) == Some(f);
        }
      }
    }
  }

  /** A union filters to nothing exactly when every member does */
  lemma FilterUnionNone(a: Arena, o: Matcher.Oracle, ms: seq<Ty>, other: Ty)
    ensures FilterBy(a, o, Union(ms), other).None? <==>
      forall i | 0 <= i < |ms| :: FilterBy(a, o, ms[i], other).None?
  {
    var fs := FilterMembers(a, o, ms, other, Union(ms));
    FilterMembersSpec(a, o, ms, other, Union(ms));
    assert FilterBy(a, o, Union(ms), other).None? <==> |fs| == 0;
  }

  /** Filtering a union whose members all survive unchanged gives the union's members back */
  lemma {:induction false} FilterAllSurvive(a: Arena, o: Matcher.Oracle, ms: seq<Ty>, other: Ty, u: Ty)
    requires forall i | 0 <= i < |ms| :: ms[i] < u
    requires forall i | 0 <= i < |ms| :: FilterBy(a, o, ms[i], other) == Some(ms[i])
    ensures FilterMembers(a, o, ms, other, u) == ms
    decreases |ms|
  {
    if |ms| > 0 {
      var tail := ms[1..];
      assert forall i | 0 <= i < |tail| :: tail[i] == ms[i + 1];
      FilterAllSurvive(a, o, tail, other, u);
      assert FilterMembers(a, o, ms, other, u) == [ms[0]] + tail;
      assert [ms[0]] + tail == ms;
    }
  }

  /** The survivors of a union of plain types are exactly the members that implement the type */
  lemma {:induction false} FilterMembersOfNodes(a: Arena, o: Matcher.Oracle, ms: seq<Ty>, other: Ty, u: Ty)
    requires forall i | 0 <= i < |ms| :: ms[i] < u
    requires forall i | 0 <= i < |ms| :: ms[i].Node?
    ensures forall f :: f in FilterMembers(a, o, ms, other, u) <==>
      f in ms && ModuleTypes.Implements(a, f.id, other, {})
    ensures forall i | 0 <= i < |FilterMembers(a, o, ms, other, u)| :: FilterMembers(a, o, ms, other, u)[i].Node?
    decreases |ms|
  {
    if |ms| > 0 {
      var tail := ms[1..];
      assert forall i | 0 <= i < |tail| :: tail[i] == ms[i + 1];
      FilterMembersOfNodes(a, o, tail, other, u);
      var rest := FilterMembers(a, o, tail, other, u);
      var fs := FilterMembers(a, o, ms, other, u);
      var keep := ModuleTypes.Implements(a, ms[0].id, other, {});
      assert fs == if keep then [ms[0]] + rest else rest;
      forall f
        ensures f in fs <==> f in ms && ModuleTypes.Implements(a, f.id, other, {})
      {
        assert f in ms <==> f == ms[0] || f in tail;
      }
    }
  }

  /**
    A union of plain types filters to nothing when no member implements the
    type, to the one implementing member when there is only one, and
    otherwise to a union of exactly the implementing members.
   */
  lemma FilterByUnionOfNodes(a: Arena, o: Matcher.Oracle, ms: seq<Ty>, other: Ty)
    requires forall i | 0 <= i < |ms| :: ms[i].Node?
    ensures var r := FilterBy(a, o, Union(ms), other);
      && (r.None? <==> forall i | 0 <= i < |ms| :: !ModuleTypes.Implements(a, ms[i].id, other, {}))
      && (r.Some? && r.value.Node? ==>
           && r.value in ms && ModuleTypes.Implements(a, r.value.id, other, {})
           && forall i | 0 <= i < |ms| && ModuleTypes.Implements(a, ms[i].id, other, {}) :: ms[i] == r.value)
      && (r.Some? ==> r.value.Node? || r.value.Union?)
      && (r.Some? && r.value.Union? ==>
           forall x :: x in r.value.members <==> x in ms && ModuleTypes.Implements(a, x.id, other, {}))
  {
    var u := Union(ms);
    var fs := FilterMembers(a, o, ms, other, u);
    FilterMembersOfNodes(a, o, ms, other, u);
    if |fs| == 0 {
      forall i | 0 <= i < |ms|
        ensures !ModuleTypes.Implements(a, ms[i].id, other, {})
      {
        assert ms[i] in ms;
      }
    } else {
      assert fs[0] in fs;
      if |fs| == 1 {
        forall i | 0 <= i < |ms| && ModuleTypes.Implements(a, ms[i].id, other, {})
          ensures ms[i] == fs[0]
        {
          assert ms[i] in ms && ms[i] in fs;
        }
      }
    }
  }

  /** Filtering a union of plain types twice by the same type changes nothing the second time */
  lemma FilterIdempotentOnNodes(a: Arena, o: Matcher.Oracle, ms: seq<Ty>, other: Ty)
    requires forall i | 0 <= i < |ms| :: ms[i].Node?
    ensures var r := FilterBy(a, o, Union(ms), other);
      r.Some? ==> FilterBy(a, o, r.value, other) == r
  {
    var u := Union(ms);
    var fs := FilterMembers(a, o, ms, other, u);
    FilterMembersOfNodes(a, o, ms, other, u);
    if |fs| == 1 {
      assert fs[0] in fs;
    } else if |fs| > 1 {
      var u' := Union(fs);
      forall i | 0 <= i < |fs|
        ensures FilterBy(a, o, fs[i], other) == Some(fs[i])
      {
        assert fs[i] in fs;
      }
      FilterAllSurvive(a, o, fs, other, u');
    }
  }
}

=== FILE: wrappers.dfy ===
/** Optional values, used wherever the source returns `nil` for "absent". */
module Wrappers {

  datatype Option<+T> = None | Some(value: T) {

    /** Returns the value in Some, or a default when None */
    function GetOr(default: T): T {
      match this
      case Some(v) => v
      case None() => default
    }
  }
}
